=== FILE: README.md ===
# Hotel back-office state layer in Dafny

This project models the client-side state of a hotel back-office web
application. That state is the set of stores holding rooms, bookings and
their audit log, products, orders, staff, guests, services and payments. The
model also covers the pure decisions made inside the screens:
- the booking form, the room and product forms;
- the booking, guest and stock lists;
- the point-of-sale cart;
- the archive list;
- the product-history helpers.

Each store is an immutable sequence of records. Each store action is a
total function from the old state to the new one. Screen logic is a function
from what the screen holds to what it shows or what it asks the stores to do.

Clock readings, generated ids and random draws are parameters:
- `Date.now()`, `new Date().toISOString()`, uuids;
- `Math.random()`, as a draw in [0, 1).

The user's answer to a confirmation dialog is a boolean input. Operations
that the screens call but no store defines are modelled as effects that a
function returns, or as inputs:
- `markRoomAsOccupied` and `markRoomAsAvailable`;
- `getAvailableRooms` and `activeBookings`;
- `archives` and `purgeArchivedProduct`.

JavaScript's loose values matter in several places:
- a booking's room number is text from a drop-down;
- a product's price is a number after `addProduct` but form text after an
  edit;
- `Number()` turns text into a number or NaN.

`Base.Val` (`Str | Num | NaN`) models such values. It comes with:
- strict equality, in which NaN equals nothing;
- `Number()` conversion;
- `+` on numbers;
- truthiness;
- template-literal display.

Dates are `YYYY-MM-DD` text read as day numbers. An unreadable date behaves
like Invalid Date: every comparison with it is false.

Modules follow the source files. The shared helpers are `Base` (values,
strings, digits), `Seqs` (filter, keyed update, sums, sorting) and `Dates`.

Behaviours of the code worth noting:
- `addBooking` appends without any date or overlap check.
- The availability test uses closed day ranges (`start <= existingEnd &&
  end >= existingStart`), so back-to-back stays conflict. They are not
  half-open.
- `restockProduct` adds the quantity with no clamping at zero.
- `addOrder` only stamps a new id. It does no validation, item
  normalisation or total.
- The room store has no mark-occupied or mark-available action.
- The booking form prices a new booking's order by looking rooms up by a
  `roomNumber` property that rooms built by the room form lack, so the
  order comes to 0. `BookingModal.HandleSubmit` keeps that lookup
  (`CalculateCostAsWritten`); the id-based lookup is the separate
  `BookingModal.CalculateCost` (see "## Findings").

## Model

| member | source | states |
|---|---|---|
| RoomStore.AddRoom | src/store/useRoomStore.js:18-28 | A taken id leaves the list unchanged. Otherwise the room is appended after the old rooms. The id is present afterwards, and unique ids stay unique. |
| RoomStore.RemoveRoom | src/store/useRoomStore.js:29-35 | No room with the id remains. Every other room is kept, in order and with as many copies as before. An unknown id changes nothing. |
| RoomStore.UpdateRoom | src/store/useRoomStore.js:36-44 | The length is kept. Matching rooms are replaced whole and the others stay untouched. An unknown id is a no-op, and unique ids stay unique. |
| RoomStore.RemoveRoomKeepsUnique | src/store/useRoomStore.js:29-35 | Removing keeps the remaining ids unique. |
| ServiceStore.Seed | src/store/useServiceStore.js:5-10 | Four services with ids 1 to 4, positive prices and unique ids. |
| ServiceStore.AddService | src/store/useServiceStore.js:13-15 | Exactly one service is appended at the end. |
| ServiceStore.UpdateService | src/store/useServiceStore.js:16-20 | Updates are merged into matching services only. The length is kept, and an unknown id is a no-op. |
| ServiceStore.RemoveService | src/store/useServiceStore.js:21-23 | No service with the id remains. The others are kept in order, each with as many copies as before. An unknown id is a no-op. |
| ServiceStore.EditsKeepUnique | src/store/useServiceStore.js:16-23 | An update that carries no new id, and any removal, keep the ids unique. |
| ServiceStore.AddThenRemove | src/store/useServiceStore.js:13-23 | Removing an id right after adding a service with it is the same as removing it without the add. |
| BookingStore.AddToHistory | src/store/useBookingStore.js:29-41 | Exactly one entry is appended, with the given action and details. The old log is a prefix and the bookings are untouched. |
| BookingStore.AddBooking | src/store/useBookingStore.js:43-55 | The booking is appended unchecked and one "Added Booking" entry is logged. |
| BookingStore.RemoveBooking | src/store/useBookingStore.js:57-69 | No booking with the id remains. The others are kept in order, each with as many copies as before. One entry is logged, showing the first match's guest and room. An unknown id is logged as "Unknown". |
| BookingStore.UpdateBooking | src/store/useBookingStore.js:71-85 | The length is kept and only matching bookings are replaced. One "Updated Booking" entry is logged. |
| BookingStore.HistoryAppendOnly | src/store/useBookingStore.js:29-85 | Over any run of actions, the log grows by exactly one entry per action and keeps its old entries as a prefix. |
| GuestStore.AddGuestIfNotExists | src/store/useGuestStore.js:6-17 | A guest is added only when no name matches regardless of letter case, and the name is known afterwards. Case-insensitively distinct names stay distinct. |
| GuestStore.AddTwiceIsOnce | src/store/useGuestStore.js:8-16 | Asking again for the same name in any letter case adds nothing more. |
| OrderStore.AddOrder | src/store/useOrderStore.js:8-11 | Exactly one order is appended, under the fresh id rather than the id it came with. |
| OrderStore.UpdateOrder | src/store/useOrderStore.js:13-18 | The length is kept and only orders with the same id are replaced. An unknown id is a no-op. |
| OrderStore.RemoveOrder | src/store/useOrderStore.js:20-23 | No order with the id remains. The rest are kept in order, each with as many copies as before. An unknown id is a no-op. |
| OrderStore.AddThenRemove | src/store/useOrderStore.js:8-23 | With a fresh id, adding keeps ids unique, and removing that id restores the list. |
| OrderStore.UpdateRemoveKeepUnique | src/store/useOrderStore.js:13-23 | Update and remove keep ids unique. |
| StaffStore.GetPositions | src/store/useStaffStore.js:10-17 | The list is non-empty exactly for the six known departments. |
| StaffStore.GetFilteredStaff | src/store/useStaffStore.js:53-65 | The members that pass all three tests, in order, each with as many copies as the register holds; no other member. With "all", "all" and "" it is the whole list. |
| StaffStore.SearchOnly | src/store/useStaffStore.js:60-62 | A non-empty search keeps a member exactly when its name or position holds the search text, regardless of case. |
| StaffStore.AddStaff | src/store/useStaffStore.js:71-85 | One member is appended with status "Active", whatever was supplied. The form's fields are copied and the hire and update dates are the clock reading. |
| StaffStore.UpdateStaff | src/store/useStaffStore.js:87-99 | The patch is merged into matching members only, and ids are kept. |
| StaffStore.DeleteStaff | src/store/useStaffStore.js:101-107 | No member with the id remains. The others are kept in order, each with as many copies as before. |
| StaffStore.ChangeStaffStatus | src/store/useStaffStore.js:109-121 | Only the status and the update date of matching members change. |
| StaffStore.GetHousekeepingStaff | src/store/useStaffStore.js:124-129 | Exactly the active housekeeping members, in order, each with as many copies as the register holds. |
| StaffStore.HousekeepingIsAFilteredView | src/store/useStaffStore.js:124-129 | The housekeeping list equals the filtered view with department Housekeeping, status Active and no search. |
| StaffStore.AddKeepsUnique | src/store/useStaffStore.js:71-85 | Adding under a fresh id keeps the ids unique. |
| StaffStore.EditsKeepUnique | src/store/useStaffStore.js:87-121 | Updating, changing a status and deleting keep the ids unique. |
| StaffStore.AddThenDelete | src/store/useStaffStore.js:71-107 | Deleting a member just added under a fresh id restores the register. |
| PaymentStore.InitializePayment | src/store/usePaymentStore.js:44-58 | Stages a pending payment with no method, for the booking's amount. Any earlier staged payment is replaced and the ledger is untouched. |
| PaymentStore.ProcessPayment | src/store/usePaymentStore.js:60-81 | Without a staged payment nothing changes. Otherwise one "paid" copy is appended with the method and time, the staged payment is cleared, and the paid copy is returned. |
| PaymentStore.FailPayment | src/store/usePaymentStore.js:83-102 | Without a staged payment nothing changes. Otherwise one "failed" copy is appended with the reason as its notes, and the staged payment is cleared. |
| PaymentStore.RefundPayment | src/store/usePaymentStore.js:104-125 | An unknown id changes nothing. Otherwise one "refunded" record is appended, with amount −\|amount\|, linked to the original and copying its booking and method. |
| PaymentStore.GetFilteredPayments | src/store/usePaymentStore.js:131-142 | Exactly the payments matching status, method and date, in order, each with as many copies as the ledger holds. "all" is a wildcard and the date range includes both ends. |
| PaymentStore.ChoosingNarrows | src/store/usePaymentStore.js:131-142 | Choosing a status or method where the filter said "all" gives the old list put through the new filters, a sub-list of it. |
| PaymentStore.GetPaymentSummary | src/store/usePaymentStore.js:144-162 | Total revenue sums the paid amounts. Pending sums the pending amounts, so it is 0 for a ledger without pending entries. Today's revenue sums the paid amounts dated on the clock's day. Refunds issued sums the sizes of the refunded amounts, so it is never negative. |
| PaymentStore.AppendMovesSummary | src/store/usePaymentStore.js:144-162 | Appending one entry moves each of the four figures by exactly what that entry contributes to it. |
| PaymentStore.ProcessAddsRevenue | src/store/usePaymentStore.js:60-81 | Processing a staged payment raises total revenue by its amount, and today's revenue too when processed on the summary's day. Refunds issued and the pending total do not move. |
| PaymentStore.RefundAddsToRefunds | src/store/usePaymentStore.js:104-125 | A recorded refund raises refunds issued by the size of its amount and leaves both revenues alone. |
| PaymentStore.LedgerAppendOnly | src/store/usePaymentStore.js:44-125 | Over any run of actions, the ledger keeps its old entries, grows by at most one per action and never records a pending payment. |
| ProductStore.InventoryId | src/store/useProductStore.js:28 | "INV-" followed by a number in [100000, 999999], for every draw in [0, 1). |
| ProductStore.AddProduct | src/store/useProductStore.js:26-62 | One product is appended. Price and quantity are `Number()` of the input, so numbers are kept and typed text is parsed. Sold is 0 and it is not archived. Its history is one "added" entry. The defaults are "unit", 10, "N/A", "General Storage", consumable and not a room-service item. It gets an inventory id. |
| ProductStore.ChangeLog | src/store/useProductStore.js:66-92 | One "updated" entry per differing field among name, price and category, so 0 to 3 entries, stamped with the editor or "admin". |
| ProductStore.Patched | src/store/useProductStore.js:66-98 | The patched fields are taken from the patch and every other field is kept. The old history is a prefix, with at most three entries added. Nothing is logged exactly when name, category and price are all given unchanged. |
| ProductStore.UpdateProduct | src/store/useProductStore.js:64-103 | Products with another id are untouched. Matching products are patched. |
| ProductStore.PatchHistoryIgnored | src/store/useProductStore.js:93-97 | A history carried by the patch never reaches the store. |
| ProductStore.UpdateTwiceIsOnce | src/store/useProductStore.js:66-98 | Re-applying a full patch with a numeric price changes nothing and logs nothing more. |
| ProductStore.Restocked | src/store/useProductStore.js:109-122 | The quantity is the numeric sum of old and added amounts, or NaN if either is not a number. One "restocked" entry is added. Nothing but quantity, restock date and history changes. |
| ProductStore.RestockProduct | src/store/useProductStore.js:105-128 | Only products with the id are restocked. The rest are untouched. |
| ProductStore.RestocksAccumulate | src/store/useProductStore.js:105-128 | After any run of restocks, the quantity is the old one plus their sum, with no floor at zero. One entry is added per restock and nothing else changes. |
| BookingValidation.IsValidDateRange | src/utils/bookingValidation.js:2-6 | Its meaning is stated by ValidRangeIsCalendarOrder: true exactly when both dates read and check-in is strictly before check-out in calendar order. |
| BookingValidation.ValidRangeIsCalendarOrder | src/utils/bookingValidation.js:2-6 | The range is valid exactly when both dates read and check-in is strictly before check-out in calendar order. |
| BookingValidation.IsRoomAvailable | src/utils/bookingValidation.js:9-22 | Unavailable exactly when some booking blocks: same room, a blocking status and touching day ranges. An empty list leaves every room available. |
| BookingValidation.TouchIsSharedDay | src/utils/bookingValidation.js:20 | For non-empty ranges, the endpoint test means the two closed ranges share a day. |
| BookingValidation.NonBlockingBookingsIgnored | src/utils/bookingValidation.js:14-15 | Bookings for other rooms, or in statuses other than Confirmed and Checked-in, never block. |
| BookingValidation.AvailabilityAntitone | src/utils/bookingValidation.js:13 | Adding bookings can take availability away but never give it back. |
| BookingValidation.BackToBackConflicts | src/utils/bookingValidation.js:20 | A blocking stay that ends on the requested check-in day conflicts with the request. |
| BookingModal.ServiceToggle | src/components/BookingModal.js:43-53 | A selected id is removed, with the rest kept in order and each with as many copies as before. An unselected service is appended. Membership flips. |
| BookingModal.ToggleTwice | src/components/BookingModal.js:43-53 | Toggling twice restores a selection that lacked the service. A selected service comes back at the end. |
| BookingModal.Nights | src/components/BookingModal.js:59-61 | The day difference between the two dates. If that is 0, or either date does not read, it is 1. Never 0. |
| BookingModal.ServicesCost | src/components/BookingModal.js:63 | The left-to-right reduce: 0 for no services, else the cost of all but the last plus the last one's price. Non-negative when every price is. |
| BookingModal.ToggleChangesCost | src/components/BookingModal.js:43-63 | Toggling a service on adds exactly its price to the services cost. Toggling it off takes away the price of every selected copy. |
| BookingModal.CalculateCostAsWritten | src/components/BookingModal.js:55-65 | Looks the room up by its room-number property. The result is 0 when no room's number equals the form's, so in particular when no room has one. Otherwise it is rate × nights + services for the first room whose number equals the form's. |
| BookingModal.CalculateCost | src/components/BookingModal.js:56 | The corrected form of this lookup, by id (see "## Findings"): 0 when no room's id equals the form's room number, else rate × nights + services for the first room whose id does. |
| BookingModal.RoomAction | src/components/BookingModal.js:90-94 | Confirmed and Checked-in mark the room occupied, Cancelled and Completed mark it available, and any other status does neither. |
| BookingModal.HandleSubmit | src/components/BookingModal.js:67-97 | No store call without a guest name and room number. An edit updates under the kept id. An add creates one booking and one order costing CalculateCostAsWritten, with the fresh id. The room action follows. |
| BookingModal.OrderFollowsBooking | src/components/BookingModal.js:73-87 | A new booking's order carries the stored booking's id, guest, room, date and services. It is priced by the program's lookup, which gives 0 when no room carries a room number. |
| AddRoomModal.InitialForm | src/components/AddRoomModal.js:14-32 | Edit mode fills the form from the room, and its price reads back as the room's price. Otherwise the form is empty. |
| AddRoomModal.RoomValues | src/components/AddRoomModal.js:57-62 | The accepted room has the room number, trimmed of every JavaScript white-space character, as a non-empty id and a positive price. |
| AddRoomModal.HandleRoomSubmit | src/components/AddRoomModal.js:42-78 | Accepted exactly when no field is blank (empty or only JavaScript white space, U+3000 and U+FEFF included) and the price is a positive number. A refusal changes nothing. An acceptance updates in edit mode, adds otherwise, and clears the form. |
| AddRoomModal.OnlyTheFormRoomIsNew | src/components/AddRoomModal.js:57-69 | The only room a submit can add to the list has the trimmed room number as id and a positive price. |
| AddRoomModal.EditUnchangedWritesBack | src/components/AddRoomModal.js:14-78 | Opening a room whose id has no JavaScript white space at either end for editing, and saving it untouched, writes the same room back. |
| AddProductModal.InitialForm | src/components/AddProductModal.js:21-38 | Edit mode shows the product's four fields. Otherwise the form is empty. |
| AddProductModal.EditData | src/components/AddProductModal.js:69-76 | The edit patch keeps the product's id, sales count and restock date and carries the form's fields. |
| AddProductModal.SubmitCall | src/components/AddProductModal.js:61-84 | Exactly one store call when all four fields are filled in, and none otherwise. It is an update in edit mode and an add otherwise. |
| AddProductModal.HandleSubmit | src/components/AddProductModal.js:61-89 | A refusal changes nothing. An edit keeps id, sales and restock date and changes no other product. An add appends one product with sales 0. Either way the form is cleared and edit mode left. |
| AddProductModal.UntouchedEditChangesNothing | src/components/AddProductModal.js:61-79 | Saving an untouched edit leaves the stored product exactly as it was, with no history entry. |
| ArchiveManager.FilteredArchives | src/components/ArchiveManager.jsx:9-12 | The archives whose inventory id or name holds the filter regardless of case, in order, each with as many copies as before. An empty filter keeps every archive that has either. |
| ArchiveManager.ToggleSelectAll | src/components/ArchiveManager.jsx:26-28 | Checking selects exactly the listed ids in order. Unchecking clears the selection. |
| ArchiveManager.ToggleSelectOne | src/components/ArchiveManager.jsx:30-34 | Checking appends the id. Unchecking removes every copy and keeps the other ids in order, each with as many copies as before. |
| ArchiveManager.CheckThenUncheck | src/components/ArchiveManager.jsx:30-34 | Check then uncheck equals uncheck alone. That is the old selection when the id was not in it. |
| ArchiveManager.HandlePurgeSelected | src/components/ArchiveManager.jsx:14-24 | Nothing happens with an empty selection or without confirmation. Otherwise each selected id is purged in order and the selection is cleared. |
| ArchiveManager.SelectAllThenPurge | src/components/ArchiveManager.jsx:14-28 | Select-all followed by a confirmed purge purges exactly the listed archives. |
| ArchiveManager.SelectAllCheckedAsWritten | src/components/ArchiveManager.jsx:74 | The length test as written. StaleSelectionLooksComplete shows it can hold with no listed row selected, and AllListedSelectedAgrees shows it agrees with the intended test on selections of listed ids without repeats. |
| BookingsPage.HandleFilterChange | src/pages/Bookings.js:19-25 | The named filter takes the value and the other two are kept. |
| BookingsPage.VisibleBookings | src/pages/Bookings.js:92-107 | Exactly the bookings passing all three tests, in stored order, each with as many copies as stored. All of them with no filter set. |
| BookingsPage.EmptyNameMatchesAll | src/pages/Bookings.js:94-96 | An empty guest-name filter passes every booking. |
| BookingsPage.SingleFilterIsEquality | src/pages/Bookings.js:98-104 | With only a status or only a date set, a booking is listed exactly when that field equals it. |
| BookingsPage.StatusNarrows | src/pages/Bookings.js:92-107 | Choosing a status filters the current list further. |
| GuestsPage.GuestKey | src/pages/Guests.js:10-12 | The lower-cased email if any, else the lower-cased name. No key when both are empty. |
| GuestsPage.GroupByFacts | src/pages/Guests.js:9-29 | The grouping has one group per key, holding exactly that key's bookings in order. Every keyed booking is filed. |
| GuestsPage.GroupBySizes | src/pages/Guests.js:9-29 | The group sizes sum to the number of keyed bookings. |
| GuestsPage.Cards | src/pages/Guests.js:9-29 | One card per guest key. Its contact comes from the guest's first booking, with "N/A" defaults, and it has one visit per booking. Card sizes sum to the keyed bookings. |
| GuestsPage.Guests | src/pages/Guests.js:32-34 | The same cards, ordered by number of bookings, most first. |
| GuestsPage.StatusCounts | src/pages/Guests.js:47-51 | One count per distinct status, with an empty status counted as "Unknown". The counts sum to the card's visits. |
| GuestsPage.RecentCheckIns | src/pages/Guests.js:53-57 | At most three non-empty check-ins, drawn from the visits and newest first. None left out is newer than one shown. |
| ProductsPage.EscapeCSV | src/pages/Products.js:24-25 | The field is quoted at both ends, a missing value gives `""`, and reading it back gives the text. |
| ProductsPage.BodyRoundTrip | src/pages/Products.js:25 | Doubling the quotes is undone by collapsing `""` back to `"`. |
| ProductsPage.RecordRoundTrip | src/pages/Products.js:29 | A joined record of quoted fields reads back as the fields' texts. |
| ProductsPage.CsvRoundTrip | src/pages/Products.js:27-30 | A table of records joined by CRLF reads back record by record. |
| ProductsPage.ExportCsv | src/pages/Products.js:18-30 | Its content is stated by ExportRoundTrip: the header, then one seven-field record per product in order, reading back intact. |
| ProductsPage.ExportRoundTrip | src/pages/Products.js:18-30 | The export reads back as the header, then one seven-field record per product in order, quotes and commas intact. |
| ProductsPage.FilteredProducts | src/pages/Products.js:42-44 | The products whose inventory id holds the search regardless of case, in order, each with as many copies as before. A product without one is never listed, even for an empty search. |
| ProductsPage.AddedProductIsFound | src/pages/Products.js:42-44 | A product just added is found by searching for its own inventory id. |
| ProductHistory.FormatActionType | src/utils/productHistoryHelpers.js:1-12 | The fixed label for each of the seven known kinds. Any other kind has its underscores made spaces, other characters in place. No label holds an underscore. |
| ProductHistory.SpacingRoundTrip | src/utils/productHistoryHelpers.js:20 | The spaces put before capitals are exactly the ones removed again, so no text is lost. |
| ProductHistory.ReplaceAllRemoves | src/utils/productHistoryHelpers.js:24-25 | After a global replacement whose replacement cannot recreate the pattern, the pattern no longer occurs. |
| ProductHistory.TrueBecomesYes | src/utils/productHistoryHelpers.js:24 | After the `: true` step no `: true` is left. |
| ProductHistory.Formatted | src/utils/productHistoryHelpers.js:19-25 | The formatted text holds no `: false`. Its first letter is not lower case. |
| ProductHistory.FormatChangeMessage | src/utils/productHistoryHelpers.js:14-35 | Null exactly for lines mentioning an unset value. Consumable lines are recognised before room-service lines. Any other line is the formatted text. |
| ProductHistory.Present | src/utils/productHistoryHelpers.js:45 | The values of the non-null messages, in order and as often as they occur: position by position, the non-null entries that filtering keeps. |
| ProductHistory.MeaningfulChanges | src/utils/productHistoryHelpers.js:43-45 | Position by position, the values of the non-null messages of the detail's lines, in line order and one per such line. So at most one message per line, and every line without an unset value yields one. |
| SalesPage.AddToCart | src/pages/SalesPage.js:14-26 | A product in the cart gets one more, with the length kept. A new product is appended with quantity 1. One line per product with quantities ≥ 1 is preserved. |
| SalesPage.RemoveFromCart | src/pages/SalesPage.js:28-30 | The product is gone. The other lines are kept in order, each with as many copies as before. Well-formedness is preserved. |
| SalesPage.UpdateQuantity | src/pages/SalesPage.js:32-41 | A quantity below 1 is ignored. Otherwise only that product's quantity changes, so quantities stay ≥ 1. |
| SalesPage.CalculateTotal | src/pages/SalesPage.js:43-45 | Never text. Its value is stated by TotalIsSumOfLines: a number exactly when every price reads as one, and then the sum of price × quantity. |
| SalesPage.TotalIsSumOfLines | src/pages/SalesPage.js:43-45 | The total is a number exactly when every price reads as one. It is then the sum of price × quantity. |
| SalesPage.HandleCheckout | src/pages/SalesPage.js:47-56 | A checkout is produced exactly with a selected booking and a non-empty cart. It carries the booking id, the cart and the summed total. |

## Left out

- Persistence is not modelled: browser storage, JSON and compression. Stores are in-memory sequences.
- The store wiring (`create`, `set`) is not modelled. Each action is one state transition.
- Toasts, alerts, navigation and the CSV download are not modelled. Confirmation dialogs are boolean inputs.
- Prices, amounts and quantities are whole numbers. Fractional prices and floating-point rounding are not modelled, and `parseFloat` is read as a whole-number parse (`Base.ParseInt`).
- GuestsPage.RecentCheckIns: unreadable check-in dates are ranked last. In the source the comparator gives NaN for them, which leaves their place to the engine; the date inputs never produce one.
- Base.ToNumber: `Number()` is modelled for optional `-` plus decimal digits only. It does not trim white space and does not read `"1e3"`, hex or fractions.
- Letter case is folded for ASCII letters only.
- Dates are whole days. Time of day and time zones are not modelled. Payment times are milliseconds, and "today" is the UTC day.
- Object key order and prototype property names are not modelled, so a guest key or status named like an `Object.prototype` property is treated like any other.
- GuestsPage.Guests: the sort is proved to keep the cards and order them by size, but not to be stable.
- GuestsPage.StatusCounts: the counts come in first-seen order, as the entries of a plain object with non-numeric keys do. Numeric-looking statuses, which the object would order first, are not modelled.
- BookingStore: the log's check-in, check-out and status details read properties bookings do not have, so they are always absent (None).
- PaymentStore.InitializePayment: the booking's `totalAmount` and `roomType` are taken as input, because the booking form does not set them.
- ProductStore.Patched: `updatedBy` is used for the log entries but not copied onto the stored product.
- AddProductModal.AddData: the id, sales count and date the form sets in add mode are overwritten by `addProduct`, so they are not carried.
- ProductHistory.Formatted: `.replace(/→/g, '→')` is the identity and is omitted. Only the absence of `: false` is proved for the final text. `: true` is proved gone after its own step (`TrueBecomesYes`), but its absence after the `: false` step is not proved.
- `renderHistoryDetail`'s JSX, and every screen without logic of its own, are left out: Dashboard, Payments, Staff, Orders, Categories, the modals other than the booking, room and product forms, and the housekeeping demo.
- The archive, restore, use and adjust features are left out, because no store defines them.
- The room store's availability helpers are left out for the same reason.

## Findings

| source | as written | input that shows it | evidently intended | confidence | as-written member | corrected member |
|---|---|---|---|---|---|---|
| src/components/BookingModal.js:56 | `calculateCost` looks the room up by `r.roomNumber`. Rooms built by the room form have only `id`, so no room is found and the cost is 0. | Room `{id:"101", price:10000}`, a booking for "101" over two nights, no services: cost 0 | Look the room up by `id`, giving rate × nights + services (20000 here) | not executed | BookingModal.FormRoomCostsNothing | BookingModal.AgreesWhenNumbersAreIds |
| src/utils/bookingValidation.js:14 | `b.roomNumber !== Number(roomNumber)` compares the booking's room number, which is text from the drop-down, with a number. Such a booking never blocks. | A confirmed booking with roomNumber "101" over the requested dates: room "101" reported available | Compare both sides as numbers, so the overlapping booking blocks | not executed | BookingValidation.TextRoomCounterexample | BookingValidation.ByNumberAgreesOnNumbers |
| src/components/ArchiveManager.jsx:74 | The select-all box is checked when the selection is as long as the list. A selection left over from an earlier search can have that length without holding any listed row. | Select archive 1, then change the search so only archive 2 is listed: the box shows checked | Checked when every listed row is selected | not executed | ArchiveManager.StaleSelectionLooksComplete | ArchiveManager.AllListedSelectedAgrees |

=== FILE: add_product_modal.dfy ===
/** The product form (src/components/AddProductModal.js): four inputs, a
    guard that all are filled in, and exactly one store call per accepted
    submit. Price and quantity hold the stored numbers when an edit opens
    and typed text once changed. */
module AddProductModal {
  import opened Base
  import ProductStore

  type Product = ProductStore.Product

  datatype ProductForm = ProductForm(name: string, category: string, price: Val, quantity: Val)

  const EmptyForm := ProductForm("", "", Str(""), Str(""))

  /** The effect that fills the form when it opens: the product being edited,
      or empty inputs. */
  function InitialForm(editProduct: Option<Product>): (f: ProductForm)
    ensures editProduct.None? ==> f == EmptyForm
    ensures editProduct.Some? ==>
              f.name == editProduct.value.name && f.category == editProduct.value.category
              && f.price == editProduct.value.price && f.quantity == editProduct.value.quantity
  {
    match editProduct
    case Some(p) => ProductForm(p.name, p.category, p.price, p.quantity)
    case None => EmptyForm
  }

  /** `!name || !category || !price || !quantity` refuses the submit. */
  predicate Filled(f: ProductForm) {
    f.name != "" && f.category != "" && Truthy(f.price) && Truthy(f.quantity)
  }

  /** The one store call a submit makes. */
  datatype StoreCall =
    | UpdateCall(patch: ProductStore.ProductPatch)
    | AddCall(input: ProductStore.NewProduct)

  /** `productData` in edit mode: the form over the edited product's id,
      sales count and restock date. */
  function EditData(f: ProductForm, e: Product): (u: ProductStore.ProductPatch)
    ensures u.id == e.id && u.sold == Some(e.sold) && u.lastRestocked == Some(e.lastRestocked)
    ensures u.name == Some(f.name) && u.category == Some(f.category)
    ensures u.price == Some(f.price) && u.quantity == Some(f.quantity)
    ensures u.updatedBy.None? && u.history.None?
  {
    ProductStore.ProductPatch(e.id, Some(f.name), Some(f.category), Some(f.price), Some(f.quantity),
                              Some(e.lastRestocked), Some(e.sold), None, None)
  }

  /** `productData` in add mode. The id, sales count and date it sets are
      replaced by `addProduct`'s own, so only the form's fields reach it. */
  function AddData(f: ProductForm): (n: ProductStore.NewProduct)
    ensures n.name == f.name && n.category == f.category && n.price == f.price && n.quantity == f.quantity
    ensures n.unit.None? && n.supplier.None? && n.location.None? && n.addedBy.None?
  {
    ProductStore.NewProduct(f.name, f.category, f.price, f.quantity, None, None, None, None, None, None, None)
  }

  /** The store call a submit makes, if any: none for an unfilled form, an
      update in edit mode, an add otherwise. */
  function SubmitCall(f: ProductForm, editProduct: Option<Product>): (c: Option<StoreCall>)
    ensures c.Some? <==> Filled(f)
    ensures c.Some? ==> (c.value.UpdateCall? <==> editProduct.Some?)
    ensures c.Some? && editProduct.Some? ==> c.value == UpdateCall(EditData(f, editProduct.value))
    ensures c.Some? && editProduct.None? ==> c.value == AddCall(AddData(f))
  {
    if !Filled(f) then None
    else if editProduct.Some? then Some(UpdateCall(EditData(f, editProduct.value)))
    else Some(AddCall(AddData(f)))
  }

  datatype Submit = Submit(products: seq<Product>, form: ProductForm, editProduct: Option<Product>)

  /** `handleSubmit`: a refused form changes nothing; an accepted one makes
      its store call, leaves edit mode and clears the form. `now`, `draw` and
      `timestamp` are the clock readings and random draw the add needs. */
  function HandleSubmit(products: seq<Product>, f: ProductForm, editProduct: Option<Product>,
                        now: int, draw: real, timestamp: string): (r: Submit)
    requires 0.0 <= draw < 1.0
    ensures !Filled(f) ==> r == Submit(products, f, editProduct)
    ensures Filled(f) ==> r.form == EmptyForm && r.editProduct.None?
    ensures Filled(f) && editProduct.Some? ==>
              |r.products| == |products|
              && forall i :: 0 <= i < |products| && products[i].id == editProduct.value.id ==>
                   r.products[i].id == editProduct.value.id && r.products[i].sold == editProduct.value.sold
                   && r.products[i].lastRestocked == editProduct.value.lastRestocked
                   && r.products[i].name == f.name && r.products[i].price == f.price
    ensures Filled(f) && editProduct.Some? ==>
              forall i :: 0 <= i < |products| && products[i].id != editProduct.value.id ==> r.products[i] == products[i]
    ensures Filled(f) && editProduct.None? ==>
              |r.products| == |products| + 1 && r.products[..|products|] == products
              && r.products[|products|].sold == 0 && r.products[|products|].name == f.name
  {
    match SubmitCall(f, editProduct)
    case None => Submit(products, f, editProduct)
    case Some(UpdateCall(u)) => Submit(ProductStore.UpdateProduct(products, u, timestamp), EmptyForm, None)
    case Some(AddCall(n)) => Submit(ProductStore.AddProduct(products, n, now, draw, timestamp), EmptyForm, None)
  }

  /** Opening a stored product for editing and saving it untouched changes
      nothing in the store: no history entry, no field. */
  lemma {:induction false} UntouchedEditChangesNothing(products: seq<Product>, i: nat, now: int, draw: real, timestamp: string)
    requires 0.0 <= draw < 1.0 && i < |products|
    requires Filled(InitialForm(Some(products[i])))
    ensures HandleSubmit(products, InitialForm(Some(products[i])), Some(products[i]), now, draw, timestamp).products[i]
            == products[i]
  {
    var e := products[i];
    var u := EditData(InitialForm(Some(e)), e);
    var q := ProductStore.Patched(e, u, timestamp);
    assert q.history == e.history;
  }

  /** Retyping the stored price as text, though the amount is the same,
      logs a price change and stores the text: `!==` compares the number
      with the string. */
  lemma RetypedPriceIsLogged(products: seq<Product>, i: nat, n: int, now: int, draw: real, timestamp: string)
    requires 0.0 <= draw < 1.0 && i < |products| && n != 0
    requires products[i].price == Num(n) && products[i].name != "" && products[i].category != ""
    requires Truthy(products[i].quantity)
    ensures var f := InitialForm(Some(products[i])).(price := Str(IntToString(n)));
      var r := HandleSubmit(products, f, Some(products[i]), now, draw, timestamp).products[i];
      |r.history| == |products[i].history| + 1 && r.price == Str(IntToString(n))
  {
    var e := products[i];
    var f := InitialForm(Some(e)).(price := Str(IntToString(n)));
    var u := EditData(f, e);
    assert !ProductStore.NameDiffers(e, u) && ProductStore.PriceDiffers(e, u) && !ProductStore.CategoryDiffers(e, u);
  }
}

=== FILE: add_room_modal.dfy ===
/** The room form (src/components/AddRoomModal.js): what it shows when
    opened, when it accepts a submit, and the room it hands to the store. */
module AddRoomModal {
  import opened Base
  import RoomStore

  type Room = RoomStore.Room

  /** The four text inputs. */
  datatype RoomForm = RoomForm(roomNumber: string, roomType: string, status: string, price: string)

  const EmptyForm := RoomForm("", "", "", "")

  /** `isEditMode = !!updatedRoom?.id` */
  predicate IsEditMode(updatedRoom: Option<Room>) {
    updatedRoom.Some? && updatedRoom.value.id != ""
  }

  /** The effect that fills the form: the room's fields with `''` for
      missing ones in edit mode, all empty otherwise. */
  function InitialForm(updatedRoom: Option<Room>): (f: RoomForm)
    ensures !IsEditMode(updatedRoom) ==> f == EmptyForm
    ensures IsEditMode(updatedRoom) ==>
              && f.roomNumber == updatedRoom.value.id && f.roomType == updatedRoom.value.roomType
              && f.status == updatedRoom.value.status
              && ParseInt(f.price) == Some(updatedRoom.value.price)
  {
    if IsEditMode(updatedRoom) then
      var room := updatedRoom.value;
      ParseIntToString(room.price);
      RoomForm(room.id, room.roomType, room.status, IntToString(room.price))
    else EmptyForm
  }

  predicate Blank(s: string) {
    Trim(s) == ""
  }

  /** The price the form reads, when it reads as a number at all. */
  function Price(text: string): Option<int> {
    ParseInt(text)
  }

  /** The submit guard: no blank room number, type or status, and a price
      that is a number above zero. */
  predicate Acceptable(f: RoomForm) {
    !Blank(f.roomNumber) && !Blank(f.roomType) && !Blank(f.status)
    && f.price != "" && Price(f.price).Some? && Price(f.price).value > 0
  }

  /** `roomValues`: the trimmed room number is the id; type and status go
      in as typed. */
  function RoomValues(f: RoomForm): (r: Room)
    requires Acceptable(f)
    ensures r.id == Trim(f.roomNumber) && r.id != "" && r.price > 0
    ensures r.roomType == f.roomType && r.status == f.status && r.roomNumber.None?
  {
    RoomStore.Room(Trim(f.roomNumber), f.roomType, f.status, Price(f.price).value, None)
  }

  datatype Submit = Submit(rooms: seq<Room>, form: RoomForm, accepted: bool)

  /** `handleRoomSubmit`: a refused form is left as it is and the store is
      not touched; an accepted one updates the room in edit mode, adds it
      otherwise, and clears the form. */
  function HandleRoomSubmit(rooms: seq<Room>, f: RoomForm, editMode: bool): (r: Submit)
    ensures r.accepted <==> Acceptable(f)
    ensures !r.accepted ==> r.rooms == rooms && r.form == f
    ensures r.accepted ==> r.form == EmptyForm
    ensures r.accepted && editMode ==> r.rooms == RoomStore.UpdateRoom(rooms, RoomValues(f))
    ensures r.accepted && !editMode ==> r.rooms == RoomStore.AddRoom(rooms, RoomValues(f))
    ensures r.accepted && !editMode ==> RoomStore.HasRoom(r.rooms, Trim(f.roomNumber))
  {
    if !Acceptable(f) then Submit(rooms, f, false)
    else
      var room := RoomValues(f);
      var next := if editMode then RoomStore.UpdateRoom(rooms, room) else RoomStore.AddRoom(rooms, room);
      Submit(next, EmptyForm, true)
  }

  /** A room number made only of white space, JavaScript's full set of it,
      is refused and leaves the rooms as they were; white space around a
      room number is not part of the id. */
  lemma WhiteSpaceNumberRefused(rooms: seq<Room>, f: RoomForm, editMode: bool)
    requires forall i :: 0 <= i < |f.roomNumber| ==> IsSpace(f.roomNumber[i])
    ensures var r := HandleRoomSubmit(rooms, f, editMode);
      !r.accepted && r.rooms == rooms
  {
  }

  /** The full-width space an input method produces counts as white space:
      alone it is refused. */
  lemma FullWidthSpaceRefused(rooms: seq<Room>)
    ensures !HandleRoomSubmit(rooms, RoomForm("\U{3000}", "Single", "Available", "5"), false).accepted
  {
    WhiteSpaceNumberRefused(rooms, RoomForm("\U{3000}", "Single", "Available", "5"), false);
  }

  /** Adding or updating with a room leaves every entry that was not
      already in the list equal to that room. */
  lemma StoreOnlyPlaces(rooms: seq<Room>, room: Room, editMode: bool)
    ensures var next := if editMode then RoomStore.UpdateRoom(rooms, room) else RoomStore.AddRoom(rooms, room);
      forall i :: 0 <= i < |next| && next[i] !in rooms ==> next[i] == room
  {
    if !editMode && !RoomStore.HasRoom(rooms, room.id) {
      assert RoomStore.AddRoom(rooms, room) == rooms + [room];
    }
  }

  /** The only room a submit can put into the list is the one built from
      the form: its id is the trimmed room number and its price positive. */
  lemma OnlyTheFormRoomIsNew(rooms: seq<Room>, f: RoomForm, editMode: bool)
    ensures var r := HandleRoomSubmit(rooms, f, editMode).rooms;
      forall i :: 0 <= i < |r| && r[i] !in rooms ==> r[i].id == Trim(f.roomNumber) && r[i].price > 0
  {
    if Acceptable(f) {
      var room := RoomValues(f);
      StoreOnlyPlaces(rooms, room, editMode);
    }
  }

  /** A room with a positive price and a room number without surrounding
      blanks fills a form that is accepted and gives the room back (apart
      from the unused `roomNumber` property). */
  lemma EditFormReadsBack(room: Room)
    requires room.id != "" && !IsSpace(room.id[0]) && !IsSpace(room.id[|room.id| - 1])
    requires !Blank(room.roomType) && !Blank(room.status) && room.price > 0
    ensures Acceptable(InitialForm(Some(room)))
    ensures RoomValues(InitialForm(Some(room))) == room.(roomNumber := None)
  {
    var f := InitialForm(Some(room));
    assert Trim(f.roomNumber) == room.id;
    assert Price(f.price) == Some(room.price);
  }

  /** Such a room, opened for editing and saved unchanged, is written back
      as it was. */
  lemma EditUnchangedWritesBack(rooms: seq<Room>, room: Room)
    requires room.id != "" && !IsSpace(room.id[0]) && !IsSpace(room.id[|room.id| - 1])
    requires !Blank(room.roomType) && !Blank(room.status) && room.price > 0
    ensures var f := InitialForm(Some(room));
      var r := HandleRoomSubmit(rooms, f, true);
      r.accepted && r.form == EmptyForm && r.rooms == RoomStore.UpdateRoom(rooms, room.(roomNumber := None))
  {
    EditFormReadsBack(room);
  }
}

=== FILE: archive_manager.dfy ===
/** The archive list (src/components/ArchiveManager.jsx): a search over
    archived products, a selection of ids kept by check boxes, and the bulk
    purge. The archive list and `purgeArchivedProduct` are not defined by
    the product store, so the archives are an input and each purge is
    returned as the id it is called with. */
module ArchiveManager {
  import opened Base
  import Seqs

  datatype Archive = Archive(id: int, inventoryId: Option<string>, name: Option<string>)

  /** `a.inventoryId?.toLowerCase().includes(f) || a.name?.toLowerCase().includes(f)` */
  predicate Found(a: Archive, filter: string) {
    (a.inventoryId.Some? && ContainsIgnoringCase(a.inventoryId.value, filter))
    || (a.name.Some? && ContainsIgnoringCase(a.name.value, filter))
  }

  /** `filteredArchives`: the archives matching on inventory id or name, in
      order; with an empty filter, every archive that has either. */
  function FilteredArchives(archives: seq<Archive>, filter: string): (r: seq<Archive>)
    ensures Seqs.IsSubseq(r, archives)
    ensures forall x: Archive :: multiset(r)[x] == if Found(x, filter) then multiset(archives)[x] else 0
    ensures forall i :: 0 <= i < |r| ==> Found(r[i], filter)
    ensures forall i :: 0 <= i < |archives| && Found(archives[i], filter) ==> archives[i] in r
    ensures filter == "" ==> forall i :: 0 <= i < |archives| && (archives[i].inventoryId.Some? || archives[i].name.Some?) ==> archives[i] in r
  {
    assert filter == "" ==> forall i :: 0 <= i < |archives| && (archives[i].inventoryId.Some? || archives[i].name.Some?) ==> Found(archives[i], filter) by {
      forall i | 0 <= i < |archives| && (archives[i].inventoryId.Some? || archives[i].name.Some?) && filter == ""
        ensures Found(archives[i], filter)
      {
        if archives[i].inventoryId.Some? {
          ContainsEmpty(Lower(archives[i].inventoryId.value));
        } else {
          ContainsEmpty(Lower(archives[i].name.value));
        }
      }
    }
    Seqs.FilterCounts(archives, (a: Archive) => Found(a, filter));
    Seqs.Filter(archives, (a: Archive) => Found(a, filter))
  }

  function Ids(archives: seq<Archive>): (r: seq<int>)
    ensures |r| == |archives| && forall i :: 0 <= i < |archives| ==> r[i] == archives[i].id
  {
    seq(|archives|, i requires 0 <= i < |archives| => archives[i].id)
  }

  // --------------------------------------------------------- selection

  /** `toggleSelectAll`: checking selects exactly the listed ids, in list
      order; unchecking clears the selection. */
  function ToggleSelectAll(filtered: seq<Archive>, checked: bool): (r: seq<int>)
    ensures checked ==> |r| == |filtered| && forall i :: 0 <= i < |r| ==> r[i] == filtered[i].id
    ensures !checked ==> r == []
  {
    if checked then Ids(filtered) else []
  }

  /** `toggleSelectOne`: checking appends the id; unchecking removes every
      copy of it and keeps the rest in order. */
  function ToggleSelectOne(selected: seq<int>, id: int, checked: bool): (r: seq<int>)
    ensures checked ==> r == selected + [id]
    ensures !checked ==> id !in r && Seqs.IsSubseq(r, selected)
    ensures !checked ==> forall x: int :: multiset(r)[x] == if x != id then multiset(selected)[x] else 0
    ensures !checked ==> forall i :: 0 <= i < |selected| && selected[i] != id ==> selected[i] in r
  {
    Seqs.FilterCounts(selected, (i: int) => i != id);
    if checked then selected + [id] else Seqs.Filter(selected, (i: int) => i != id)
  }

  /** Checking then unchecking a box leaves the selection as unchecking
      alone would, which is the old selection when the id was not in it. */
  lemma {:induction false} CheckThenUncheck(selected: seq<int>, id: int)
    ensures ToggleSelectOne(ToggleSelectOne(selected, id, true), id, false) == ToggleSelectOne(selected, id, false)
    ensures id !in selected ==> ToggleSelectOne(ToggleSelectOne(selected, id, true), id, false) == selected
  {
    var p := (i: int) => i != id;
    Seqs.FilterAppend(selected, [id], p);
    assert Seqs.Filter([id], p) == [];
    assert selected + [id] == ToggleSelectOne(selected, id, true);
    if id !in selected {
      assert forall i :: 0 <= i < |selected| ==> p(selected[i]);
    }
  }

  // ------------------------------------------------------------- purge

  datatype Purge = Purge(purged: seq<int>, selected: seq<int>)

  /** `handlePurgeSelected`: nothing with an empty selection or without the
      user's confirmation; otherwise one purge per selected id, in order, and
      the selection cleared. */
  function HandlePurgeSelected(selected: seq<int>, confirmed: bool): (r: Purge)
    ensures selected == [] ==> r == Purge([], selected)
    ensures !confirmed ==> r == Purge([], selected)
    ensures selected != [] && confirmed ==> r.purged == selected && r.selected == []
    ensures r.selected == [] || r.selected == selected
  {
    if |selected| == 0 then Purge([], selected)
    else if confirmed then Purge(selected, [])
    else Purge([], selected)
  }

  /** Selecting all listed archives and purging purges exactly those. */
  lemma SelectAllThenPurge(archives: seq<Archive>, filter: string)
    requires FilteredArchives(archives, filter) != []
    ensures var sel := ToggleSelectAll(FilteredArchives(archives, filter), true);
      var r := HandlePurgeSelected(sel, true);
      r.selected == [] && |r.purged| == |FilteredArchives(archives, filter)|
      && forall i :: 0 <= i < |r.purged| ==> r.purged[i] == FilteredArchives(archives, filter)[i].id
  {
    var f := FilteredArchives(archives, filter);
    assert |ToggleSelectAll(f, true)| > 0;
  }

  // ---------------------------------------------------------- select all

  /** As written: the select-all box is checked when the selection is as
      long as the list and the list is not empty. */
  predicate SelectAllCheckedAsWritten(selected: seq<int>, filtered: seq<Archive>) {
    |selected| == |filtered| && |filtered| > 0
  }

  /** A selection made before the search changed can match the new list's
      length without holding any of its rows: the box then shows checked
      while no listed row is selected. */
  lemma StaleSelectionLooksComplete(a: Archive, b: Archive)
    requires a.id != b.id
    ensures SelectAllCheckedAsWritten([a.id], [b])
    ensures !AllListedSelected([a.id], [b])
  {
    assert [b][0].id !in [a.id];
  }

  /** Corrected: checked when the list is not empty and every listed row is
      selected. */
  predicate AllListedSelected(selected: seq<int>, filtered: seq<Archive>) {
    |filtered| > 0 && forall i :: 0 <= i < |filtered| ==> filtered[i].id in selected
  }

  /** The corrected box is checked exactly after select-all; where the
      selection holds only listed rows, without repeats, and the list has no
      repeated id, it agrees with the length test. */
  lemma {:induction false} AllListedSelectedAgrees(selected: seq<int>, filtered: seq<Archive>, checked: bool)
    requires |filtered| > 0
    ensures AllListedSelected(ToggleSelectAll(filtered, checked), filtered) <==> checked
    ensures Seqs.Distinct(selected) && Seqs.Distinct(Ids(filtered))
            && (forall k :: 0 <= k < |selected| ==> selected[k] in Ids(filtered)) ==>
              (AllListedSelected(selected, filtered) <==> SelectAllCheckedAsWritten(selected, filtered))
  {
    var ids := Ids(filtered);
    assert filtered[0].id !in ToggleSelectAll(filtered, false);
    if checked {
      forall i | 0 <= i < |filtered| ensures filtered[i].id in ToggleSelectAll(filtered, true) {
        assert ToggleSelectAll(filtered, true)[i] == filtered[i].id;
      }
    }
    if Seqs.Distinct(selected) && Seqs.Distinct(ids) && (forall k :: 0 <= k < |selected| ==> selected[k] in ids) {
      Seqs.DistinctWithin(selected, ids);
      if |selected| == |filtered| {
        forall i | 0 <= i < |filtered| ensures filtered[i].id in selected {
          assert ids[i] == filtered[i].id;
        }
      }
      if AllListedSelected(selected, filtered) {
        forall k | 0 <= k < |ids| ensures ids[k] in selected {
          assert ids[k] == filtered[k].id;
        }
        Seqs.DistinctWithin(ids, selected);
      }
    }
  }
}

=== FILE: base.dfy ===
/** Small building blocks shared by every store: an option type, a model of
    the loosely typed JavaScript values the stores compare and coerce, and
    the string operations the filters use (lower-casing, substring search,
    trimming, number formatting and parsing). */
module Base {

  datatype Option<+T> = None | Some(value: T) {
    function GetOr(default: T): T {
      match this
      case Some(v) => v
      case None => default
    }
  }

  /** A JavaScript scalar as the stores see it: text typed into a form, a
      number, or the NaN that `Number()` yields for text that is not one. */
  datatype Val = Str(s: string) | Num(n: int) | NaN

  /** JavaScript truthiness: "", 0 and NaN are falsy. */
  predicate Truthy(v: Val) {
    match v
    case Str(s) => s != ""
    case Num(n) => n != 0
    case NaN => false
  }

  /** `===`: same type and value, and NaN equals nothing. */
  predicate StrictEq(a: Val, b: Val) {
    a == b && !a.NaN?
  }

  /** `Number(v)`: numbers stay, text is parsed (the empty text is 0). */
  function ToNumber(v: Val): (r: Val)
    ensures !r.Str?
    ensures v.Num? ==> r == v
  {
    match v
    case Num(_) => v
    case NaN => NaN
    case Str(s) =>
      if s == "" then Num(0)
      else match ParseInt(s)
        case Some(n) => Num(n)
        case None => NaN
  }

  /** Numeric `+` on two values that are already numbers. */
  function AddNumbers(a: Val, b: Val): (r: Val)
    requires !a.Str? && !b.Str?
    ensures r.Num? <==> a.Num? && b.Num?
    ensures r.Num? ==> r.n == a.n + b.n
  {
    if a.Num? && b.Num? then Num(a.n + b.n) else NaN
  }

  /** `String(v)` */
  function Display(v: Val): string {
    match v
    case Str(s) => s
    case Num(n) => IntToString(n)
    case NaN => "NaN"
  }

  // ---------------------------------------------------------------- chars

  predicate IsUpper(c: char) { 'A' <= c <= 'Z' }
  predicate IsLower(c: char) { 'a' <= c <= 'z' }
  predicate IsDigit(c: char) { '0' <= c <= '9' }

  function LowerChar(c: char): (r: char)
    ensures !IsUpper(r)
    ensures !IsUpper(c) ==> r == c
  {
    if IsUpper(c) then (c as int + 32) as char else c
  }

  function UpperChar(c: char): (r: char)
    ensures !IsLower(r)
    ensures !IsLower(c) ==> r == c
  {
    if IsLower(c) then (c as int - 32) as char else c
  }

  /** `toLowerCase()` on ASCII letters. */
  function Lower(s: string): (r: string)
    ensures |r| == |s|
    ensures forall i :: 0 <= i < |s| ==> r[i] == LowerChar(s[i])
  {
    if |s| == 0 then [] else [LowerChar(s[0])] + Lower(s[1..])
  }

  // ------------------------------------------------------------- substrings

  predicate IsPrefix(p: string, s: string) {
    |p| <= |s| && s[..|p|] == p
  }

  /** `s.includes(sub)`; the empty string is contained in every string. */
  predicate Contains(s: string, sub: string)
    decreases |s|
  {
    IsPrefix(sub, s) || (|s| > 0 && Contains(s[1..], sub))
  }

  /** `Contains` agrees with the position-based reading: `sub` occurs at some
      index of `s`. */
  lemma {:induction false} ContainsAt(s: string, sub: string)
    ensures Contains(s, sub) <==> exists i :: 0 <= i <= |s| - |sub| && IsPrefix(sub, s[i..])
    decreases |s|
  {
    if IsPrefix(sub, s) {
      assert s[0..] == s;
    } else if |s| > 0 {
      ContainsAt(s[1..], sub);
      if Contains(s[1..], sub) {
        var i :| 0 <= i <= |s[1..]| - |sub| && IsPrefix(sub, s[1..][i..]);
        assert s[1..][i..] == s[i + 1..];
      }
      if exists i :: 0 <= i <= |s| - |sub| && IsPrefix(sub, s[i..]) {
        var i :| 0 <= i <= |s| - |sub| && IsPrefix(sub, s[i..]);
        assert i != 0 by { assert s[0..] == s; }
        assert s[1..][i - 1..] == s[i..];
      }
    } else {
      assert |sub| > 0;
    }
  }

  lemma {:induction false} ContainsEmpty(s: string)
    ensures Contains(s, "")
  {
    assert IsPrefix("", s);
  }

  /** Case-insensitive substring test, as the search boxes use it. */
  predicate ContainsIgnoringCase(s: string, sub: string) {
    Contains(Lower(s), Lower(sub))
  }

  /** `Array.prototype.join` on strings. */
  function Join(parts: seq<string>, sep: string): string
    decreases |parts|
  {
    if |parts| == 0 then ""
    else if |parts| == 1 then parts[0]
    else parts[0] + sep + Join(parts[1..], sep)
  }

  /** `s.split(c)` for a one-character separator: the pieces between the
      separators, so always at least one. */
  function Split(s: string, c: char): (r: seq<string>)
    ensures |r| >= 1
    ensures forall i, k :: 0 <= i < |r| && 0 <= k < |r[i]| ==> r[i][k] != c
    decreases |s|
  {
    if |s| == 0 then [""]
    else
      var rest := Split(s[1..], c);
      if s[0] == c then [""] + rest
      else [[s[0]] + rest[0]] + rest[1..]
  }

  /** Joining the pieces with the separator gives the text back. */
  lemma {:induction false} SplitJoin(s: string, c: char)
    ensures Join(Split(s, c), [c]) == s
    decreases |s|
  {
    if |s| > 0 {
      var rest := Split(s[1..], c);
      SplitJoin(s[1..], c);
      if s[0] == c {
        assert Split(s, c)[1..] == rest;
      } else {
        var r := Split(s, c);
        assert r[0] == [s[0]] + rest[0] && r[1..] == rest[1..];
        if |rest| > 1 {
          assert Join(rest, [c]) == rest[0] + [c] + Join(rest[1..], [c]);
        }
      }
    }
  }

  // ----------------------------------------------------------------- trim

  /** The characters `trim()` removes: the WhiteSpace and LineTerminator
      code points of ECMAScript (sections 12.2 and 12.3 of ECMA-262), that
      is tab, vertical tab, form feed, the byte order mark, the line and
      paragraph terminators and every space separator of Unicode category Zs. */
  const WhiteSpace: set<char> := {
    '\t', '\U{000B}', '\U{000C}', '\U{FEFF}',
    '\n', '\r', '\U{2028}', '\U{2029}',
    ' ', '\U{00A0}', '\U{1680}', '\U{2000}', '\U{2001}', '\U{2002}', '\U{2003}', '\U{2004}', '\U{2005}',
    '\U{2006}', '\U{2007}', '\U{2008}', '\U{2009}', '\U{200A}', '\U{202F}', '\U{205F}', '\U{3000}'
  }

  /** A character `trim()` removes. */
  predicate IsSpace(c: char) {
    c in WhiteSpace
  }

  function TrimStart(s: string): (r: string)
    ensures |r| <= |s| && r == s[|s| - |r|..]
    ensures |r| > 0 ==> !IsSpace(r[0])
    ensures forall i :: 0 <= i < |s| - |r| ==> IsSpace(s[i])
  {
    if |s| > 0 && IsSpace(s[0]) then TrimStart(s[1..]) else s
  }

  function TrimEnd(s: string): (r: string)
    ensures |r| <= |s| && r == s[..|r|]
    ensures |r| > 0 ==> !IsSpace(r[|r| - 1])
    ensures forall i :: |r| <= i < |s| ==> IsSpace(s[i])
  {
    if |s| > 0 && IsSpace(s[|s| - 1]) then TrimEnd(s[..|s| - 1]) else s
  }

  /** `trim()`: drops leading and trailing white space. */
  function Trim(s: string): (r: string)
    ensures |r| <= |s|
    ensures |r| > 0 ==> !IsSpace(r[0]) && !IsSpace(r[|r| - 1])
    ensures r == "" <==> forall i :: 0 <= i < |s| ==> IsSpace(s[i])
    ensures |s| > 0 && !IsSpace(s[0]) && !IsSpace(s[|s| - 1]) ==> r == s
  {
    TrimEnd(TrimStart(s))
  }

  /** A full-width space and a byte order mark, which ASCII-only trimming
      would keep, are trimmed off. */
  lemma TrimsWideSpace()
    ensures Trim("\U{3000}101\U{FEFF}") == "101"
  {
    var s := "\U{3000}101\U{FEFF}";
    assert IsSpace(s[0]) && s[1..] == "101\U{FEFF}";
    var t := "101\U{FEFF}";
    assert !IsSpace(t[0]);
    assert IsSpace(t[3]) && t[..3] == "101";
    assert !IsSpace(t[2]);
  }

  // ------------------------------------------------------- numbers as text

  function DigitChar(d: nat): (c: char)
    requires d < 10
    ensures IsDigit(c)
  {
    ("0123456789")[d]
  }

  function DigitValue(c: char): (d: nat)
    requires IsDigit(c)
    ensures d < 10 && DigitChar(d) == c
  {
    (c as int) - ('0' as int)
  }

  function NatToString(n: nat): (r: string)
    ensures |r| > 0
    ensures forall i :: 0 <= i < |r| ==> IsDigit(r[i])
    decreases n
  {
    if n < 10 then [DigitChar(n)] else NatToString(n / 10) + [DigitChar(n % 10)]
  }

  /** Decimal digits of a string; None when any character is not a digit. */
  function DigitsValue(s: string): (r: Option<nat>)
    ensures r.Some? <==> |s| > 0 && forall i :: 0 <= i < |s| ==> IsDigit(s[i])
    decreases |s|
  {
    if |s| == 0 then None
    else if !IsDigit(s[|s| - 1]) then None
    else if |s| == 1 then Some(DigitValue(s[0]))
    else match DigitsValue(s[..|s| - 1])
      case None => None
      case Some(v) => Some(v * 10 + DigitValue(s[|s| - 1]))
  }

  lemma {:induction false} DigitsOfNat(n: nat)
    ensures DigitsValue(NatToString(n)) == Some(n)
    decreases n
  {
    var r := NatToString(n);
    if n >= 10 {
      var front := NatToString(n / 10);
      DigitsOfNat(n / 10);
      assert r == front + [DigitChar(n % 10)];
      assert r[..|r| - 1] == front;
      assert DigitValue(r[|r| - 1]) == n % 10;
      assert n == (n / 10) * 10 + n % 10;
    } else {
      assert r == [DigitChar(n)];
    }
  }

  /** `String(n)` for an integer. */
  function IntToString(n: int): (r: string)
    ensures |r| > 0
  {
    if n < 0 then "-" + NatToString(-n) else NatToString(n)
  }

  /** A decimal integer with an optional leading minus sign. Fractions,
      exponents, hexadecimal and surrounding white space are not read. */
  function ParseInt(s: string): Option<int> {
    if |s| > 0 && s[0] == '-' then
      match DigitsValue(s[1..])
      case Some(v) => var m: int := v; Some(-m)
      case None => None
    else
      match DigitsValue(s)
      case Some(v) => Some(v)
      case None => None
  }

  /** Parsing undoes formatting, so `Number(String(n)) == n`. */
  lemma ParseIntToString(n: int)
    ensures ParseInt(IntToString(n)) == Some(n)
  {
    var s := IntToString(n);
    if n < 0 {
      assert s == "-" + NatToString(-n);
      assert s[0] == '-' && s[1..] == NatToString(-n);
      DigitsOfNat(-n);
    } else {
      assert s == NatToString(n);
      assert IsDigit(s[0]) && s[0] != '-';
      DigitsOfNat(n);
    }
  }
}

=== FILE: booking_modal.dfy ===
/** The decisions the booking form makes (src/components/BookingModal.js):
    toggling extra services, pricing a stay, and what a submit asks of the
    stores. Store calls are returned as a list of effects, since the room
    actions it calls (`markRoomAsOccupied`, `markRoomAsAvailable`) are not
    defined by the room store. */
module BookingModal {
  import opened Base
  import Seqs
  import Dates
  import ServiceStore
  import RoomStore
  import BookingStore

  type Service = ServiceStore.Service
  type Room = RoomStore.Room
  type Booking = BookingStore.Booking

  // ---------------------------------------------------------- services

  /** `handleServiceToggle`: a service already selected (same id) is
      dropped, any other is appended. */
  function ServiceToggle(selected: seq<Service>, service: Service): (r: seq<Service>)
    ensures ServiceStore.HasService(selected, service.id) ==>
              !ServiceStore.HasService(r, service.id) && Seqs.IsSubseq(r, selected)
              && forall i :: 0 <= i < |selected| && selected[i].id != service.id ==> selected[i] in r
    ensures ServiceStore.HasService(selected, service.id) ==>
              forall x: Service :: multiset(r)[x] == if x.id != service.id then multiset(selected)[x] else 0
    ensures !ServiceStore.HasService(selected, service.id) ==> r == selected + [service]
    ensures ServiceStore.HasService(r, service.id) <==> !ServiceStore.HasService(selected, service.id)
  {
    if ServiceStore.HasService(selected, service.id) then ServiceStore.RemoveService(selected, service.id)
    else
      var r := selected + [service];
      assert r[|selected|] == service;
      r
  }

  /** Toggling twice restores a selection the service was not in; a service
      that was selected comes back at the end of the list. */
  lemma {:induction false} ToggleTwice(selected: seq<Service>, service: Service)
    ensures !ServiceStore.HasService(selected, service.id) ==>
              ServiceToggle(ServiceToggle(selected, service), service) == selected
    ensures ServiceStore.HasService(selected, service.id) ==>
              ServiceToggle(ServiceToggle(selected, service), service)
              == ServiceStore.RemoveService(selected, service.id) + [service]
  {
    if !ServiceStore.HasService(selected, service.id) {
      var p := (s: Service) => s.id != service.id;
      Seqs.FilterAppend(selected, [service], p);
      assert Seqs.Filter([service], p) == [];
    }
  }

  // -------------------------------------------------------------- cost

  /** `Math.ceil((checkOut - checkIn) / day) || 1`: the day difference,
      with 0 and Invalid Date both giving 1. A check-out before check-in
      gives a negative count, which is kept. */
  function Nights(checkIn: string, checkOut: string): (r: int)
    ensures r != 0
    ensures Dates.DayNumber(checkIn).None? || Dates.DayNumber(checkOut).None? ==> r == 1
    ensures Dates.DayNumber(checkIn).Some? && Dates.DayNumber(checkOut).Some?
            && Dates.DayNumber(checkIn) != Dates.DayNumber(checkOut) ==>
              r == Dates.DayNumber(checkOut).value - Dates.DayNumber(checkIn).value
  {
    match (Dates.DayNumber(checkIn), Dates.DayNumber(checkOut))
    case (Some(a), Some(b)) => if b - a == 0 then 1 else b - a
    case _ => 1
  }

  function ServicePrice(s: Service): int { s.price }

  /** `services.reduce((sum, s) => sum + (s.price || 0), 0)`; prices are
      whole numbers, so `|| 0` leaves each one as it is. The reduce runs
      left to right: 0 for no services, else the cost of all but the last
      plus the last one's price. */
  function ServicesCost(services: seq<Service>): (r: int)
    ensures |services| == 0 ==> r == 0
    ensures |services| > 0 ==>
              r == ServicesCost(services[..|services| - 1]) + services[|services| - 1].price
    ensures (forall i :: 0 <= i < |services| ==> services[i].price >= 0) ==> r >= 0
  {
    assert (forall i :: 0 <= i < |services| ==> services[i].price >= 0) ==> Seqs.Sum(services, ServicePrice) >= 0 by {
      if forall i :: 0 <= i < |services| ==> services[i].price >= 0 {
        Seqs.SumNonNegative(services, ServicePrice);
      }
    }
    assert |services| > 0 ==>
      Seqs.Sum(services, ServicePrice)
      == Seqs.Sum(services[..|services| - 1], ServicePrice) + services[|services| - 1].price by {
      if |services| > 0 {
        var n := |services| - 1;
        assert services == services[..n] + [services[n]];
        Seqs.SumAppend(services[..n], [services[n]], ServicePrice);
      }
    }
    Seqs.Sum(services, ServicePrice)
  }

  function PriceOf(id: int): Service -> int {
    (s: Service) => if s.id == id then s.price else 0
  }

  /** Toggling a service on adds exactly its price to the services cost;
      toggling it off takes away the price of every selected copy of it. */
  lemma {:induction false} ToggleChangesCost(selected: seq<Service>, service: Service)
    ensures !ServiceStore.HasService(selected, service.id) ==>
              ServicesCost(ServiceToggle(selected, service)) == ServicesCost(selected) + service.price
    ensures ServiceStore.HasService(selected, service.id) ==>
              ServicesCost(ServiceToggle(selected, service))
              == ServicesCost(selected) - Seqs.Sum(selected, PriceOf(service.id))
  {
    if ServiceStore.HasService(selected, service.id) {
      var keep := (s: Service) => s.id != service.id;
      var kept := (s: Service) => if keep(s) then s.price else 0;
      Seqs.SumOfFilter(selected, keep, ServicePrice, kept);
      Seqs.SumSplit(selected, ServicePrice, kept, PriceOf(service.id));
    } else {
      var r := ServiceToggle(selected, service);
      assert r[..|r| - 1] == selected;
    }
  }

  function StayCost(room: Room, form: Booking): int {
    room.price * Nights(form.checkIn, form.checkOut) + ServicesCost(form.services)
  }

  /** As written: the room is looked up by its `roomNumber` property, which
      rooms built by the room form do not have. */
  function CalculateCostAsWritten(rooms: seq<Room>, form: Booking): (r: int)
    ensures (forall i :: 0 <= i < |rooms| ==>
               !(rooms[i].roomNumber.Some? && StrictEq(rooms[i].roomNumber.value, form.roomNumber))) ==> r == 0
    ensures (forall i :: 0 <= i < |rooms| ==> rooms[i].roomNumber.None?) ==> r == 0
    ensures forall k :: FirstRoomNumber(rooms, form.roomNumber, k) ==> r == StayCost(rooms[k], form)
  {
    match Seqs.Find(rooms, (x: Room) => x.roomNumber.Some? && StrictEq(x.roomNumber.value, form.roomNumber))
    case None => 0
    case Some(room) => StayCost(room, form)
  }

  predicate FirstRoomNumber(rooms: seq<Room>, roomNumber: Val, k: int) {
    0 <= k < |rooms| && rooms[k].roomNumber.Some? && StrictEq(rooms[k].roomNumber.value, roomNumber)
    && forall i :: 0 <= i < k ==> !(rooms[i].roomNumber.Some? && StrictEq(rooms[i].roomNumber.value, roomNumber))
  }

  predicate FirstRoomId(rooms: seq<Room>, roomNumber: Val, k: int) {
    0 <= k < |rooms| && StrictEq(Str(rooms[k].id), roomNumber)
    && forall i :: 0 <= i < k ==> !StrictEq(Str(rooms[i].id), roomNumber)
  }

  /** Corrected: the room is looked up by its id, which is the room number
      typed into the room form. */
  function CalculateCost(rooms: seq<Room>, form: Booking): (r: int)
    ensures (forall i :: 0 <= i < |rooms| ==> !StrictEq(Str(rooms[i].id), form.roomNumber)) ==> r == 0
    ensures forall k :: FirstRoomId(rooms, form.roomNumber, k) ==> r == StayCost(rooms[k], form)
  {
    match Seqs.Find(rooms, (x: Room) => StrictEq(Str(x.id), form.roomNumber))
    case None => 0
    case Some(room) => StayCost(room, form)
  }

  /** Where every room's number property equals its id, the two lookups
      agree: the defect is only the missing property. */
  lemma AgreesWhenNumbersAreIds(rooms: seq<Room>, form: Booking)
    requires forall i :: 0 <= i < |rooms| ==> rooms[i].roomNumber == Some(Str(rooms[i].id))
    ensures CalculateCostAsWritten(rooms, form) == CalculateCost(rooms, form)
  {
    if k :| FirstRoomId(rooms, form.roomNumber, k) {
      assert FirstRoomNumber(rooms, form.roomNumber, k);
    }
  }

  /** A room from the room form, a valid two-night stay and no services:
      the form prices it at 0, the corrected lookup at twice the rate. */
  lemma FormRoomCostsNothing(room: Room, form: Booking)
    requires room.roomNumber.None? && form.roomNumber == Str(room.id)
    requires form.services == [] && Nights(form.checkIn, form.checkOut) == 2
    ensures CalculateCostAsWritten([room], form) == 0
    ensures CalculateCost([room], form) == 2 * room.price
  {
    assert FirstRoomId([room], form.roomNumber, 0);
  }

  // ------------------------------------------------------------ submit

  datatype OrderDraft = OrderDraft(bookingId: string, guestName: string, roomNumber: Val,
                                   date: string, amount: int, services: seq<Service>)

  datatype Effect =
    | UpdateBookingCall(booking: Booking)
    | AddBookingCall(booking: Booking)
    | AddOrderCall(order: OrderDraft)
    | MarkOccupied(room: Val)
    | MarkAvailable(room: Val)

  /** The room action the saved status asks for. */
  function RoomAction(status: string, room: Val): (r: seq<Effect>)
    ensures status == "Confirmed" || status == "Checked-in" <==> r == [MarkOccupied(room)]
    ensures status == "Cancelled" || status == "Completed" <==> r == [MarkAvailable(room)]
    ensures |r| <= 1
  {
    if status in ["Confirmed", "Checked-in"] then [MarkOccupied(room)]
    else if status in ["Cancelled", "Completed"] then [MarkAvailable(room)]
    else []
  }

  /** `handleSubmit`: `form` is the booking being edited or entered,
      `editing` the booking the form was opened for, `freshId` the
      six-character id drawn for a new one. */
  function HandleSubmit(rooms: seq<Room>, form: Booking, editing: Option<Booking>, freshId: string): (r: seq<Effect>)
    ensures form.guestName == "" || !Truthy(form.roomNumber) ==> r == []
    ensures form.guestName != "" && Truthy(form.roomNumber) && editing.Some? ==>
              && |r| >= 1 && r[0].UpdateBookingCall?
              && r[0].booking == form.(id := if editing.value.id != "" then editing.value.id else freshId)
              && r[1..] == RoomAction(form.bookingStatus, form.roomNumber)
    ensures form.guestName != "" && Truthy(form.roomNumber) && editing.None? ==>
              && |r| >= 2 && r[0] == AddBookingCall(form.(id := freshId))
              && r[1].AddOrderCall? && r[1].order.bookingId == freshId
              && r[1].order.amount == CalculateCostAsWritten(rooms, form)
              && r[2..] == RoomAction(form.bookingStatus, form.roomNumber)
    ensures forall i :: 0 <= i < |r| ==> !r[i].AddBookingCall? || editing.None?
  {
    if form.guestName == "" || !Truthy(form.roomNumber) then []
    else
      var id := if editing.Some? && editing.value.id != "" then editing.value.id else freshId;
      var b := form.(id := id);
      var stored :=
        if editing.Some? then [UpdateBookingCall(b)]
        else [AddBookingCall(b),
              AddOrderCall(OrderDraft(id, b.guestName, b.roomNumber, b.checkIn, CalculateCostAsWritten(rooms, form), b.services))];
      stored + RoomAction(b.bookingStatus, b.roomNumber)
  }

  /** A new booking's order points at the booking as the store keeps it:
      same id, guest, room, date and services, priced by the program's
      lookup, which comes to 0 when no room carries a room number. */
  lemma {:induction false} OrderFollowsBooking(rooms: seq<Room>, form: Booking, freshId: string,
                                                 s: BookingStore.State, at: BookingStore.Stamp)
    requires form.guestName != "" && Truthy(form.roomNumber)
    ensures var r := HandleSubmit(rooms, form, None, freshId);
      var stored := BookingStore.AddBooking(s, r[0].booking, at).bookings[|s.bookings|];
      && r[1].order.bookingId == stored.id
      && r[1].order.guestName == stored.guestName
      && r[1].order.roomNumber == stored.roomNumber
      && r[1].order.date == stored.checkIn
      && r[1].order.services == stored.services
      && r[1].order.amount == CalculateCostAsWritten(rooms, form)
      && ((forall i :: 0 <= i < |rooms| ==> rooms[i].roomNumber.None?) ==> r[1].order.amount == 0)
  {
    var r := HandleSubmit(rooms, form, None, freshId);
    assert r[0] == AddBookingCall(form.(id := freshId));
  }
}

=== FILE: booking_store.dfy ===
/** Reservations and their audit log (src/store/useBookingStore.js). Every
    change to the booking list also appends one entry to the history log. */
module BookingStore {
  import opened Base
  import Seqs
  import ServiceStore

  /** A booking as the booking form submits it. `roomNumber` is the value of
      the room drop-down (text), or a number in data saved by other means. */
  datatype Booking = Booking(
    id: string,
    guestName: string,
    email: string,
    phone: string,
    address: string,
    roomNumber: Val,
    checkIn: string,
    checkOut: string,
    bookingStatus: string,
    services: seq<ServiceStore.Service>)

  /** What each log entry records. The add entry reads `checkInDate` and
      `checkOutDate` and the update entry reads `status`; bookings carry
      `checkIn`, `checkOut` and `bookingStatus` instead, so those fields are
      always absent (None). */
  datatype LogDetails =
    | AddedDetails(id: string, guest: string, room: Val, checkIn: Option<string>, checkOut: Option<string>)
    | RemovedDetails(id: string, guest: string, room: Val)
    | UpdatedDetails(id: string, guest: string, room: Val, status: Option<string>)

  datatype HistoryEntry = HistoryEntry(id: string, action: string, timestamp: string, details: LogDetails)

  datatype State = State(bookings: seq<Booking>, history: seq<HistoryEntry>)

  /** The clock readings an action takes: the entry id (`Date.now()` as
      text) and the ISO timestamp. */
  datatype Stamp = Stamp(entryId: string, timestamp: string)

  predicate HasBooking(bookings: seq<Booking>, id: string) {
    exists i :: 0 <= i < |bookings| && bookings[i].id == id
  }

  /** `k` is the position `find` stops at when looking for `id`. */
  predicate FirstWithId(bookings: seq<Booking>, id: string, k: int) {
    0 <= k < |bookings| && bookings[k].id == id && forall i :: 0 <= i < k ==> bookings[i].id != id
  }

  /** `addToHistory`: appends exactly one entry and touches nothing else. */
  function AddToHistory(s: State, action: string, details: LogDetails, at: Stamp): (r: State)
    ensures r.bookings == s.bookings
    ensures |r.history| == |s.history| + 1
    ensures r.history[..|s.history|] == s.history
    ensures r.history[|s.history|] == HistoryEntry(at.entryId, action, at.timestamp, details)
  {
    var h := s.history + [HistoryEntry(at.entryId, action, at.timestamp, details)];
    assert h[..|s.history|] == s.history;
    State(s.bookings, h)
  }

  /** `addBooking`: appends the booking without any check and logs it. */
  function AddBooking(s: State, b: Booking, at: Stamp): (r: State)
    ensures |r.bookings| == |s.bookings| + 1
    ensures r.bookings[..|s.bookings|] == s.bookings && r.bookings[|s.bookings|] == b
    ensures |r.history| == |s.history| + 1 && r.history[..|s.history|] == s.history
    ensures r.history[|s.history|].action == "Added Booking"
    ensures r.history[|s.history|].details == AddedDetails(b.id, b.guestName, b.roomNumber, None, None)
  {
    var bookings := s.bookings + [b];
    assert bookings[..|s.bookings|] == s.bookings;
    AddToHistory(State(bookings, s.history), "Added Booking",
      AddedDetails(b.id, b.guestName, b.roomNumber, None, None), at)
  }

  /** `removed?.guestName || "Unknown"` */
  function GuestLabel(removed: Option<Booking>): string {
    if removed.Some? && removed.value.guestName != "" then removed.value.guestName else "Unknown"
  }

  /** `removed?.roomNumber || "Unknown"` */
  function RoomLabel(removed: Option<Booking>): Val {
    if removed.Some? && Truthy(removed.value.roomNumber) then removed.value.roomNumber else Str("Unknown")
  }

  /** The bookings `removeBooking` keeps: every one with another id, in order. */
  function Remaining(bookings: seq<Booking>, id: string): (r: seq<Booking>)
    ensures !HasBooking(r, id)
    ensures forall i :: 0 <= i < |bookings| && bookings[i].id != id ==> bookings[i] in r
    ensures Seqs.IsSubseq(r, bookings)
    ensures forall x: Booking :: multiset(r)[x] == if x.id != id then multiset(bookings)[x] else 0
    ensures !HasBooking(bookings, id) ==> r == bookings
  {
    Seqs.FilterCounts(bookings, (b: Booking) => b.id != id);
    Seqs.Filter(bookings, (b: Booking) => b.id != id)
  }

  /** What `removeBooking` logs: the id, and the guest and room of the
      first booking with it, or "Unknown" for each when there is none. */
  function RemovalDetails(bookings: seq<Booking>, id: string): (r: LogDetails)
    ensures r.RemovedDetails? && r.id == id
    ensures !HasBooking(bookings, id) ==> r == RemovedDetails(id, "Unknown", Str("Unknown"))
    ensures forall k :: FirstWithId(bookings, id, k) ==>
              r.guest == (if bookings[k].guestName != "" then bookings[k].guestName else "Unknown")
              && r.room == (if Truthy(bookings[k].roomNumber) then bookings[k].roomNumber else Str("Unknown"))
  {
    var removed := Seqs.Find(bookings, (b: Booking) => b.id == id);
    assert forall k :: FirstWithId(bookings, id, k) ==> removed == Some(bookings[k]) by {
      forall k | FirstWithId(bookings, id, k) ensures removed == Some(bookings[k]) {
        var m :| 0 <= m < |bookings| && bookings[m] == removed.value && bookings[m].id == id
                 && forall i :: 0 <= i < m ==> bookings[i].id != id;
        assert m == k;
      }
    }
    RemovedDetails(id, GuestLabel(removed), RoomLabel(removed))
  }

  /** `removeBooking`: drops every booking with the id and logs the first one
      it found; an unknown id still logs, with "Unknown" guest and room. */
  function RemoveBooking(s: State, id: string, at: Stamp): (r: State)
    ensures !HasBooking(r.bookings, id)
    ensures forall i :: 0 <= i < |s.bookings| && s.bookings[i].id != id ==> s.bookings[i] in r.bookings
    ensures Seqs.IsSubseq(r.bookings, s.bookings)
    ensures forall x: Booking :: multiset(r.bookings)[x] == if x.id != id then multiset(s.bookings)[x] else 0
    ensures !HasBooking(s.bookings, id) ==> r.bookings == s.bookings
    ensures |r.history| == |s.history| + 1 && r.history[..|s.history|] == s.history
    ensures r.history[|s.history|].action == "Removed Booking"
    ensures !HasBooking(s.bookings, id) ==>
              r.history[|s.history|].details == RemovedDetails(id, "Unknown", Str("Unknown"))
    ensures forall k :: FirstWithId(s.bookings, id, k) ==>
              r.history[|s.history|].details.guest == (if s.bookings[k].guestName != "" then s.bookings[k].guestName else "Unknown")
    ensures forall k :: FirstWithId(s.bookings, id, k) ==>
              r.history[|s.history|].details.room == (if Truthy(s.bookings[k].roomNumber) then s.bookings[k].roomNumber else Str("Unknown"))
  {
    var bookings := Remaining(s.bookings, id);
    var details := RemovalDetails(s.bookings, id);
    var r := AddToHistory(State(bookings, s.history), "Removed Booking", details, at);
    assert r.bookings == bookings && r.history[|s.history|].details == details;
    r
  }

  /** `updateBooking`: every booking with the id is replaced whole, and the
      change is logged. */
  function UpdateBooking(s: State, updated: Booking, at: Stamp): (r: State)
    ensures |r.bookings| == |s.bookings|
    ensures forall i :: 0 <= i < |s.bookings| && s.bookings[i].id == updated.id ==> r.bookings[i] == updated
    ensures forall i :: 0 <= i < |s.bookings| && s.bookings[i].id != updated.id ==> r.bookings[i] == s.bookings[i]
    ensures |r.history| == |s.history| + 1 && r.history[..|s.history|] == s.history
    ensures r.history[|s.history|].action == "Updated Booking"
    ensures r.history[|s.history|].details == UpdatedDetails(updated.id, updated.guestName, updated.roomNumber, None)
  {
    var bookings := Seqs.UpdateWhere(s.bookings, (b: Booking) => b.id == updated.id, (b: Booking) => updated);
    AddToHistory(State(bookings, s.history), "Updated Booking",
      UpdatedDetails(updated.id, updated.guestName, updated.roomNumber, None), at)
  }

  // ------------------------------------------------ runs of many actions

  datatype Action = Add(b: Booking) | Remove(id: string) | Update(b: Booking)

  function Apply(s: State, a: Action, at: Stamp): State {
    match a
    case Add(b) => AddBooking(s, b, at)
    case Remove(id) => RemoveBooking(s, id, at)
    case Update(b) => UpdateBooking(s, b, at)
  }

  function Run(s: State, actions: seq<Action>, stamps: seq<Stamp>): State
    requires |stamps| == |actions|
    decreases |actions|
  {
    if |actions| == 0 then s
    else Run(Apply(s, actions[0], stamps[0]), actions[1..], stamps[1..])
  }

  /** The log is append-only: after any run of actions the old log is a
      prefix of the new one, which is longer by exactly one entry per action. */
  lemma {:induction false} HistoryAppendOnly(s: State, actions: seq<Action>, stamps: seq<Stamp>)
    requires |stamps| == |actions|
    ensures |Run(s, actions, stamps).history| == |s.history| + |actions|
    ensures Run(s, actions, stamps).history[..|s.history|] == s.history
    decreases |actions|
  {
    if |actions| > 0 {
      var s1 := Apply(s, actions[0], stamps[0]);
      HistoryAppendOnly(s1, actions[1..], stamps[1..]);
      var h := Run(s, actions, stamps).history;
      assert h[..|s1.history|][..|s.history|] == h[..|s.history|];
    }
  }
}

=== FILE: booking_validation.dfy ===
/** Date-range and room-availability rules for bookings
    (src/utils/bookingValidation.js). Dates are `YYYY-MM-DD` text read as day
    numbers; an unreadable date behaves like JavaScript's Invalid Date, whose
    comparisons are all false. */
module BookingValidation {
  import opened Base
  import Dates
  import BookingStore

  type Booking = BookingStore.Booking

  /** `inDate < outDate` */
  predicate IsValidDateRange(checkIn: string, checkOut: string) {
    match (Dates.DayNumber(checkIn), Dates.DayNumber(checkOut))
    case (Some(a), Some(b)) => a < b
    case _ => false
  }

  /** A valid range is exactly a pair of readable dates in calendar order. */
  lemma ValidRangeIsCalendarOrder(checkIn: string, checkOut: string)
    ensures IsValidDateRange(checkIn, checkOut) <==>
              Dates.ParseDate(checkIn).Some? && Dates.ParseDate(checkOut).Some?
              && Dates.Before(Dates.ParseDate(checkIn).value, Dates.ParseDate(checkOut).value)
  {
    var a := Dates.ParseDate(checkIn);
    var b := Dates.ParseDate(checkOut);
    if a.Some? && b.Some? {
      Dates.OrdinalOrder(a.value, b.value);
    }
  }

  predicate IsBlockingStatus(status: string) {
    status == "Confirmed" || status == "Checked-in"
  }

  /** `start <= existingEnd && end >= existingStart`; a comparison with an
      Invalid Date is false. */
  predicate RangesTouch(start: Option<int>, end: Option<int>, existingStart: Option<int>, existingEnd: Option<int>) {
    start.Some? && end.Some? && existingStart.Some? && existingEnd.Some?
    && start.value <= existingEnd.value && end.value >= existingStart.value
  }

  /** The test inside `bookings.some(...)`: same room (strictly equal to
      `Number(roomNumber)`), a blocking status, and touching ranges. */
  predicate Blocks(b: Booking, roomNumber: Val, checkIn: string, checkOut: string) {
    StrictEq(b.roomNumber, ToNumber(roomNumber))
    && IsBlockingStatus(b.bookingStatus)
    && RangesTouch(Dates.DayNumber(checkIn), Dates.DayNumber(checkOut),
                   Dates.DayNumber(b.checkIn), Dates.DayNumber(b.checkOut))
  }

  /** `isRoomAvailable`: `!bookings.some(...)`, scanning left to right. The
      room is unavailable exactly when some booking blocks the request, and
      an empty list leaves every room available. */
  function IsRoomAvailable(bookings: seq<Booking>, roomNumber: Val, checkIn: string, checkOut: string): (r: bool)
    ensures r <==> !exists i :: 0 <= i < |bookings| && Blocks(bookings[i], roomNumber, checkIn, checkOut)
    ensures |bookings| == 0 ==> r
    decreases |bookings|
  {
    if |bookings| == 0 then true
    else
      var rest := IsRoomAvailable(bookings[1..], roomNumber, checkIn, checkOut);
      assert forall i :: 1 <= i < |bookings| ==> bookings[i] == bookings[1..][i - 1];
      !Blocks(bookings[0], roomNumber, checkIn, checkOut) && rest
  }

  /** Closed day ranges share a day. */
  ghost predicate ShareADay(a1: int, a2: int, b1: int, b2: int) {
    exists d :: InRange(d, a1, a2) && InRange(d, b1, b2)
  }

  predicate InRange(d: int, lo: int, hi: int) {
    lo <= d <= hi
  }

  /** For non-empty ranges the endpoint test is the same as sharing a day,
      so a stay ending on the day another begins conflicts with it. */
  lemma TouchIsSharedDay(a1: int, a2: int, b1: int, b2: int)
    requires a1 <= a2 && b1 <= b2
    ensures (a1 <= b2 && a2 >= b1) <==> ShareADay(a1, a2, b1, b2)
  {
    if a1 <= b2 && a2 >= b1 {
      var d := if a1 <= b1 then b1 else a1;
      assert InRange(d, a1, a2) && InRange(d, b1, b2);
    }
  }

  /** Bookings for other rooms, or in statuses other than Confirmed and
      Checked-in, never block. */
  lemma NonBlockingBookingsIgnored(bookings: seq<Booking>, roomNumber: Val, checkIn: string, checkOut: string)
    requires forall i :: 0 <= i < |bookings| ==>
               !StrictEq(bookings[i].roomNumber, ToNumber(roomNumber)) || !IsBlockingStatus(bookings[i].bookingStatus)
    ensures IsRoomAvailable(bookings, roomNumber, checkIn, checkOut)
  {
  }

  /** More bookings can only take availability away. */
  lemma AvailabilityAntitone(bookings: seq<Booking>, more: seq<Booking>, roomNumber: Val, checkIn: string, checkOut: string)
    requires IsRoomAvailable(bookings + more, roomNumber, checkIn, checkOut)
    ensures IsRoomAvailable(bookings, roomNumber, checkIn, checkOut)
  {
    forall i | 0 <= i < |bookings| ensures !Blocks(bookings[i], roomNumber, checkIn, checkOut) {
      assert (bookings + more)[i] == bookings[i];
    }
  }

  /** A blocking stay that ends on the day the request begins conflicts
      with it: back-to-back stays are refused. */
  lemma BackToBackConflicts(b: Booking, roomNumber: Val, checkOut: string)
    requires StrictEq(b.roomNumber, ToNumber(roomNumber)) && IsBlockingStatus(b.bookingStatus)
    requires IsValidDateRange(b.checkIn, b.checkOut) && IsValidDateRange(b.checkOut, checkOut)
    ensures !IsRoomAvailable([b], roomNumber, b.checkOut, checkOut)
  {
    assert Blocks([b][0], roomNumber, b.checkOut, checkOut);
  }

  // --------------------------------------- room numbers held as text

  /** As written: a booking whose room number is text (which is what the
      booking form's drop-down yields) is never strictly equal to
      `Number(roomNumber)`, so it never blocks. */
  lemma TextRoomNumbersNeverBlock(bookings: seq<Booking>, roomNumber: Val, checkIn: string, checkOut: string)
    requires forall i :: 0 <= i < |bookings| ==> bookings[i].roomNumber.Str?
    ensures IsRoomAvailable(bookings, roomNumber, checkIn, checkOut)
  {
  }

  /** Corrected comparison: both sides converted with `Number()`. */
  predicate SameRoomNumber(a: Val, b: Val) {
    StrictEq(ToNumber(a), ToNumber(b))
  }

  predicate BlocksByNumber(b: Booking, roomNumber: Val, checkIn: string, checkOut: string) {
    SameRoomNumber(b.roomNumber, roomNumber)
    && IsBlockingStatus(b.bookingStatus)
    && RangesTouch(Dates.DayNumber(checkIn), Dates.DayNumber(checkOut),
                   Dates.DayNumber(b.checkIn), Dates.DayNumber(b.checkOut))
  }

  predicate IsRoomAvailableByNumber(bookings: seq<Booking>, roomNumber: Val, checkIn: string, checkOut: string) {
    !exists i :: 0 <= i < |bookings| && BlocksByNumber(bookings[i], roomNumber, checkIn, checkOut)
  }

  /** The corrected check agrees with the original whenever bookings hold
      numeric room numbers, and also sees text room numbers. */
  lemma ByNumberAgreesOnNumbers(bookings: seq<Booking>, roomNumber: Val, checkIn: string, checkOut: string)
    requires forall i :: 0 <= i < |bookings| ==> bookings[i].roomNumber.Num?
    ensures IsRoomAvailableByNumber(bookings, roomNumber, checkIn, checkOut)
            <==> IsRoomAvailable(bookings, roomNumber, checkIn, checkOut)
  {
  }

  /** A confirmed stay in room "101" that overlaps the request: the
      original check calls the room available, the corrected one does not. */
  lemma TextRoomCounterexample(b: Booking, checkIn: string, checkOut: string)
    requires b.roomNumber == Str("101") && b.bookingStatus == "Confirmed"
    requires IsValidDateRange(checkIn, checkOut) && b.checkIn == checkIn && b.checkOut == checkOut
    ensures IsRoomAvailable([b], Str("101"), checkIn, checkOut)
    ensures !IsRoomAvailableByNumber([b], Str("101"), checkIn, checkOut)
  {
    assert IntToString(101) == "101";
    ParseIntToString(101);
    assert ToNumber(Str("101")) == Num(101);
    assert BlocksByNumber([b][0], Str("101"), checkIn, checkOut);
  }
}

=== FILE: bookings_page.dfy ===
/** The booking list (src/pages/Bookings.js): three filters, set one field
    at a time, and the bookings that pass all three, in order. */
module BookingsPage {
  import opened Base
  import Seqs
  import BookingStore

  type Booking = BookingStore.Booking

  /** The filter bar; the empty string switches a filter off. */
  datatype Filters = Filters(guestName: string, bookingStatus: string, checkIn: string)

  /** The `name` attribute of the control that changed. */
  datatype Field = GuestName | BookingStatus | CheckIn

  function Get(f: Filters, field: Field): string {
    match field
    case GuestName => f.guestName
    case BookingStatus => f.bookingStatus
    case CheckIn => f.checkIn
  }

  const NoFilters := Filters("", "", "")

  /** `handleFilterChange`: `{ ...prevFilters, [name]: value }`. */
  function HandleFilterChange(f: Filters, field: Field, value: string): (r: Filters)
    ensures Get(r, field) == value
    ensures forall other: Field :: other != field ==> Get(r, other) == Get(f, other)
  {
    match field
    case GuestName => f.(guestName := value)
    case BookingStatus => f.(bookingStatus := value)
    case CheckIn => f.(checkIn := value)
  }

  predicate GuestMatch(b: Booking, f: Filters) {
    ContainsIgnoringCase(b.guestName, f.guestName)
  }

  predicate StatusMatch(b: Booking, f: Filters) {
    f.bookingStatus == "" || b.bookingStatus == f.bookingStatus
  }

  predicate CheckInMatch(b: Booking, f: Filters) {
    f.checkIn == "" || b.checkIn == f.checkIn
  }

  predicate Shown(b: Booking, f: Filters) {
    GuestMatch(b, f) && StatusMatch(b, f) && CheckInMatch(b, f)
  }

  /** The bookings the grid lists: those passing all three tests, in their
      stored order; with every filter empty, all of them. */
  function VisibleBookings(bookings: seq<Booking>, f: Filters): (r: seq<Booking>)
    ensures Seqs.IsSubseq(r, bookings)
    ensures forall x: Booking :: multiset(r)[x] == if Shown(x, f) then multiset(bookings)[x] else 0
    ensures forall i :: 0 <= i < |r| ==> Shown(r[i], f)
    ensures forall i :: 0 <= i < |bookings| && Shown(bookings[i], f) ==> bookings[i] in r
    ensures f == NoFilters ==> r == bookings
  {
    assert f == NoFilters ==> forall i :: 0 <= i < |bookings| ==> Shown(bookings[i], f) by {
      forall i | 0 <= i < |bookings| && f == NoFilters ensures Shown(bookings[i], f) {
        EmptyNameMatchesAll(bookings[i], f);
      }
    }
    Seqs.FilterCounts(bookings, (b: Booking) => Shown(b, f));
    Seqs.Filter(bookings, (b: Booking) => Shown(b, f))
  }

  /** An empty guest-name filter lets every booking through that test. */
  lemma {:induction false} EmptyNameMatchesAll(b: Booking, f: Filters)
    requires f.guestName == ""
    ensures GuestMatch(b, f)
  {
    ContainsEmpty(Lower(b.guestName));
  }

  /** With only a status chosen, a booking is listed exactly when its status
      equals it; likewise for a check-in date. */
  lemma {:induction false} SingleFilterIsEquality(bookings: seq<Booking>, status: string, checkIn: string, i: nat)
    requires i < |bookings|
    ensures bookings[i] in VisibleBookings(bookings, Filters("", status, "")) <==>
              status == "" || bookings[i].bookingStatus == status
    ensures bookings[i] in VisibleBookings(bookings, Filters("", "", checkIn)) <==>
              checkIn == "" || bookings[i].checkIn == checkIn
  {
    EmptyNameMatchesAll(bookings[i], Filters("", status, ""));
    EmptyNameMatchesAll(bookings[i], Filters("", "", checkIn));
    var r1 := VisibleBookings(bookings, Filters("", status, ""));
    if bookings[i] in r1 {
      var j :| 0 <= j < |r1| && r1[j] == bookings[i];
    }
    var r2 := VisibleBookings(bookings, Filters("", "", checkIn));
    if bookings[i] in r2 {
      var j :| 0 <= j < |r2| && r2[j] == bookings[i];
    }
  }

  /** Choosing a status narrows the list: the new list is the old list put
      through the new filters. */
  lemma {:induction false} StatusNarrows(bookings: seq<Booking>, f: Filters, status: string)
    requires f.bookingStatus == ""
    ensures VisibleBookings(bookings, HandleFilterChange(f, BookingStatus, status))
            == VisibleBookings(VisibleBookings(bookings, f), HandleFilterChange(f, BookingStatus, status))
    ensures Seqs.IsSubseq(VisibleBookings(bookings, HandleFilterChange(f, BookingStatus, status)),
                          VisibleBookings(bookings, f))
  {
    var g := HandleFilterChange(f, BookingStatus, status);
    assert g == f.(bookingStatus := status);
    var p := (b: Booking) => Shown(b, g);
    var q := (b: Booking) => Shown(b, f);
    assert VisibleBookings(bookings, g) == Seqs.Filter(bookings, p);
    assert VisibleBookings(bookings, f) == Seqs.Filter(bookings, q);
    assert VisibleBookings(VisibleBookings(bookings, f), g) == Seqs.Filter(Seqs.Filter(bookings, q), p);
    forall i | 0 <= i < |bookings| && p(bookings[i]) ensures q(bookings[i]) {
      assert Shown(bookings[i], g);
      assert GuestMatch(bookings[i], f) && CheckInMatch(bookings[i], f);
    }
    Seqs.FilterNarrower(bookings, p, q);
  }
}

=== FILE: dates.dfy ===
/** Calendar dates as the booking screens hold them: `YYYY-MM-DD` text from a
    date input. `new Date(text)` becomes a day number, so that comparing two
    dates and subtracting them (in whole days) is integer arithmetic. */
module Dates {
  import opened Base

  predicate IsLeapYear(y: nat) {
    y % 4 == 0 && (y % 100 != 0 || y % 400 == 0)
  }

  function DaysInMonth(y: nat, m: nat): (r: nat)
    requires 1 <= m <= 12
    ensures 28 <= r <= 31
  {
    if m == 2 then (if IsLeapYear(y) then 29 else 28)
    else if m == 4 || m == 6 || m == 9 || m == 11 then 30
    else 31
  }

  function DaysInYear(y: nat): nat {
    if IsLeapYear(y) then 366 else 365
  }

  /** Days in the years before `y`, counted from year 0 (itself a leap
      year in the proleptic Gregorian calendar). */
  function DaysBeforeYear(y: nat): nat {
    365 * y + (y + 3) / 4 - (y + 99) / 100 + (y + 399) / 400
  }

  /** Each year adds its own length. */
  lemma YearStep(y: nat)
    ensures DaysBeforeYear(y + 1) == DaysBeforeYear(y) + DaysInYear(y)
  {
    assert (y + 4) / 4 - (y + 3) / 4 == (if y % 4 == 0 then 1 else 0);
    assert (y + 100) / 100 - (y + 99) / 100 == (if y % 100 == 0 then 1 else 0);
    assert (y + 400) / 400 - (y + 399) / 400 == (if y % 400 == 0 then 1 else 0);
  }

  /** Days in the months of year `y` before month `m`. */
  function DaysBeforeMonth(y: nat, m: nat): (r: nat)
    requires 1 <= m <= 13
    decreases m
  {
    if m == 1 then 0 else DaysBeforeMonth(y, m - 1) + DaysInMonth(y, m - 1)
  }

  datatype Date = Date(year: nat, month: nat, day: nat)

  predicate ValidDate(d: Date) {
    1 <= d.month <= 12 && 1 <= d.day <= DaysInMonth(d.year, d.month)
  }

  /** Day number of a valid date: consecutive calendar days get consecutive
      numbers. */
  function Ordinal(d: Date): int
    requires ValidDate(d)
  {
    DaysBeforeYear(d.year) + DaysBeforeMonth(d.year, d.month) + d.day - 1
  }

  /** Reads `YYYY-MM-DD`; None stands for JavaScript's Invalid Date. */
  function ParseDate(s: string): (r: Option<Date>)
    ensures r.Some? ==> ValidDate(r.value) && r.value.year <= 9999
  {
    if |s| != 10 || s[4] != '-' || s[7] != '-' then None
    else match (DigitsValue(s[..4]), DigitsValue(s[5..7]), DigitsValue(s[8..]))
      case (Some(y), Some(m), Some(d)) =>
        assert y <= 9999 by { DigitsBound(s[..4]); }
        var date := Date(y, m, d);
        if ValidDate(date) then Some(date) else None
      case _ => None
  }

  lemma {:induction false} DigitsBound(s: string)
    requires DigitsValue(s).Some?
    ensures DigitsValue(s).value < Pow10(|s|)
    decreases |s|
  {
    if |s| > 1 {
      DigitsBound(s[..|s| - 1]);
    }
  }

  function Pow10(n: nat): (r: nat)
    ensures r >= 1
  {
    if n == 0 then 1 else 10 * Pow10(n - 1)
  }

  /** `new Date(text)` as a day number. */
  function DayNumber(s: string): Option<int> {
    match ParseDate(s)
    case Some(d) => Some(Ordinal(d))
    case None => None
  }

  /** Calendar order on dates: by year, then month, then day. */
  predicate Before(a: Date, b: Date) {
    a.year < b.year
    || (a.year == b.year && a.month < b.month)
    || (a.year == b.year && a.month == b.month && a.day < b.day)
  }

  lemma {:induction false} MonthsFillYear(y: nat)
    ensures DaysBeforeMonth(y, 13) == DaysInYear(y)
  {
  }

  lemma {:induction false} DaysBeforeMonthMonotone(y: nat, m1: nat, m2: nat)
    requires 1 <= m1 <= m2 <= 13
    ensures DaysBeforeMonth(y, m1) <= DaysBeforeMonth(y, m2)
    decreases m2
  {
    if m1 < m2 {
      DaysBeforeMonthMonotone(y, m1, m2 - 1);
    }
  }

  lemma {:induction false} DaysBeforeYearMonotone(y1: nat, y2: nat)
    requires y1 < y2
    ensures DaysBeforeYear(y1) + DaysInYear(y1) <= DaysBeforeYear(y2)
    decreases y2
  {
    YearStep(y2 - 1);
    if y1 < y2 - 1 {
      DaysBeforeYearMonotone(y1, y2 - 1);
    }
  }

  /** The day of the year of a valid date lies inside its year. */
  lemma DayOfYearInRange(d: Date)
    requires ValidDate(d)
    ensures 0 <= Ordinal(d) - DaysBeforeYear(d.year) < DaysInYear(d.year)
  {
    DaysBeforeMonthMonotone(d.year, d.month + 1, 13);
    MonthsFillYear(d.year);
  }

  lemma {:induction false} OrdinalBefore(a: Date, b: Date)
    requires ValidDate(a) && ValidDate(b) && Before(a, b)
    ensures Ordinal(a) < Ordinal(b)
  {
    DayOfYearInRange(a);
    DayOfYearInRange(b);
    if a.year < b.year {
      DaysBeforeYearMonotone(a.year, b.year);
    } else if a.month < b.month {
      var y := a.year;
      assert DaysBeforeMonth(y, a.month + 1) == DaysBeforeMonth(y, a.month) + DaysInMonth(y, a.month);
      DaysBeforeMonthMonotone(y, a.month + 1, b.month);
    }
  }

  /** Day numbers order dates exactly as the calendar does. */
  lemma {:induction false} OrdinalOrder(a: Date, b: Date)
    requires ValidDate(a) && ValidDate(b)
    ensures Ordinal(a) < Ordinal(b) <==> Before(a, b)
    ensures Ordinal(a) == Ordinal(b) <==> a == b
  {
    if Before(a, b) {
      OrdinalBefore(a, b);
    } else if Before(b, a) {
      OrdinalBefore(b, a);
    } else {
      assert a == b;
    }
  }
}

=== FILE: guest_store.dfy ===
/** The guest list (src/store/useGuestStore.js): names are kept once,
    compared without regard to letter case. */
module GuestStore {
  import opened Base

  datatype Guest = Guest(id: int, name: string, createdAt: string)

  predicate SameName(a: string, b: string) {
    Lower(a) == Lower(b)
  }

  predicate Known(guests: seq<Guest>, name: string) {
    exists i :: 0 <= i < |guests| && SameName(guests[i].name, name)
  }

  /** No two guests share a name up to letter case. */
  ghost predicate NamesDistinct(guests: seq<Guest>) {
    forall i, j :: 0 <= i < j < |guests| ==> !SameName(guests[i].name, guests[j].name)
  }

  /** `addGuestIfNotExists`: `id` and `now` are the clock readings. */
  function AddGuestIfNotExists(guests: seq<Guest>, name: string, id: int, now: string): (r: seq<Guest>)
    ensures Known(guests, name) ==> r == guests
    ensures !Known(guests, name) ==> r == guests + [Guest(id, name, now)]
    ensures Known(r, name)
    ensures NamesDistinct(guests) ==> NamesDistinct(r)
  {
    if Known(guests, name) then guests
    else
      var r := guests + [Guest(id, name, now)];
      assert SameName(r[|guests|].name, name);
      r
  }

  /** Asking twice for the same name (in any letter case) adds at most once. */
  lemma AddTwiceIsOnce(guests: seq<Guest>, name: string, other: string, id1: int, id2: int, t1: string, t2: string)
    requires SameName(name, other)
    ensures AddGuestIfNotExists(AddGuestIfNotExists(guests, name, id1, t1), other, id2, t2)
            == AddGuestIfNotExists(guests, name, id1, t1)
  {
    var once := AddGuestIfNotExists(guests, name, id1, t1);
    var k :| 0 <= k < |once| && SameName(once[k].name, name);
    assert SameName(once[k].name, other);
  }
}

=== FILE: guests_page.dfy ===
/** The guest directory (src/pages/Guests.js): bookings grouped into one
    card per guest, cards ordered by number of bookings, and per card a
    count by status and the three most recent check-ins. */
module GuestsPage {
  import opened Base
  import Seqs
  import Dates
  import BookingStore

  type Booking = BookingStore.Booking

  // ---------------------------------------------------------- grouping

  /** The elements of a `Map` built by pushing each keyed element onto the
      entry for its key; entries keep the order of their first insertion. */
  datatype Group<T, K> = Group(key: K, members: seq<T>)

  /** The elements with key `k`, in order. */
  function WithKey<T, K(==)>(s: seq<T>, key: T -> Option<K>, k: K): seq<T>
    decreases |s|
  {
    if |s| == 0 then []
    else WithKey(s[..|s| - 1], key, k) + (if key(s[|s| - 1]) == Some(k) then [s[|s| - 1]] else [])
  }

  /** How many elements have a key at all. */
  function KeyedCount<T, K>(s: seq<T>, key: T -> Option<K>): nat
    decreases |s|
  {
    if |s| == 0 then 0
    else KeyedCount(s[..|s| - 1], key) + (if key(s[|s| - 1]).Some? then 1 else 0)
  }

  predicate HasGroup<T, K(==)>(groups: seq<Group<T, K>>, k: K) {
    exists i :: 0 <= i < |groups| && groups[i].key == k
  }

  function GroupIndex<T, K(==)>(groups: seq<Group<T, K>>, k: K): (i: int)
    ensures -1 <= i < |groups|
    ensures i >= 0 ==> groups[i].key == k
    ensures i < 0 ==> !HasGroup(groups, k)
    decreases |groups|
  {
    if |groups| == 0 then -1
    else if groups[|groups| - 1].key == k then |groups| - 1
    else GroupIndex(groups[..|groups| - 1], k)
  }

  function Size<T, K>(g: Group<T, K>): int { |g.members| }

  /** Files one element under its key, or skips it when it has none. */
  function File<T, K(==)>(groups: seq<Group<T, K>>, x: T, key: T -> Option<K>): seq<Group<T, K>> {
    match key(x)
    case None => groups
    case Some(k) =>
      var i := GroupIndex(groups, k);
      if i >= 0 then groups[i := Group(k, groups[i].members + [x])]
      else groups + [Group(k, [x])]
  }

  /** `s.forEach(x => map.set(key, [...(map.get(key) || []), x]))` */
  function GroupBy<T, K(==)>(s: seq<T>, key: T -> Option<K>): seq<Group<T, K>>
    decreases |s|
  {
    if |s| == 0 then [] else File(GroupBy(s[..|s| - 1], key), s[|s| - 1], key)
  }

  ghost predicate KeysDistinct<T, K>(groups: seq<Group<T, K>>) {
    forall i, j :: 0 <= i < j < |groups| ==> groups[i].key != groups[j].key
  }

  /** `groups` is the grouping of `s`: distinct keys, each group holding
      exactly the elements with its key in order (so at least one), and a
      group for the key of every keyed element. */
  ghost predicate Grouping<T, K>(groups: seq<Group<T, K>>, s: seq<T>, key: T -> Option<K>) {
    && KeysDistinct(groups)
    && (forall i :: 0 <= i < |groups| ==>
          groups[i].members == WithKey(s, key, groups[i].key) && |groups[i].members| >= 1)
    && (forall j :: 0 <= j < |s| && key(s[j]).Some? ==> HasGroup(groups, key(s[j]).value))
  }

  lemma WithKeyStep<T, K>(prefix: seq<T>, x: T, key: T -> Option<K>, k: K)
    ensures WithKey(prefix + [x], key, k) == WithKey(prefix, key, k) + (if key(x) == Some(k) then [x] else [])
  {
    assert (prefix + [x])[..|prefix|] == prefix;
  }

  /** No element has key `k`, so nothing is filed under it. */
  lemma {:induction false} WithKeyNone<T, K>(s: seq<T>, key: T -> Option<K>, k: K)
    requires forall j :: 0 <= j < |s| ==> key(s[j]) != Some(k)
    ensures WithKey(s, key, k) == []
    decreases |s|
  {
    if |s| > 0 {
      WithKeyNone(s[..|s| - 1], key, k);
    }
  }

  /** Filing an element with no key changes nothing. */
  lemma FileUnkeyed<T, K>(groups: seq<Group<T, K>>, prefix: seq<T>, x: T, key: T -> Option<K>)
    requires Grouping(groups, prefix, key) && key(x).None?
    ensures Grouping(File(groups, x, key), prefix + [x], key)
  {
    forall i | 0 <= i < |groups| ensures WithKey(prefix + [x], key, groups[i].key) == WithKey(prefix, key, groups[i].key) {
      WithKeyStep(prefix, x, key, groups[i].key);
    }
    forall j | 0 <= j < |prefix| + 1 && key((prefix + [x])[j]).Some?
      ensures HasGroup(groups, key((prefix + [x])[j]).value)
    {
      assert (prefix + [x])[j] == prefix[j];
    }
  }

  /** Filing an element under a key that already has a group. */
  lemma FileExisting<T, K>(groups: seq<Group<T, K>>, prefix: seq<T>, x: T, key: T -> Option<K>)
    requires Grouping(groups, prefix, key) && key(x).Some? && GroupIndex(groups, key(x).value) >= 0
    ensures Grouping(File(groups, x, key), prefix + [x], key)
  {
    var kx := key(x).value;
    var i := GroupIndex(groups, kx);
    var r := File(groups, x, key);
    assert r == groups[i := Group(kx, groups[i].members + [x])];
    forall g | 0 <= g < |r| ensures r[g].members == WithKey(prefix + [x], key, r[g].key) && |r[g].members| >= 1 {
      WithKeyStep(prefix, x, key, r[g].key);
    }
    forall j | 0 <= j < |prefix| + 1 && key((prefix + [x])[j]).Some?
      ensures HasGroup(r, key((prefix + [x])[j]).value)
    {
      if j < |prefix| {
        assert (prefix + [x])[j] == prefix[j];
        var g :| 0 <= g < |groups| && groups[g].key == key(prefix[j]).value;
        assert r[g].key == groups[g].key;
      } else {
        assert r[i].key == kx;
      }
    }
  }

  /** Filing an element under a key seen for the first time. */
  lemma FileNew<T, K>(groups: seq<Group<T, K>>, prefix: seq<T>, x: T, key: T -> Option<K>)
    requires Grouping(groups, prefix, key) && key(x).Some? && GroupIndex(groups, key(x).value) < 0
    ensures Grouping(File(groups, x, key), prefix + [x], key)
  {
    var kx := key(x).value;
    var r := File(groups, x, key);
    assert r == groups + [Group(kx, [x])];
    assert !HasGroup(groups, kx);
    WithKeyNone(prefix, key, kx);
    forall g | 0 <= g < |r| ensures r[g].members == WithKey(prefix + [x], key, r[g].key) && |r[g].members| >= 1 {
      WithKeyStep(prefix, x, key, r[g].key);
    }
    forall j | 0 <= j < |prefix| + 1 && key((prefix + [x])[j]).Some?
      ensures HasGroup(r, key((prefix + [x])[j]).value)
    {
      if j < |prefix| {
        assert (prefix + [x])[j] == prefix[j];
        var g :| 0 <= g < |groups| && groups[g].key == key(prefix[j]).value;
        assert r[g].key == groups[g].key;
      } else {
        assert r[|groups|].key == kx;
      }
    }
  }

  /** Each key gets exactly one group, holding exactly the elements with that
      key in their original order. */
  lemma {:induction false} GroupByFacts<T, K>(s: seq<T>, key: T -> Option<K>)
    ensures Grouping(GroupBy(s, key), s, key)
    decreases |s|
  {
    if |s| > 0 {
      var prefix := s[..|s| - 1];
      var x := s[|s| - 1];
      GroupByFacts(prefix, key);
      var prev := GroupBy(prefix, key);
      assert s == prefix + [x];
      if key(x).None? {
        FileUnkeyed(prev, prefix, x, key);
      } else if GroupIndex(prev, key(x).value) >= 0 {
        FileExisting(prev, prefix, x, key);
      } else {
        FileNew(prev, prefix, x, key);
      }
    }
  }

  /** The group sizes add up to the number of keyed elements. */
  lemma {:induction false} GroupBySizes<T, K>(s: seq<T>, key: T -> Option<K>)
    ensures Seqs.Sum(GroupBy(s, key), Size) == KeyedCount(s, key)
    decreases |s|
  {
    if |s| > 0 {
      var prefix := s[..|s| - 1];
      var x := s[|s| - 1];
      GroupBySizes(prefix, key);
      var prev := GroupBy(prefix, key);
      if key(x).Some? {
        var kx := key(x).value;
        var i := GroupIndex(prev, kx);
        if i >= 0 {
          Seqs.SumUpdate(prev, i, Group(kx, prev[i].members + [x]), Size);
        } else {
          Seqs.SumAppend(prev, [Group(kx, [x])], Size);
        }
      }
    }
  }

  // ------------------------------------------------------------ guests

  /** `booking.email?.toLowerCase() || booking.guestName?.toLowerCase()`;
      a booking with neither is skipped. */
  function GuestKey(b: Booking): (r: Option<string>)
    ensures r.Some? <==> b.email != "" || b.guestName != ""
    ensures b.email != "" ==> r == Some(Lower(b.email))
  {
    if b.email != "" then Some(Lower(b.email))
    else if b.guestName != "" then Some(Lower(b.guestName))
    else None
  }

  datatype Contact = Contact(guestName: string, email: string, phone: string, address: string)

  function OrNA(s: string): string {
    if s == "" then "N/A" else s
  }

  /** The card fields taken from the first booking of a guest. */
  function ContactOf(b: Booking): Contact {
    Contact(b.guestName, OrNA(b.email), OrNA(b.phone), OrNA(b.address))
  }

  datatype Visit = Visit(checkIn: string, checkOut: string, roomNumber: Val, bookingStatus: string)

  function VisitOf(b: Booking): Visit {
    Visit(b.checkIn, b.checkOut, b.roomNumber, b.bookingStatus)
  }

  datatype GuestCard = GuestCard(key: string, contact: Contact, visits: seq<Visit>)

  function CardSize(c: GuestCard): int { |c.visits| }

  function CardOf(g: Group<Booking, string>): (c: GuestCard)
    requires |g.members| >= 1
    ensures c.key == g.key && c.contact == ContactOf(g.members[0]) && |c.visits| == |g.members|
    ensures forall v :: 0 <= v < |g.members| ==> c.visits[v] == VisitOf(g.members[v])
  {
    GuestCard(g.key, ContactOf(g.members[0]),
              seq(|g.members|, v requires 0 <= v < |g.members| => VisitOf(g.members[v])))
  }

  /** One card per guest, in order of each guest's first booking: the card
      for key k shows the first booking with that key and one visit per
      booking with that key. */
  function Cards(bookings: seq<Booking>): (r: seq<GuestCard>)
    ensures forall i, j :: 0 <= i < j < |r| ==> r[i].key != r[j].key
    ensures forall i :: 0 <= i < |r| ==> CardShows(r[i], WithKey(bookings, GuestKey, r[i].key))
    ensures forall j :: 0 <= j < |bookings| && GuestKey(bookings[j]).Some? ==>
              exists i :: 0 <= i < |r| && r[i].key == GuestKey(bookings[j]).value
    ensures Seqs.Sum(r, CardSize) == KeyedCount(bookings, GuestKey)
  {
    var groups := GroupBy(bookings, GuestKey);
    GroupByFacts(bookings, GuestKey);
    GroupBySizes(bookings, GuestKey);
    var r := seq(|groups|, i requires 0 <= i < |groups| => CardOf(groups[i]));
    SameSizes(groups, r);
    forall j | 0 <= j < |bookings| && GuestKey(bookings[j]).Some?
      ensures exists i :: 0 <= i < |r| && r[i].key == GuestKey(bookings[j]).value
    {
      var i :| 0 <= i < |groups| && groups[i].key == GuestKey(bookings[j]).value;
      assert r[i].key == groups[i].key;
    }
    r
  }

  /** A card shows the guest's bookings: contact from the first, one visit
      per booking. */
  predicate CardShows(c: GuestCard, mine: seq<Booking>) {
    |mine| >= 1 && c.contact == ContactOf(mine[0]) && |c.visits| == |mine|
    && forall v :: 0 <= v < |mine| ==> c.visits[v] == VisitOf(mine[v])
  }

  lemma {:induction false} SameSizes(groups: seq<Group<Booking, string>>, cards: seq<GuestCard>)
    requires |groups| == |cards|
    requires forall i :: 0 <= i < |groups| ==> |groups[i].members| == |cards[i].visits|
    ensures Seqs.Sum(groups, Size) == Seqs.Sum(cards, CardSize)
    decreases |groups|
  {
    if |groups| > 0 {
      SameSizes(groups[1..], cards[1..]);
    }
  }

  /** The guest list: cards by number of bookings, most first. */
  function Guests(bookings: seq<Booking>): (r: seq<GuestCard>)
    ensures multiset(r) == multiset(Cards(bookings))
    ensures Seqs.SortedDesc(r, CardSize)
  {
    Seqs.SortDesc(Cards(bookings), CardSize)
  }

  // ------------------------------------------------- per-card summaries

  /** `b.bookingStatus || "Unknown"` */
  function StatusKey(v: Visit): Option<string> {
    Some(if v.bookingStatus == "" then "Unknown" else v.bookingStatus)
  }

  datatype StatusCount = StatusCount(status: string, count: int)

  function CountOf(c: StatusCount): int { c.count }

  /** The status breakdown of one card. */
  function StatusCounts(visits: seq<Visit>): (r: seq<StatusCount>)
    ensures forall i, j :: 0 <= i < j < |r| ==> r[i].status != r[j].status
    ensures forall i :: 0 <= i < |r| ==> r[i].count == |WithKey(visits, StatusKey, r[i].status)| >= 1
    ensures Seqs.Sum(r, CountOf) == |visits|
  {
    var groups := GroupBy(visits, StatusKey);
    GroupByFacts(visits, StatusKey);
    GroupBySizes(visits, StatusKey);
    AllKeyed(visits);
    var r := seq(|groups|, i requires 0 <= i < |groups| => StatusCount(groups[i].key, |groups[i].members|));
    SameCounts(groups, r);
    r
  }

  lemma {:induction false} AllKeyed(visits: seq<Visit>)
    ensures KeyedCount(visits, StatusKey) == |visits|
    decreases |visits|
  {
    if |visits| > 0 {
      AllKeyed(visits[..|visits| - 1]);
    }
  }

  lemma {:induction false} SameCounts(groups: seq<Group<Visit, string>>, counts: seq<StatusCount>)
    requires |groups| == |counts|
    requires forall i :: 0 <= i < |groups| ==> |groups[i].members| == counts[i].count
    ensures Seqs.Sum(groups, Size) == Seqs.Sum(counts, CountOf)
    decreases |groups|
  {
    if |groups| > 0 {
      SameCounts(groups[1..], counts[1..]);
    }
  }

  /** Sort key for check-in dates: the day number, with unreadable dates
      placed after every real one. */
  function CheckInKey(s: string): int {
    match Dates.DayNumber(s)
    case Some(d) => d
    case None => -1
  }

  function CheckIns(visits: seq<Visit>): (r: seq<string>)
    ensures forall i :: 0 <= i < |r| ==> r[i] != ""
    decreases |visits|
  {
    if |visits| == 0 then []
    else (if visits[0].checkIn != "" then [visits[0].checkIn] else []) + CheckIns(visits[1..])
  }

  /** `visits.map(b => b.checkIn).filter(Boolean).sort(newest first).slice(0, 3)` */
  function RecentCheckIns(visits: seq<Visit>): (r: seq<string>)
    ensures |r| == if |CheckIns(visits)| < 3 then |CheckIns(visits)| else 3
    ensures multiset(r) <= multiset(CheckIns(visits))
    ensures Seqs.SortedDesc(r, CheckInKey)
    ensures forall i :: 0 <= i < |r| ==> r[i] != ""
    ensures forall x, i :: x in multiset(CheckIns(visits)) - multiset(r) && 0 <= i < |r| ==>
              CheckInKey(x) <= CheckInKey(r[i])
  {
    var all := CheckIns(visits);
    var n := if |all| < 3 then |all| else 3;
    Seqs.TakeSorted(all, n, CheckInKey);
    Seqs.SortDesc(all, CheckInKey)[..n]
  }
}

=== FILE: order_store.dfy ===
/** Orders (src/store/useOrderStore.js). The store never looks inside an
    order beyond its id, so the rest of the record is a type parameter. */
module OrderStore {
  import Seqs

  datatype Order<T> = Order(id: string, payload: T)

  predicate HasOrder<T>(orders: seq<Order<T>>, id: string) {
    exists i :: 0 <= i < |orders| && orders[i].id == id
  }

  function OrderKey<T>(o: Order<T>): string { o.id }

  ghost predicate UniqueIds<T>(orders: seq<Order<T>>) {
    Seqs.UniqueBy(orders, OrderKey)
  }

  /** `addOrder`: appends the order under a newly drawn id (`freshId`, the
      uuid), whatever id the order carried. */
  function AddOrder<T>(orders: seq<Order<T>>, order: Order<T>, freshId: string): (r: seq<Order<T>>)
    ensures |r| == |orders| + 1 && r[..|orders|] == orders
    ensures r[|orders|] == Order(freshId, order.payload)
  {
    var r := orders + [order.(id := freshId)];
    assert r[..|orders|] == orders;
    r
  }

  /** `updateOrder`: every order with the same id is replaced whole. */
  function UpdateOrder<T>(orders: seq<Order<T>>, updated: Order<T>): (r: seq<Order<T>>)
    ensures |r| == |orders|
    ensures forall i :: 0 <= i < |orders| && orders[i].id == updated.id ==> r[i] == updated
    ensures forall i :: 0 <= i < |orders| && orders[i].id != updated.id ==> r[i] == orders[i]
    ensures !HasOrder(orders, updated.id) ==> r == orders
  {
    Seqs.UpdateWhere(orders, (o: Order<T>) => o.id == updated.id, (o: Order<T>) => updated)
  }

  /** `removeOrder`: drops every order with the id, keeping the rest in order. */
  function RemoveOrder<T(!new)>(orders: seq<Order<T>>, id: string): (r: seq<Order<T>>)
    ensures !HasOrder(r, id)
    ensures forall i :: 0 <= i < |orders| && orders[i].id != id ==> orders[i] in r
    ensures Seqs.IsSubseq(r, orders)
    ensures forall x: Order<T> :: multiset(r)[x] == if x.id != id then multiset(orders)[x] else 0
    ensures !HasOrder(orders, id) ==> r == orders
  {
    Seqs.FilterCounts(orders, (o: Order<T>) => o.id != id);
    Seqs.Filter(orders, (o: Order<T>) => o.id != id)
  }

  /** With a fresh id, adding keeps ids unique, and removing that id again
      restores the list. */
  lemma {:induction false} AddThenRemove<T(!new)>(orders: seq<Order<T>>, order: Order<T>, freshId: string)
    requires !HasOrder(orders, freshId)
    ensures UniqueIds(orders) ==> UniqueIds(AddOrder(orders, order, freshId))
    ensures RemoveOrder(AddOrder(orders, order, freshId), freshId) == orders
  {
    var added := order.(id := freshId);
    assert AddOrder(orders, order, freshId) == orders + [added];
    Seqs.FilterAppend(orders, [added], (o: Order<T>) => o.id != freshId);
    assert Seqs.Filter([added], (o: Order<T>) => o.id != freshId) == [];
  }

  /** Updating and removing keep ids unique. */
  lemma {:induction false} UpdateRemoveKeepUnique<T(!new)>(orders: seq<Order<T>>, updated: Order<T>, id: string)
    requires UniqueIds(orders)
    ensures UniqueIds(UpdateOrder(orders, updated))
    ensures UniqueIds(RemoveOrder(orders, id))
  {
    Seqs.SubseqKeepsUnique(RemoveOrder(orders, id), orders, OrderKey);
    var u := UpdateOrder(orders, updated);
    forall i, j | 0 <= i < j < |u| ensures OrderKey(u[i]) != OrderKey(u[j]) {
      assert u[i].id == orders[i].id && u[j].id == orders[j].id;
    }
  }
}

=== FILE: payment_store.dfy ===
/** Payments (src/store/usePaymentStore.js): one payment at a time is staged,
    then recorded as paid or failed; refunds are recorded against an earlier
    payment; the ledger only ever grows. Times are milliseconds since the
    epoch, as `new Date()` holds them. */
module PaymentStore {
  import opened Base
  import Seqs

  datatype Payment = Payment(
    id: string,
    bookingId: string,
    guestName: string,
    roomType: Option<string>,
    amount: int,
    date: int,
    payMethod: Option<string>,
    status: string,
    notes: string,
    originalPaymentId: Option<string>)

  /** The booking fields `initializePayment` reads. */
  datatype PaymentBooking = PaymentBooking(id: string, guestName: string, roomType: Option<string>, totalAmount: int)

  datatype State = State(payments: seq<Payment>, current: Option<Payment>)

  /** The ledger never holds a staged ('pending') payment. */
  ghost predicate NoPendingEntries(payments: seq<Payment>) {
    forall i :: 0 <= i < |payments| ==> payments[i].status != "pending"
  }

  /** `initializePayment`: stages a pending payment for the booking, replacing
      any staged one. `id` is the generated `PAY-` id, `now` the clock. */
  function InitializePayment(s: State, booking: PaymentBooking, id: string, now: int): (r: State)
    ensures r.payments == s.payments
    ensures r.current.Some? && r.current.value.status == "pending" && r.current.value.payMethod.None?
    ensures r.current.value.amount == booking.totalAmount && r.current.value.bookingId == booking.id
    ensures r.current.value.id == id && r.current.value.date == now && r.current.value.notes == ""
  {
    State(s.payments, Some(Payment(id, booking.id, booking.guestName, booking.roomType,
                                   booking.totalAmount, now, None, "pending", "", None)))
  }

  datatype Processed = Processed(state: State, paid: Option<Payment>)

  /** `processPayment`: records the staged payment as paid with the given
      method and returns it; without a staged payment nothing happens. */
  function ProcessPayment(s: State, payMethod: Option<string>, now: int): (r: Processed)
    ensures s.current.None? ==> r.state == s && r.paid.None?
    ensures s.current.Some? ==>
              && r.paid.Some?
              && r.state == State(s.payments + [r.paid.value], None)
              && r.paid.value.status == "paid" && r.paid.value.payMethod == payMethod && r.paid.value.date == now
              && r.paid.value.(status := "pending", payMethod := s.current.value.payMethod, date := s.current.value.date)
                 == s.current.value.(status := "pending")
    ensures NoPendingEntries(s.payments) ==> NoPendingEntries(r.state.payments)
  {
    match s.current
    case None => Processed(s, None)
    case Some(c) =>
      var paid := c.(payMethod := payMethod, status := "paid", date := now);
      Processed(State(s.payments + [paid], None), Some(paid))
  }

  /** `failPayment`: records the staged payment as failed with the reason. */
  function FailPayment(s: State, reason: string, now: int): (r: State)
    ensures s.current.None? ==> r == s
    ensures s.current.Some? ==>
              && r.current.None? && |r.payments| == |s.payments| + 1 && r.payments[..|s.payments|] == s.payments
              && var f := r.payments[|s.payments|];
                 f.status == "failed" && f.notes == reason && f.date == now
                 && f.(status := "pending", notes := s.current.value.notes, date := s.current.value.date)
                    == s.current.value.(status := "pending")
    ensures NoPendingEntries(s.payments) ==> NoPendingEntries(r.payments)
  {
    match s.current
    case None => s
    case Some(c) =>
      var ps := s.payments + [c.(status := "failed", notes := reason, date := now)];
      assert ps[..|s.payments|] == s.payments;
      State(ps, None)
  }

  function Abs(n: int): (r: nat)
    ensures r == n || r == -n
  {
    if n < 0 then -n else n
  }

  predicate HasPayment(payments: seq<Payment>, id: string) {
    exists i :: 0 <= i < |payments| && payments[i].id == id
  }

  /** `refundPayment`: records a negative payment against the first payment
      with that id; an unknown id changes nothing. `refundId` is the
      generated `RFND-` id, `now` the clock. */
  function RefundPayment(s: State, paymentId: string, amount: int, reason: string, refundId: string, now: int): (r: State)
    ensures r.current == s.current
    ensures !HasPayment(s.payments, paymentId) ==> r == s
    ensures HasPayment(s.payments, paymentId) ==>
              && |r.payments| == |s.payments| + 1 && r.payments[..|s.payments|] == s.payments
              && var f := r.payments[|s.payments|];
                 f.status == "refunded" && f.amount == -(Abs(amount) as int) && f.amount <= 0
                 && f.originalPaymentId == Some(paymentId) && f.notes == reason
                 && f.id == refundId && f.date == now
                 && exists k :: 0 <= k < |s.payments| && s.payments[k].id == paymentId
                                && f.bookingId == s.payments[k].bookingId && f.payMethod == s.payments[k].payMethod
    ensures NoPendingEntries(s.payments) ==> NoPendingEntries(r.payments)
  {
    match Seqs.Find(s.payments, (p: Payment) => p.id == paymentId)
    case None => s
    case Some(o) =>
      var ps := s.payments + [Payment(refundId, o.bookingId, o.guestName, None, -(Abs(amount) as int), now,
                                      o.payMethod, "refunded", reason, Some(paymentId))];
      assert ps[..|s.payments|] == s.payments;
      State(ps, s.current)
  }

  // ----------------------------------------------------------- queries

  datatype DateRange = DateRange(start: int, end: int)

  datatype PaymentFilters = PaymentFilters(status: string, dateRange: Option<DateRange>, payMethod: string)

  predicate MatchesFilters(p: Payment, f: PaymentFilters) {
    (f.status == "all" || p.status == f.status)
    && (f.payMethod == "all" || p.payMethod == Some(f.payMethod))
    && (f.dateRange.None? || (f.dateRange.value.start <= p.date && p.date <= f.dateRange.value.end))
  }

  /** `getFilteredPayments` */
  function GetFilteredPayments(payments: seq<Payment>, f: PaymentFilters): (r: seq<Payment>)
    ensures Seqs.IsSubseq(r, payments)
    ensures forall x: Payment :: multiset(r)[x] == if MatchesFilters(x, f) then multiset(payments)[x] else 0
    ensures forall i :: 0 <= i < |r| ==> MatchesFilters(r[i], f)
    ensures forall i :: 0 <= i < |payments| && MatchesFilters(payments[i], f) ==> payments[i] in r
    ensures f == PaymentFilters("all", None, "all") ==> r == payments
    ensures forall i :: 0 <= i < |r| && f.dateRange.Some? ==>
              f.dateRange.value.start <= r[i].date <= f.dateRange.value.end
  {
    Seqs.FilterCounts(payments, (p: Payment) => MatchesFilters(p, f));
    Seqs.Filter(payments, (p: Payment) => MatchesFilters(p, f))
  }

  /** Choosing a status or a method where the filter said "all" (or
      choosing the one already set) narrows the list: the new list is the
      old list put through the new filters. */
  lemma {:induction false} ChoosingNarrows(payments: seq<Payment>, f: PaymentFilters, status: string, payMethod: string)
    requires f.status == "all" || f.status == status
    requires f.payMethod == "all" || f.payMethod == payMethod
    ensures var g := f.(status := status, payMethod := payMethod);
      && GetFilteredPayments(payments, g) == GetFilteredPayments(GetFilteredPayments(payments, f), g)
      && Seqs.IsSubseq(GetFilteredPayments(payments, g), GetFilteredPayments(payments, f))
  {
    var g := f.(status := status, payMethod := payMethod);
    var p := (x: Payment) => MatchesFilters(x, g);
    var q := (x: Payment) => MatchesFilters(x, f);
    assert GetFilteredPayments(payments, g) == Seqs.Filter(payments, p);
    assert GetFilteredPayments(payments, f) == Seqs.Filter(payments, q);
    assert GetFilteredPayments(GetFilteredPayments(payments, f), g) == Seqs.Filter(Seqs.Filter(payments, q), p);
    Seqs.FilterNarrower(payments, p, q);
  }

  const MillisPerDay := 86400000

  /** The UTC calendar day a time falls on, which is what comparing the date
      parts of two ISO timestamps tests. */
  function Day(t: int): int {
    t / MillisPerDay
  }

  predicate IsPaid(p: Payment) { p.status == "paid" }
  predicate IsPending(p: Payment) { p.status == "pending" }
  predicate IsRefund(p: Payment) { p.status == "refunded" }

  function Amount(p: Payment): int { p.amount }
  function AbsAmount(p: Payment): int { Abs(p.amount) }
  function PaidAmount(p: Payment): int { if IsPaid(p) then p.amount else 0 }
  function PendingAmount(p: Payment): int { if IsPending(p) then p.amount else 0 }

  datatype Summary = Summary(totalRevenue: int, pendingPayments: int, todaysRevenue: int, refundsIssued: int)

  /** What one ledger entry adds to today's revenue: its amount when it
      is paid and dated on the same day as `now`. */
  function TodayAmount(now: int): Payment -> int {
    (p: Payment) => if IsPaid(p) && Day(p.date) == Day(now) then p.amount else 0
  }

  /** What one ledger entry adds to the refunds issued. */
  function RefundAmount(p: Payment): int { if IsRefund(p) then Abs(p.amount) else 0 }

  /** `getPaymentSummary`, with `now` the clock reading. Each figure is the
      sum over the ledger of what each entry contributes to it. */
  function GetPaymentSummary(payments: seq<Payment>, now: int): (r: Summary)
    ensures r.totalRevenue == Seqs.Sum(payments, PaidAmount)
    ensures r.pendingPayments == Seqs.Sum(payments, PendingAmount)
    ensures r.todaysRevenue == Seqs.Sum(payments, TodayAmount(now))
    ensures r.refundsIssued == Seqs.Sum(payments, RefundAmount)
    ensures r.refundsIssued >= 0
    ensures NoPendingEntries(payments) ==> r.pendingPayments == 0
  {
    var paid := Seqs.Filter(payments, IsPaid);
    var pending := Seqs.Filter(payments, IsPending);
    var today := (p: Payment) => IsPaid(p) && Day(p.date) == Day(now);
    Seqs.SumOfFilter(payments, IsPaid, Amount, PaidAmount);
    Seqs.SumOfFilter(payments, IsPending, Amount, PendingAmount);
    Seqs.SumOfFilter(payments, today, Amount, TodayAmount(now));
    Seqs.SumOfFilter(payments, IsRefund, AbsAmount, RefundAmount);
    Seqs.SumNonNegative(Seqs.Filter(payments, IsRefund), AbsAmount);
    Summary(
      Seqs.Sum(paid, Amount),
      Seqs.Sum(pending, Amount),
      Seqs.Sum(Seqs.Filter(payments, today), Amount),
      Seqs.Sum(Seqs.Filter(payments, IsRefund), AbsAmount))
  }

  /** Appending one entry to the ledger moves each figure of the summary
      by exactly what that entry contributes to it. */
  lemma {:induction false} AppendMovesSummary(payments: seq<Payment>, x: Payment, clock: int)
    ensures var before := GetPaymentSummary(payments, clock);
      var after := GetPaymentSummary(payments + [x], clock);
      && after.totalRevenue == before.totalRevenue + PaidAmount(x)
      && after.pendingPayments == before.pendingPayments + PendingAmount(x)
      && after.todaysRevenue == before.todaysRevenue + TodayAmount(clock)(x)
      && after.refundsIssued == before.refundsIssued + RefundAmount(x)
  {
    Seqs.SumAppend(payments, [x], PaidAmount);
    Seqs.SumAppend(payments, [x], PendingAmount);
    Seqs.SumAppend(payments, [x], TodayAmount(clock));
    Seqs.SumAppend(payments, [x], RefundAmount);
  }

  /** A processed payment adds its amount to the total revenue, and to
      today's revenue when it is processed on the day the summary is asked
      for; the refunds issued do not move. */
  lemma {:induction false} ProcessAddsRevenue(s: State, payMethod: Option<string>, now: int, clock: int)
    requires s.current.Some?
    ensures var before := GetPaymentSummary(s.payments, clock);
      var after := GetPaymentSummary(ProcessPayment(s, payMethod, now).state.payments, clock);
      && after.totalRevenue == before.totalRevenue + s.current.value.amount
      && after.todaysRevenue == before.todaysRevenue + (if Day(now) == Day(clock) then s.current.value.amount else 0)
      && after.refundsIssued == before.refundsIssued
      && after.pendingPayments == before.pendingPayments
  {
    var paid := ProcessPayment(s, payMethod, now).paid.value;
    AppendMovesSummary(s.payments, paid, clock);
  }

  /** A recorded refund adds the size of its amount to the refunds issued
      and leaves both revenues as they were. */
  lemma {:induction false} RefundAddsToRefunds(s: State, paymentId: string, amount: int, reason: string,
                                                 refundId: string, now: int, clock: int)
    requires HasPayment(s.payments, paymentId)
    ensures var before := GetPaymentSummary(s.payments, clock);
      var after := GetPaymentSummary(RefundPayment(s, paymentId, amount, reason, refundId, now).payments, clock);
      && after.refundsIssued == before.refundsIssued + Abs(amount)
      && after.totalRevenue == before.totalRevenue
      && after.todaysRevenue == before.todaysRevenue
  {
    var ps := RefundPayment(s, paymentId, amount, reason, refundId, now).payments;
    var refund := ps[|s.payments|];
    assert ps == s.payments + [refund] by {
      assert ps[..|s.payments|] == s.payments && |ps| == |s.payments| + 1;
    }
    AppendMovesSummary(s.payments, refund, clock);
  }

  // ------------------------------------------------------ the ledger

  datatype Step =
    | Initialize(booking: PaymentBooking, id: string)
    | Process(payMethod: Option<string>)
    | Fail(reason: string)
    | Refund(paymentId: string, amount: int, reason: string, refundId: string)

  function Apply(s: State, step: Step, now: int): State {
    match step
    case Initialize(b, id) => InitializePayment(s, b, id, now)
    case Process(m) => ProcessPayment(s, m, now).state
    case Fail(reason) => FailPayment(s, reason, now)
    case Refund(pid, amount, reason, rid) => RefundPayment(s, pid, amount, reason, rid, now)
  }

  function Run(s: State, steps: seq<Step>, clock: seq<int>): State
    requires |clock| == |steps|
    decreases |steps|
  {
    if |steps| == 0 then s else Run(Apply(s, steps[0], clock[0]), steps[1..], clock[1..])
  }

  /** Over any run of actions the ledger only grows, keeps its old entries,
      grows by at most one entry per action and never records a pending
      payment, so the pending total of the summary stays 0. */
  lemma {:induction false} LedgerAppendOnly(s: State, steps: seq<Step>, clock: seq<int>, now: int)
    requires |clock| == |steps|
    requires NoPendingEntries(s.payments)
    ensures var r := Run(s, steps, clock);
      && |s.payments| <= |r.payments| <= |s.payments| + |steps|
      && r.payments[..|s.payments|] == s.payments
      && NoPendingEntries(r.payments)
      && GetPaymentSummary(r.payments, now).pendingPayments == 0
    decreases |steps|
  {
    if |steps| > 0 {
      var s1 := Apply(s, steps[0], clock[0]);
      assert |s.payments| <= |s1.payments| <= |s.payments| + 1 && s1.payments[..|s.payments|] == s.payments;
      LedgerAppendOnly(s1, steps[1..], clock[1..], now);
      var r := Run(s, steps, clock);
      assert r.payments[..|s1.payments|][..|s.payments|] == r.payments[..|s.payments|];
    }
  }
}

=== FILE: product_history.dfy ===
/** How a product's history reads on screen
    (src/utils/productHistoryHelpers.js): a label per entry kind, and the
    lines of an 'updated' entry turned into sentences, with the lines about
    unset values dropped. */
module ProductHistory {
  import opened Base
  import Seqs

  // ------------------------------------------------------------ labels

  const KnownTypes: seq<string> :=
    ["added", "updated", "restocked", "used", "inventory_adjustment", "archived", "restored"]

  /** `type.replace(/_/g, ' ')`: no underscore is left, and every other
      character stays where it was. */
  function Unsnake(s: string): (r: string)
    ensures |r| == |s|
    ensures forall i :: 0 <= i < |r| ==> r[i] != '_'
    ensures forall i :: 0 <= i < |s| && s[i] != '_' ==> r[i] == s[i]
  {
    seq(|s|, i requires 0 <= i < |s| => if s[i] == '_' then ' ' else s[i])
  }

  /** `formatActionType`: the fixed label of each known kind; any other kind
      with its underscores turned into spaces. No label holds an
      underscore. */
  function FormatActionType(kind: string): (r: string)
    ensures kind == "added" ==> r == "Product Added"
    ensures kind == "updated" ==> r == "Product Updated"
    ensures kind == "restocked" ==> r == "Restock"
    ensures kind == "used" ==> r == "Usage"
    ensures kind == "inventory_adjustment" ==> r == "Inventory Adjustment"
    ensures kind == "archived" ==> r == "Archived"
    ensures kind == "restored" ==> r == "Restored"
    ensures kind !in KnownTypes ==> r == Unsnake(kind)
    ensures forall i :: 0 <= i < |r| ==> r[i] != '_'
  {
    match kind
    case "added" => "Product Added"
    case "updated" => "Product Updated"
    case "restocked" => "Restock"
    case "used" => "Usage"
    case "inventory_adjustment" => "Inventory Adjustment"
    case "archived" => "Archived"
    case "restored" => "Restored"
    case _ => Unsnake(kind)
  }

  // ---------------------------------------------------------- rewriting

  /** `.replace(/([A-Z])/g, ' $1')` */
  function SpaceBeforeCapitals(s: string): (r: string)
    ensures |r| >= |s|
    ensures |r| > 0 ==> !IsUpper(r[0])
    ensures forall i :: 0 < i < |r| && IsUpper(r[i]) ==> r[i - 1] == ' '
    decreases |s|
  {
    if |s| == 0 then ""
    else
      var rest := SpaceBeforeCapitals(s[1..]);
      var head := if IsUpper(s[0]) then " " + [s[0]] else [s[0]];
      var r := head + rest;
      assert forall i :: |head| <= i < |r| ==> r[i] == rest[i - |head|];
      r
  }

  /** Undoes `SpaceBeforeCapitals`: drops a space standing right before a
      capital. */
  function DropSpaceBeforeCapitals(s: string): string
    decreases |s|
  {
    if |s| == 0 then ""
    else if |s| >= 2 && s[0] == ' ' && IsUpper(s[1]) then [s[1]] + DropSpaceBeforeCapitals(s[2..])
    else [s[0]] + DropSpaceBeforeCapitals(s[1..])
  }

  /** The spaces put before capitals are exactly the ones taken out again:
      no text is lost or changed. */
  lemma {:induction false} SpacingRoundTrip(s: string)
    ensures DropSpaceBeforeCapitals(SpaceBeforeCapitals(s)) == s
    decreases |s|
  {
    if |s| > 0 {
      var rest := SpaceBeforeCapitals(s[1..]);
      SpacingRoundTrip(s[1..]);
      if IsUpper(s[0]) {
        assert SpaceBeforeCapitals(s) == " " + [s[0]] + rest;
        assert (" " + [s[0]] + rest)[2..] == rest;
      } else {
        assert SpaceBeforeCapitals(s) == [s[0]] + rest;
        assert ([s[0]] + rest)[1..] == rest;
      }
    }
  }

  /** `.replace(/^./, str => str.toUpperCase())` */
  function CapitalizeFirst(s: string): (r: string)
    ensures |r| == |s|
    ensures |s| > 0 ==> !IsLower(r[0]) && r[1..] == s[1..]
  {
    if |s| == 0 then "" else [UpperChar(s[0])] + s[1..]
  }

  /** `s.replace(pat, rep)` with a string pattern: the first occurrence only. */
  function ReplaceFirst(s: string, pat: string, rep: string): (r: string)
    requires |pat| > 0
    ensures !Contains(s, pat) ==> r == s
    ensures IsPrefix(pat, s) ==> r == rep + s[|pat|..]
    decreases |s|
  {
    if |s| == 0 then ""
    else if IsPrefix(pat, s) then rep + s[|pat|..]
    else [s[0]] + ReplaceFirst(s[1..], pat, rep)
  }

  /** `s.replace(/pat/g, rep)`: every occurrence, left to right, without
      overlap. */
  function ReplaceAll(s: string, pat: string, rep: string): (r: string)
    requires |pat| > 0
    ensures !Contains(s, pat) ==> r == s
    decreases |s|
  {
    if |s| == 0 then ""
    else if IsPrefix(pat, s) then rep + ReplaceAll(s[|pat|..], pat, rep)
    else [s[0]] + ReplaceAll(s[1..], pat, rep)
  }

  /** The replacement cannot produce a new occurrence of the pattern: none
      starts inside it, and its first letter appears nowhere in the pattern
      after the first place. */
  ghost predicate Safe(pat: string, rep: string) {
    && |pat| > 0 && |rep| > 0
    && (forall i :: 0 <= i < |rep| ==> !IsPrefix(pat, rep[i..]) && !IsPrefix(rep[i..], pat))
    && (forall j :: 1 <= j < |pat| ==> pat[j] != rep[0])
  }

  /** Text in front of a pattern-free text adds no occurrence when no
      occurrence could start inside it. */
  lemma {:induction false} NotContainsPrepend(u: string, rest: string, pat: string)
    requires |pat| > 0 && !Contains(rest, pat)
    requires forall i :: 0 <= i < |u| ==> !IsPrefix(pat, u[i..]) && !IsPrefix(u[i..], pat)
    ensures !Contains(u + rest, pat)
    decreases |u|
  {
    if |u| == 0 {
      assert u + rest == rest;
    } else {
      assert u[0..] == u;
      forall i | 0 <= i < |u[1..]| ensures !IsPrefix(pat, u[1..][i..]) && !IsPrefix(u[1..][i..], pat) {
        assert u[1..][i..] == u[i + 1..];
      }
      NotContainsPrepend(u[1..], rest, pat);
      assert (u + rest)[1..] == u[1..] + rest;
    }
  }

  /** What follows a partial match in the output was already in the input. */
  lemma {:induction false} PrefixBack(x: string, pat: string, rep: string, j: nat)
    requires Safe(pat, rep) && 1 <= j < |pat|
    requires IsPrefix(pat[j..], ReplaceAll(x, pat, rep))
    ensures IsPrefix(pat[j..], x)
    decreases |x|
  {
    assert |x| > 0 && IsPrefix(pat, x) ==> ReplaceAll(x, pat, rep)[0] == rep[0];
    if |x| > 0 && !IsPrefix(pat, x) {
      var rest := ReplaceAll(x[1..], pat, rep);
      assert ReplaceAll(x, pat, rep) == [x[0]] + rest;
      assert pat[j] == x[0];
      if j + 1 < |pat| {
        assert IsPrefix(pat[j + 1..], rest) by {
          assert ([x[0]] + rest)[1..] == rest;
          assert pat[j..][1..] == pat[j + 1..];
        }
        PrefixBack(x[1..], pat, rep, j + 1);
        assert pat[j..] == [x[0]] + pat[j + 1..];
      }
    }
  }

  /** After a global replacement the pattern no longer occurs. */
  lemma {:induction false} ReplaceAllRemoves(s: string, pat: string, rep: string)
    requires Safe(pat, rep)
    ensures !Contains(ReplaceAll(s, pat, rep), pat)
    decreases |s|
  {
    if |s| == 0 {
    } else if IsPrefix(pat, s) {
      ReplaceAllRemoves(s[|pat|..], pat, rep);
      NotContainsPrepend(rep, ReplaceAll(s[|pat|..], pat, rep), pat);
    } else {
      var rest := ReplaceAll(s[1..], pat, rep);
      ReplaceAllRemoves(s[1..], pat, rep);
      var r := [s[0]] + rest;
      assert r[1..] == rest;
      if IsPrefix(pat, r) && |pat| > 1 {
        assert IsPrefix(pat[1..], rest) by {
          assert r[..|pat|][1..] == rest[..|pat| - 1];
        }
        PrefixBack(s[1..], pat, rep, 1);
      }
    }
  }

  // ----------------------------------------------------------- messages

  const Arrow: char := '\U{2192}'

  /** The steps of `formatted`; `.replace(/→/g, '→')` changes nothing and
      is left out. */
  function Formatted(change: string): (r: string)
    ensures !Contains(r, ": false")
    ensures |SpaceBeforeCapitals(change)| > 0 ==> !IsLower(CapitalizeFirst(SpaceBeforeCapitals(change))[0])
  {
    var spaced := SpaceBeforeCapitals(change);
    var capital := CapitalizeFirst(spaced);
    var unit := ReplaceFirst(capital, "unit: Unit", "Measurement unit");
    var yes := ReplaceAll(unit, ": true", ": Yes");
    SafeLabel(": false", ": No");
    ReplaceAllRemoves(yes, ": false", ": No");
    ReplaceAll(yes, ": false", ": No")
  }

  /** After the `: true` step, no `: true` is left. */
  lemma TrueBecomesYes(s: string)
    ensures !Contains(ReplaceAll(s, ": true", ": Yes"), ": true")
  {
    SafeLabel(": true", ": Yes");
    ReplaceAllRemoves(s, ": true", ": Yes");
  }

  /** A `: word` pattern replaced by a `: Word` text that differs from it at
      the third character and has no further colon cannot re-create it. */
  lemma SafeLabel(pat: string, rep: string)
    requires |pat| > 2 && |rep| > 2 && pat[..2] == rep[..2] == ": "
    requires pat[2] != rep[2]
    requires forall j :: 1 <= j < |pat| ==> pat[j] != ':'
    requires forall j :: 1 <= j < |rep| ==> rep[j] != ':'
    ensures Safe(pat, rep)
  {
    assert pat[0] == ':' && rep[0] == ':' by { assert pat[..2][0] == pat[0] && rep[..2][0] == rep[0]; }
    forall i | 0 <= i < |rep| ensures !IsPrefix(pat, rep[i..]) && !IsPrefix(rep[i..], pat) {
      if i == 0 { assert rep[i..][2] != pat[2]; } else { assert rep[i..][0] != pat[0]; }
    }
  }

  /** A line that reports a value set to or from undefined. */
  predicate MentionsUndefined(change: string) {
    Contains(change, [Arrow] + " undefined") || Contains(change, "undefined " + [Arrow])
  }

  /** `formatChangeMessage`; None is the `null` the caller drops. */
  function FormatChangeMessage(change: string): (r: Option<string>)
    ensures r.None? <==> MentionsUndefined(change)
    ensures r.Some? && Contains(change, "isConsumable") ==>
              r.value == (if Contains(change, "true") then "Marked as Consumable" else "Marked as Non-consumable")
    ensures r.Some? && !Contains(change, "isConsumable") && Contains(change, "isRoomServiceItem") ==>
              r.value == (if Contains(change, "true") then "Marked as Room Service Item" else "Marked as Not for Room Service")
    ensures r.Some? && !Contains(change, "isConsumable") && !Contains(change, "isRoomServiceItem") ==>
              r.value == Formatted(change)
  {
    if MentionsUndefined(change) then None
    else if Contains(change, "isConsumable") then
      Some(if Contains(change, "true") then "Marked as Consumable" else "Marked as Non-consumable")
    else if Contains(change, "isRoomServiceItem") then
      Some(if Contains(change, "true") then "Marked as Room Service Item" else "Marked as Not for Room Service")
    else Some(Formatted(change))
  }

  predicate IsPresent(x: Option<string>) { x.Some? }

  /** `.filter(change => change !== null)` after the map: the values of the
      non-null messages, in line order, each as often as it occurs. */
  function Present(xs: seq<Option<string>>): (r: seq<string>)
    ensures |r| == |Seqs.Filter(xs, IsPresent)|
    ensures forall i :: 0 <= i < |r| ==> Seqs.Filter(xs, IsPresent)[i] == Some(r[i])
    ensures |r| <= |xs|
    ensures forall i :: 0 <= i < |r| ==> Some(r[i]) in xs
    ensures forall i :: 0 <= i < |xs| && xs[i].Some? ==> xs[i].value in r
    decreases |xs|
  {
    if |xs| == 0 then []
    else
      var rest := Present(xs[1..]);
      assert forall i :: 0 <= i < |rest| ==> Some(rest[i]) in xs by {
        forall i | 0 <= i < |rest| ensures Some(rest[i]) in xs {
          var k :| 0 <= k < |xs[1..]| && xs[1..][k] == Some(rest[i]);
          assert xs[k + 1] == Some(rest[i]);
        }
      }
      assert forall i :: 1 <= i < |xs| && xs[i].Some? ==> xs[i].value in rest by {
        forall i | 1 <= i < |xs| && xs[i].Some? ensures xs[i].value in rest {
          assert xs[1..][i - 1] == xs[i];
        }
      }
      match xs[0]
      case None => rest
      case Some(v) => [v] + rest
  }

  /** `.map(formatChangeMessage)` */
  function Messages(lines: seq<string>): seq<Option<string>> {
    seq(|lines|, i requires 0 <= i < |lines| => FormatChangeMessage(lines[i]))
  }

  /** `meaningfulChanges`: one message per line of the detail that does not
      mention an unset value, in line order, so never more than the detail
      has lines. */
  function MeaningfulChanges(detail: string): (r: seq<string>)
    ensures var kept := Seqs.Filter(Messages(Split(detail, '\n')), IsPresent);
      |r| == |kept| && forall i :: 0 <= i < |r| ==> kept[i] == Some(r[i])
    ensures |r| <= |Split(detail, '\n')|
    ensures forall i :: 0 <= i < |r| ==>
              exists j :: 0 <= j < |Split(detail, '\n')| && FormatChangeMessage(Split(detail, '\n')[j]) == Some(r[i])
    ensures forall j :: 0 <= j < |Split(detail, '\n')| && !MentionsUndefined(Split(detail, '\n')[j]) ==>
              FormatChangeMessage(Split(detail, '\n')[j]).value in r
  {
    var lines := Split(detail, '\n');
    var ms := Messages(lines);
    assert |ms| == |lines| && forall j :: 0 <= j < |lines| ==> ms[j] == FormatChangeMessage(lines[j]);
    var r := Present(ms);
    assert forall i :: 0 <= i < |r| ==> exists j :: 0 <= j < |lines| && FormatChangeMessage(lines[j]) == Some(r[i]) by {
      forall i | 0 <= i < |r| ensures exists j :: 0 <= j < |lines| && FormatChangeMessage(lines[j]) == Some(r[i]) {
        var j :| 0 <= j < |ms| && ms[j] == Some(r[i]);
      }
    }
    r
  }
}

=== FILE: product_store.dfy ===
/** The stock list (src/store/useProductStore.js). Adding a product fills in
    defaults and starts its history; editing logs one history entry per
    changed name, price or category; restocking adds to the quantity. */
module ProductStore {
  import opened Base
  import Seqs

  datatype HistoryEntry = HistoryEntry(kind: string, detail: string, timestamp: string, performedBy: string)

  /** A stored product. `price` and `quantity` hold whatever the last write
      put there: a number after `addProduct`, possibly form text after an
      edit. `inventoryId` is None for a record read back from storage
      without one. */
  datatype Product = Product(
    id: int,
    inventoryId: Option<string>,
    name: string,
    category: string,
    price: Val,
    quantity: Val,
    unit: string,
    reorderLevel: int,
    supplier: string,
    location: string,
    sold: int,
    isArchived: bool,
    isConsumable: bool,
    isRoomServiceItem: bool,
    isInMaintenance: bool,
    lastRestocked: string,
    lastUsedDate: Option<string>,
    addedBy: string,
    history: seq<HistoryEntry>)

  /** What a caller hands to `addProduct`; None is a property left out. */
  datatype NewProduct = NewProduct(
    name: string,
    category: string,
    price: Val,
    quantity: Val,
    unit: Option<string>,
    reorderLevel: Option<int>,
    supplier: Option<string>,
    location: Option<string>,
    isConsumable: Option<bool>,
    isRoomServiceItem: Option<bool>,
    addedBy: Option<string>)

  /** What a caller hands to `updateProduct`; None is a property left out,
      which reads as `undefined`. */
  datatype ProductPatch = ProductPatch(
    id: int,
    name: Option<string>,
    category: Option<string>,
    price: Option<Val>,
    quantity: Option<Val>,
    lastRestocked: Option<string>,
    sold: Option<int>,
    updatedBy: Option<string>,
    history: Option<seq<HistoryEntry>>)

  /** A text property that is present and not empty, hence truthy. */
  predicate Given(o: Option<string>) {
    o.Some? && o.value != ""
  }

  /** `text || fallback` for a text property that may be missing. */
  function TextOr(o: Option<string>, fallback: string): (r: string)
    ensures r == fallback || (o.Some? && r == o.value)
    ensures r == "" ==> fallback == ""
  {
    if o.Some? && o.value != "" then o.value else fallback
  }

  /** `n || fallback` for a number property that may be missing. */
  function IntOr(o: Option<int>, fallback: int): (r: int)
    ensures r == fallback || (o.Some? && r == o.value)
    ensures r == 0 ==> fallback == 0
  {
    if o.Some? && o.value != 0 then o.value else fallback
  }

  /** Template-literal rendering of a property that may be `undefined`. */
  function ShowText(o: Option<string>): string {
    match o
    case Some(s) => s
    case None => "undefined"
  }

  function ShowVal(o: Option<Val>): string {
    match o
    case Some(v) => Display(v)
    case None => "undefined"
  }

  // ------------------------------------------------------------- adding

  /** `Math.floor(100000 + Math.random() * 900000)` for a draw in [0, 1). */
  function InventoryNumber(draw: real): (n: int)
    requires 0.0 <= draw < 1.0
    ensures 100000 <= n <= 999999
  {
    (100000.0 + draw * 900000.0).Floor
  }

  function InventoryId(draw: real): (r: string)
    requires 0.0 <= draw < 1.0
    ensures |r| > 4 && r[..4] == "INV-"
    ensures ParseInt(r[4..]) == Some(InventoryNumber(draw))
  {
    var digits := IntToString(InventoryNumber(draw));
    ParseIntToString(InventoryNumber(draw));
    assert ("INV-" + digits)[4..] == digits;
    "INV-" + digits
  }

  /** `addProduct`: appends one product built from the input, with its
      defaults, a zero sales count and a one-entry history. `id` and
      `timestamp` are the clock readings, `draw` the random draw. */
  function AddProduct(products: seq<Product>, input: NewProduct, id: int, draw: real, timestamp: string): (r: seq<Product>)
    requires 0.0 <= draw < 1.0
    ensures |r| == |products| + 1 && r[..|products|] == products
    ensures var p := r[|products|];
      && p.id == id && p.sold == 0 && !p.isArchived && !p.isInMaintenance
      && p.name == input.name && p.category == input.category
      && p.price == ToNumber(input.price) && p.quantity == ToNumber(input.quantity)
      && (input.price.Num? ==> p.price == input.price)
      && (input.quantity.Num? ==> p.quantity == input.quantity)
      && p.lastRestocked == timestamp && p.lastUsedDate.None?
      && p.history == [HistoryEntry("added", "Initial stock: " + Display(input.quantity), timestamp, p.addedBy)]
    ensures var p := r[|products|];
      && p.unit == (if Given(input.unit) then input.unit.value else "unit")
      && p.supplier == (if Given(input.supplier) then input.supplier.value else "N/A")
      && p.location == (if Given(input.location) then input.location.value else "General Storage")
      && p.addedBy == (if Given(input.addedBy) then input.addedBy.value else "admin")
      && p.reorderLevel == (if input.reorderLevel.Some? && input.reorderLevel.value != 0 then input.reorderLevel.value else 10)
    ensures var p := r[|products|];
      && (input.isConsumable.None? ==> p.isConsumable)
      && (input.isRoomServiceItem.None? ==> !p.isRoomServiceItem)
      && (input.isConsumable.Some? ==> p.isConsumable == input.isConsumable.value)
      && (input.isRoomServiceItem.Some? ==> p.isRoomServiceItem == input.isRoomServiceItem.value)
    ensures var p := r[|products|];
      && p.inventoryId.Some? && |p.inventoryId.value| > 4 && p.inventoryId.value[..4] == "INV-"
      && var n := ParseInt(p.inventoryId.value[4..]); n.Some? && 100000 <= n.value <= 999999
  {
    var who := TextOr(input.addedBy, "admin");
    var p := Product(
      id, Some(InventoryId(draw)), input.name, input.category,
      ToNumber(input.price), ToNumber(input.quantity),
      TextOr(input.unit, "unit"), IntOr(input.reorderLevel, 10),
      TextOr(input.supplier, "N/A"), TextOr(input.location, "General Storage"),
      0, false, input.isConsumable.GetOr(true), input.isRoomServiceItem.GetOr(false),
      false, timestamp, None, who,
      [HistoryEntry("added", "Initial stock: " + Display(input.quantity), timestamp, who)]);
    var r := products + [p];
    assert r[..|products|] == products;
    r
  }

  // ------------------------------------------------------------ editing

  /** `p.name !== updatedProduct.name`, and likewise for price and category;
      a missing property is `undefined` and differs from anything stored. */
  predicate NameDiffers(p: Product, u: ProductPatch) {
    !(u.name.Some? && u.name.value == p.name)
  }

  predicate PriceDiffers(p: Product, u: ProductPatch) {
    !(u.price.Some? && StrictEq(p.price, u.price.value))
  }

  predicate CategoryDiffers(p: Product, u: ProductPatch) {
    !(u.category.Some? && u.category.value == p.category)
  }

  function Flag(b: bool): nat {
    if b then 1 else 0
  }

  /** The entries `updateProduct` appends for one product, in the order
      name, price, category. */
  function ChangeLog(p: Product, u: ProductPatch, timestamp: string): (log: seq<HistoryEntry>)
    ensures |log| == Flag(NameDiffers(p, u)) + Flag(PriceDiffers(p, u)) + Flag(CategoryDiffers(p, u))
    ensures forall k :: 0 <= k < |log| ==>
              log[k].kind == "updated" && log[k].timestamp == timestamp && log[k].performedBy == TextOr(u.updatedBy, "admin")
    ensures NameDiffers(p, u) ==> log[0].detail == "Name changed from " + p.name + " to " + ShowText(u.name)
    ensures CategoryDiffers(p, u) ==>
              log[|log| - 1].detail == "Category changed from " + p.category + " to " + ShowText(u.category)
  {
    var who := TextOr(u.updatedBy, "admin");
    (if NameDiffers(p, u)
     then [HistoryEntry("updated", "Name changed from " + p.name + " to " + ShowText(u.name), timestamp, who)]
     else [])
    + (if PriceDiffers(p, u)
       then [HistoryEntry("updated", "Price changed from ₦" + Display(p.price) + " to ₦" + ShowVal(u.price), timestamp, who)]
       else [])
    + (if CategoryDiffers(p, u)
       then [HistoryEntry("updated", "Category changed from " + p.category + " to " + ShowText(u.category), timestamp, who)]
       else [])
  }

  /** `{ ...p, ...updatedProduct, history }` for a product whose id matches. */
  function Patched(p: Product, u: ProductPatch, timestamp: string): (q: Product)
    ensures q.id == u.id
    ensures q.name == u.name.GetOr(p.name) && q.category == u.category.GetOr(p.category)
    ensures q.price == u.price.GetOr(p.price) && q.quantity == u.quantity.GetOr(p.quantity)
    ensures q.lastRestocked == u.lastRestocked.GetOr(p.lastRestocked) && q.sold == u.sold.GetOr(p.sold)
    ensures q.(id := p.id, name := p.name, category := p.category, price := p.price, quantity := p.quantity,
               lastRestocked := p.lastRestocked, sold := p.sold, history := p.history) == p
    ensures |p.history| <= |q.history| <= |p.history| + 3 && q.history[..|p.history|] == p.history
    ensures forall k :: |p.history| <= k < |q.history| ==> q.history[k].kind == "updated"
    ensures q.history == p.history <==>
              u.name == Some(p.name) && u.category == Some(p.category)
              && u.price.Some? && StrictEq(p.price, u.price.value)
  {
    var log := ChangeLog(p, u, timestamp);
    var h := p.history + log;
    assert h[..|p.history|] == p.history;
    assert |log| == 0 <==> !NameDiffers(p, u) && !PriceDiffers(p, u) && !CategoryDiffers(p, u);
    assert h == p.history <==> |log| == 0 by {
      if h == p.history { assert |h| == |p.history|; }
    }
    Product(u.id, p.inventoryId, u.name.GetOr(p.name), u.category.GetOr(p.category),
            u.price.GetOr(p.price), u.quantity.GetOr(p.quantity), p.unit, p.reorderLevel,
            p.supplier, p.location, u.sold.GetOr(p.sold), p.isArchived, p.isConsumable,
            p.isRoomServiceItem, p.isInMaintenance, u.lastRestocked.GetOr(p.lastRestocked),
            p.lastUsedDate, p.addedBy, h)
  }

  /** `updateProduct`: patches every product with the patch's id and leaves
      the rest alone. */
  function UpdateProduct(products: seq<Product>, u: ProductPatch, timestamp: string): (r: seq<Product>)
    ensures |r| == |products|
    ensures forall i :: 0 <= i < |products| && products[i].id != u.id ==> r[i] == products[i]
    ensures forall i :: 0 <= i < |products| && products[i].id == u.id ==> r[i] == Patched(products[i], u, timestamp)
  {
    seq(|products|, i requires 0 <= i < |products| =>
      if products[i].id == u.id then Patched(products[i], u, timestamp) else products[i])
  }

  /** A history carried by the patch never reaches the store. */
  lemma PatchHistoryIgnored(products: seq<Product>, u: ProductPatch, h: Option<seq<HistoryEntry>>, timestamp: string)
    ensures UpdateProduct(products, u.(history := h), timestamp) == UpdateProduct(products, u, timestamp)
  {
    var a := UpdateProduct(products, u.(history := h), timestamp);
    var b := UpdateProduct(products, u, timestamp);
    forall i | 0 <= i < |products| ensures a[i] == b[i] {
      if products[i].id == u.id {
        assert ChangeLog(products[i], u.(history := h), timestamp) == ChangeLog(products[i], u, timestamp);
      }
    }
  }

  /** Re-applying a patch that names all three logged fields, with a
      numeric price, changes nothing and logs nothing more. */
  lemma UpdateTwiceIsOnce(p: Product, u: ProductPatch, t1: string, t2: string)
    requires p.id == u.id
    requires u.name.Some? && u.category.Some? && u.price.Some? && !u.price.value.NaN?
    ensures Patched(Patched(p, u, t1), u, t2) == Patched(p, u, t1)
  {
    var q := Patched(p, u, t1);
    assert q.history == Patched(q, u, t2).history;
  }

  // ---------------------------------------------------------- restocking

  /** `Number(p.quantity) + Number(qty)`, with no lower bound, the restock
      date and one 'restocked' entry. */
  function Restocked(p: Product, qty: Val, who: string, timestamp: string): (q: Product)
    ensures q.quantity.Num? <==> ToNumber(p.quantity).Num? && ToNumber(qty).Num?
    ensures q.quantity.Num? ==> q.quantity.n == ToNumber(p.quantity).n + ToNumber(qty).n
    ensures !q.quantity.Num? ==> q.quantity.NaN?
    ensures q.lastRestocked == timestamp
    ensures q.history == p.history + [HistoryEntry("restocked", "Restocked " + Display(qty) + " units", timestamp, who)]
    ensures q.(quantity := p.quantity, lastRestocked := p.lastRestocked, history := p.history) == p
  {
    p.(quantity := AddNumbers(ToNumber(p.quantity), ToNumber(qty)),
       lastRestocked := timestamp,
       history := p.history + [HistoryEntry("restocked", "Restocked " + Display(qty) + " units", timestamp, who)])
  }

  /** `restockProduct(id, qty, by = 'admin')` */
  function RestockProduct(products: seq<Product>, id: int, qty: Val, who: Option<string>, timestamp: string): (r: seq<Product>)
    ensures |r| == |products|
    ensures forall i :: 0 <= i < |products| && products[i].id != id ==> r[i] == products[i]
    ensures forall i :: 0 <= i < |products| && products[i].id == id ==>
              r[i] == Restocked(products[i], qty, who.GetOr("admin"), timestamp)
  {
    seq(|products|, i requires 0 <= i < |products| =>
      if products[i].id == id then Restocked(products[i], qty, who.GetOr("admin"), timestamp) else products[i])
  }

  /** Restocking the same product once per quantity in `qtys`. */
  function RestockEach(p: Product, qtys: seq<int>, who: string, timestamp: string): Product
    decreases |qtys|
  {
    if |qtys| == 0 then p else RestockEach(Restocked(p, Num(qtys[0]), who, timestamp), qtys[1..], who, timestamp)
  }

  function Units(n: int): int { n }

  /** Restocks add up: after any run of them the quantity is the old one
      plus their sum (negative amounts included, with no floor at zero),
      the history gains exactly one entry each, and nothing else but the
      restock date changes. */
  lemma {:induction false} RestocksAccumulate(p: Product, qtys: seq<int>, who: string, timestamp: string)
    requires p.quantity.Num?
    ensures var q := RestockEach(p, qtys, who, timestamp);
      && q.quantity == Num(p.quantity.n + Seqs.Sum(qtys, Units))
      && |q.history| == |p.history| + |qtys| && q.history[..|p.history|] == p.history
      && q.(quantity := p.quantity, lastRestocked := p.lastRestocked, history := p.history) == p
    decreases |qtys|
  {
    if |qtys| > 0 {
      var p1 := Restocked(p, Num(qtys[0]), who, timestamp);
      RestocksAccumulate(p1, qtys[1..], who, timestamp);
      var q := RestockEach(p, qtys, who, timestamp);
      assert q.history[..|p1.history|][..|p.history|] == q.history[..|p.history|];
    }
  }
}

=== FILE: products_page.dfy ===
/** The stock page (src/pages/Products.js): the CSV export and the search by
    inventory id. Every exported field is quoted with its quotes doubled, so
    the file reads back unambiguously: `ParseRecords` is a reader for that
    format, and the export round-trips through it. */
module ProductsPage {
  import opened Base
  import Seqs
  import ProductStore

  type Product = ProductStore.Product

  // ------------------------------------------------------------ fields

  /** `.replace(/"/g, '""')` */
  function DoubleQuotes(s: string): (r: string)
    ensures |r| >= |s|
    ensures (forall i :: 0 <= i < |s| ==> s[i] != '"') ==> r == s
    decreases |s|
  {
    if |s| == 0 then ""
    else (if s[0] == '"' then "\"\"" else [s[0]]) + DoubleQuotes(s[1..])
  }

  /** Reads the text of a quoted field up to its closing quote, collapsing
      each `""` to `"`; returns the text and what follows the closing quote. */
  function ParseBody(s: string): (r: Option<(string, string)>)
    ensures r.Some? ==> |r.value.1| < |s|
    decreases |s|
  {
    if |s| == 0 then None
    else if s[0] == '"' then
      if |s| >= 2 && s[1] == '"' then
        match ParseBody(s[2..])
        case None => None
        case Some((f, rest)) => Some(("\"" + f, rest))
      else Some(("", s[1..]))
    else
      match ParseBody(s[1..])
      case None => None
      case Some((f, rest)) => Some(([s[0]] + f, rest))
  }

  /** Doubling the quotes and closing the field is undone by `ParseBody`,
      whatever follows, provided it does not start with a quote. */
  lemma {:induction false} BodyRoundTrip(f: string, rest: string)
    requires |rest| == 0 || rest[0] != '"'
    ensures ParseBody(DoubleQuotes(f) + "\"" + rest) == Some((f, rest))
    decreases |f|
  {
    if |f| == 0 {
      var s := "\"" + rest;
      assert DoubleQuotes(f) + "\"" + rest == s;
      assert s[0] == '"' && s[1..] == rest;
      assert !(|s| >= 2 && s[1] == '"');
    } else {
      BodyRoundTrip(f[1..], rest);
      var tail := DoubleQuotes(f[1..]) + "\"" + rest;
      if f[0] == '"' {
        QuoteStep(f, rest, tail);
      } else {
        PlainStep(f, rest, tail);
      }
    }
  }

  lemma QuoteStep(f: string, rest: string, tail: string)
    requires |f| > 0 && f[0] == '"' && tail == DoubleQuotes(f[1..]) + "\"" + rest
    requires ParseBody(tail) == Some((f[1..], rest))
    ensures ParseBody(DoubleQuotes(f) + "\"" + rest) == Some((f, rest))
  {
    var s := "\"\"" + tail;
    assert DoubleQuotes(f) == "\"\"" + DoubleQuotes(f[1..]);
    assert DoubleQuotes(f) + "\"" + rest == s;
    assert s[0] == '"' && s[1] == '"' && s[2..] == tail;
    assert "\"" + f[1..] == f;
  }

  lemma PlainStep(f: string, rest: string, tail: string)
    requires |f| > 0 && f[0] != '"' && tail == DoubleQuotes(f[1..]) + "\"" + rest
    requires ParseBody(tail) == Some((f[1..], rest))
    ensures ParseBody(DoubleQuotes(f) + "\"" + rest) == Some((f, rest))
  {
    var s := [f[0]] + tail;
    assert DoubleQuotes(f) == [f[0]] + DoubleQuotes(f[1..]);
    assert DoubleQuotes(f) + "\"" + rest == s;
    assert s[0] == f[0] && s[1..] == tail;
    assert [f[0]] + f[1..] == f;
  }

  /** `String(value ?? '')`: a missing value is the empty text. */
  function Text(v: Option<string>): string {
    v.GetOr("")
  }

  /** `escapeCSV`: the text in double quotes with its own quotes doubled;
      reading the field back gives the text. */
  function EscapeCSV(v: Option<string>): (r: string)
    ensures |r| >= 2 && r[0] == '"' && r[|r| - 1] == '"'
    ensures v.None? ==> r == "\"\""
    ensures ParseBody(r[1..]) == Some((Text(v), ""))
  {
    var r := "\"" + DoubleQuotes(Text(v)) + "\"";
    BodyRoundTrip(Text(v), "");
    assert r[1..] == DoubleQuotes(Text(v)) + "\"" + "";
    r
  }

  // ----------------------------------------------------------- records

  function Escaped(cells: seq<Option<string>>): (r: seq<string>)
    ensures |r| == |cells| && forall i :: 0 <= i < |cells| ==> r[i] == EscapeCSV(cells[i])
  {
    seq(|cells|, i requires 0 <= i < |cells| => EscapeCSV(cells[i]))
  }

  function Texts(cells: seq<Option<string>>): (r: seq<string>)
    ensures |r| == |cells| && forall i :: 0 <= i < |cells| ==> r[i] == Text(cells[i])
  {
    seq(|cells|, i requires 0 <= i < |cells| => Text(cells[i]))
  }

  /** `row.map(escapeCSV).join(",")` */
  function Record(cells: seq<Option<string>>): string {
    Join(Escaped(cells), ",")
  }

  /** `[headers, ...rows].map(...).join("\r\n")` */
  function Csv(rows: seq<seq<Option<string>>>): string
    decreases |rows|
  {
    if |rows| == 0 then ""
    else if |rows| == 1 then Record(rows[0])
    else Record(rows[0]) + "\r\n" + Csv(rows[1..])
  }

  /** Reads comma-separated quoted fields up to the end of a record. */
  function ParseFields(s: string): (r: Option<(seq<string>, string)>)
    ensures r.Some? ==> |r.value.1| < |s|
    decreases |s|
  {
    if |s| == 0 || s[0] != '"' then None
    else
      match ParseBody(s[1..])
      case None => None
      case Some((f, rest)) =>
        if |rest| > 0 && rest[0] == ',' then
          match ParseFields(rest[1..])
          case None => None
          case Some((fs, rest2)) => Some(([f] + fs, rest2))
        else Some(([f], rest))
  }

  /** Reads `\r\n`-separated records to the end of the text. */
  function ParseRecords(s: string): Option<seq<seq<string>>>
    decreases |s|
  {
    match ParseFields(s)
    case None => None
    case Some((fs, rest)) =>
      if rest == "" then Some([fs])
      else if |rest| >= 2 && rest[..2] == "\r\n" then
        match ParseRecords(rest[2..])
        case None => None
        case Some(rs) => Some([fs] + rs)
      else None
  }

  /** A quoted field followed by anything but a quote reads back as its
      text, leaving what follows. */
  lemma FieldRoundTrip(v: Option<string>, after: string)
    requires after == "" || after[0] != '"'
    ensures var s := EscapeCSV(v) + after;
      |s| > 0 && s[0] == '"' && ParseBody(s[1..]) == Some((Text(v), after))
  {
    var s := EscapeCSV(v) + after;
    BodyRoundTrip(Text(v), after);
    assert s[1..] == DoubleQuotes(Text(v)) + "\"" + after;
  }

  /** A quoted field followed by a comma reads back as its text in front
      of whatever the rest of the record reads back as. */
  lemma FieldThenComma(v: Option<string>, tail: string, fs: seq<string>, rest: string)
    requires ParseFields(tail) == Some((fs, rest))
    ensures ParseFields(EscapeCSV(v) + ("," + tail)) == Some(([Text(v)] + fs, rest))
  {
    FieldRoundTrip(v, "," + tail);
    assert ("," + tail)[1..] == tail;
  }

  lemma RecordCons(cells: seq<Option<string>>)
    requires |cells| >= 2
    ensures Record(cells) == EscapeCSV(cells[0]) + "," + Record(cells[1..])
  {
    assert Escaped(cells)[1..] == Escaped(cells[1..]);
  }

  /** One record of quoted fields reads back as the fields' texts. */
  lemma {:induction false} RecordRoundTrip(cells: seq<Option<string>>, rest: string)
    requires |cells| >= 1
    requires rest == "" || rest[0] == '\r'
    ensures ParseFields(Record(cells) + rest) == Some((Texts(cells), rest))
    decreases |cells|
  {
    if |cells| == 1 {
      assert Record(cells) == EscapeCSV(cells[0]);
      FieldRoundTrip(cells[0], rest);
      assert Texts(cells) == [Text(cells[0])];
    } else {
      RecordRoundTrip(cells[1..], rest);
      RecordStep(cells, rest);
    }
  }

  /** The inductive step of `RecordRoundTrip`: a further field in front of
      a record that reads back reads back too. */
  lemma RecordStep(cells: seq<Option<string>>, rest: string)
    requires |cells| >= 2
    requires ParseFields(Record(cells[1..]) + rest) == Some((Texts(cells[1..]), rest))
    ensures ParseFields(Record(cells) + rest) == Some((Texts(cells), rest))
  {
    var q, body := EscapeCSV(cells[0]), Record(cells[1..]);
    RecordCons(cells);
    Regroup(q, body, rest);
    FieldThenComma(cells[0], body + rest, Texts(cells[1..]), rest);
    assert Texts(cells) == [Text(cells[0])] + Texts(cells[1..]);
  }

  lemma Regroup(q: string, body: string, rest: string)
    ensures q + "," + body + rest == q + ("," + (body + rest))
  {
  }

  function AllTexts(rows: seq<seq<Option<string>>>): (r: seq<seq<string>>)
    ensures |r| == |rows| && forall i :: 0 <= i < |rows| ==> r[i] == Texts(rows[i])
  {
    seq(|rows|, i requires 0 <= i < |rows| => Texts(rows[i]))
  }

  /** A table of non-empty records reads back record by record, field by
      field. */
  lemma {:induction false} CsvRoundTrip(rows: seq<seq<Option<string>>>)
    requires |rows| >= 1
    requires forall i :: 0 <= i < |rows| ==> |rows[i]| >= 1
    ensures ParseRecords(Csv(rows)) == Some(AllTexts(rows))
    decreases |rows|
  {
    if |rows| == 1 {
      RecordRoundTrip(rows[0], "");
      assert Csv(rows) + "" == Csv(rows);
      assert AllTexts(rows) == [Texts(rows[0])];
    } else {
      var tail := Csv(rows[1..]);
      RecordRoundTrip(rows[0], "\r\n" + tail);
      assert Csv(rows) == Record(rows[0]) + ("\r\n" + tail);
      assert ("\r\n" + tail)[..2] == "\r\n" && ("\r\n" + tail)[2..] == tail;
      CsvRoundTrip(rows[1..]);
      assert AllTexts(rows) == [Texts(rows[0])] + AllTexts(rows[1..]);
    }
  }

  // ------------------------------------------------------------ export

  const Headers: seq<Option<string>> :=
    [Some("Inventory ID"), Some("Name"), Some("Category"), Some("Price"),
     Some("Quantity"), Some("Sold"), Some("Last Restocked")]

  /** The seven exported properties of a product, as `String()` shows them. */
  function ProductRow(p: Product): (r: seq<Option<string>>)
    ensures |r| == |Headers|
  {
    [p.inventoryId, Some(p.name), Some(p.category), Some(Display(p.price)),
     Some(Display(p.quantity)), Some(IntToString(p.sold)), Some(p.lastRestocked)]
  }

  function Rows(products: seq<Product>): (r: seq<seq<Option<string>>>)
    ensures |r| == |products| && forall i :: 0 <= i < |products| ==> r[i] == ProductRow(products[i])
  {
    seq(|products|, i requires 0 <= i < |products| => ProductRow(products[i]))
  }

  /** `handleExport`'s file contents. */
  function ExportCsv(products: seq<Product>): string {
    Csv([Headers] + Rows(products))
  }

  /** The exported file reads back as the header record followed by one
      seven-field record per product, in order, each field's text intact,
      including any quotes and commas it holds. */
  lemma ExportRoundTrip(products: seq<Product>)
    ensures var table := ParseRecords(ExportCsv(products));
      && table.Some? && |table.value| == |products| + 1
      && table.value[0] == Texts(Headers)
      && forall i :: 0 <= i < |products| ==> table.value[i + 1] == Texts(ProductRow(products[i]))
  {
    var rows := [Headers] + Rows(products);
    CsvRoundTrip(rows);
    assert forall i :: 0 <= i < |products| ==> rows[i + 1] == ProductRow(products[i]);
  }

  // ------------------------------------------------------------ search

  predicate IdMatches(p: Product, search: string) {
    p.inventoryId.Some? && ContainsIgnoringCase(p.inventoryId.value, search)
  }

  /** `filteredProducts`: `p.inventoryId?.toLowerCase().includes(...)`, so a
      product without an inventory id is never listed, even for an empty
      search. */
  function FilteredProducts(products: seq<Product>, search: string): (r: seq<Product>)
    ensures Seqs.IsSubseq(r, products)
    ensures forall x: Product :: multiset(r)[x] == if IdMatches(x, search) then multiset(products)[x] else 0
    ensures forall i :: 0 <= i < |r| ==> r[i].inventoryId.Some? && ContainsIgnoringCase(r[i].inventoryId.value, search)
    ensures forall i :: 0 <= i < |products| && IdMatches(products[i], search) ==> products[i] in r
    ensures search == "" ==> forall i :: 0 <= i < |products| && products[i].inventoryId.Some? ==> products[i] in r
  {
    assert search == "" ==> forall i :: 0 <= i < |products| && products[i].inventoryId.Some? ==> IdMatches(products[i], search) by {
      forall i | 0 <= i < |products| && products[i].inventoryId.Some? && search == "" ensures IdMatches(products[i], search) {
        ContainsEmpty(Lower(products[i].inventoryId.value));
      }
    }
    Seqs.FilterCounts(products, (p: Product) => IdMatches(p, search));
    Seqs.Filter(products, (p: Product) => IdMatches(p, search))
  }

  /** A product just added is found by searching for its own inventory id. */
  lemma AddedProductIsFound(products: seq<Product>, input: ProductStore.NewProduct, id: int, draw: real, timestamp: string)
    requires 0.0 <= draw < 1.0
    ensures var r := ProductStore.AddProduct(products, input, id, draw, timestamp);
      var p := r[|products|];
      p.inventoryId.Some? && p in FilteredProducts(r, p.inventoryId.value)
  {
    var r := ProductStore.AddProduct(products, input, id, draw, timestamp);
    var p := r[|products|];
    var s := Lower(p.inventoryId.value);
    assert IsPrefix(s, s);
    assert IdMatches(r[|products|], p.inventoryId.value);
  }
}

=== FILE: room_store.dfy ===
/** The room inventory (src/store/useRoomStore.js): a list of rooms keyed by
    `id`, the room number typed into the room form. */
module RoomStore {
  import opened Base
  import Seqs

  /** A room as the room form builds it. `roomNumber` is a property some
      screens read although the room form never sets it: rooms built by the
      form carry None there. */
  datatype Room = Room(id: string, roomType: string, status: string, price: int, roomNumber: Option<Val>)

  predicate HasRoom(rooms: seq<Room>, id: string) {
    exists i :: 0 <= i < |rooms| && rooms[i].id == id
  }

  function RoomKey(r: Room): string { r.id }

  ghost predicate UniqueIds(rooms: seq<Room>) {
    Seqs.UniqueBy(rooms, RoomKey)
  }

  /** `addRoom`: a room whose id is taken is refused and nothing changes;
      otherwise it goes to the end of the list. */
  function AddRoom(rooms: seq<Room>, room: Room): (r: seq<Room>)
    ensures HasRoom(rooms, room.id) ==> r == rooms
    ensures !HasRoom(rooms, room.id) ==>
              |r| == |rooms| + 1 && r[..|rooms|] == rooms && r[|rooms|] == room
    ensures HasRoom(r, room.id)
    ensures UniqueIds(rooms) ==> UniqueIds(r)
  {
    if HasRoom(rooms, room.id) then rooms
    else
      var r := rooms + [room];
      assert r[|rooms|] == room;
      r
  }

  /** `removeRoom`: drops every room with that id, keeping the others in order. */
  function RemoveRoom(rooms: seq<Room>, id: string): (r: seq<Room>)
    ensures !HasRoom(r, id)
    ensures forall i :: 0 <= i < |rooms| && rooms[i].id != id ==> rooms[i] in r
    ensures Seqs.IsSubseq(r, rooms)
    ensures forall x: Room :: multiset(r)[x] == if x.id != id then multiset(rooms)[x] else 0
    ensures !HasRoom(rooms, id) ==> r == rooms
  {
    Seqs.FilterCounts(rooms, (x: Room) => x.id != id);
    Seqs.Filter(rooms, (x: Room) => x.id != id)
  }

  /** `updateRoom`: every room with the updated room's id is replaced whole. */
  function UpdateRoom(rooms: seq<Room>, updated: Room): (r: seq<Room>)
    ensures |r| == |rooms|
    ensures forall i :: 0 <= i < |rooms| && rooms[i].id == updated.id ==> r[i] == updated
    ensures forall i :: 0 <= i < |rooms| && rooms[i].id != updated.id ==> r[i] == rooms[i]
    ensures !HasRoom(rooms, updated.id) ==> r == rooms
    ensures UniqueIds(rooms) ==> UniqueIds(r)
  {
    Seqs.UpdateWhere(rooms, (x: Room) => x.id == updated.id, (x: Room) => updated)
  }

  /** Removing keeps the remaining ids unique. */
  lemma {:induction false} RemoveRoomKeepsUnique(rooms: seq<Room>, id: string)
    requires UniqueIds(rooms)
    ensures UniqueIds(RemoveRoom(rooms, id))
  {
    Seqs.SubseqKeepsUnique(RemoveRoom(rooms, id), rooms, RoomKey);
  }
}

=== FILE: sales_page.dfy ===
/** The point-of-sale cart (src/pages/SalesPage.js): one line per product,
    quantities of at least one, and a total computed with JavaScript's
    numeric coercion of the product price. */
module SalesPage {
  import opened Base
  import Seqs
  import ProductStore
  import BookingStore

  type Product = ProductStore.Product

  /** `{ ...product, quantity }` */
  datatype CartItem = CartItem(product: Product, quantity: int)

  function ItemKey(item: CartItem): int { item.product.id }

  predicate InCart(cart: seq<CartItem>, id: int) {
    exists i :: 0 <= i < |cart| && cart[i].product.id == id
  }

  /** What a cart from these actions always satisfies: one line per
      product, each with a quantity of at least one. */
  ghost predicate WellFormed(cart: seq<CartItem>) {
    Seqs.UniqueBy(cart, ItemKey) && forall i :: 0 <= i < |cart| ==> cart[i].quantity >= 1
  }

  /** `addToCart`: one more of a product already in the cart, else a new
      line with quantity 1 at the end. */
  function AddToCart(cart: seq<CartItem>, product: Product): (r: seq<CartItem>)
    ensures InCart(cart, product.id) ==>
              |r| == |cart|
              && (forall i :: 0 <= i < |cart| && cart[i].product.id == product.id ==>
                    r[i] == cart[i].(quantity := cart[i].quantity + 1))
              && (forall i :: 0 <= i < |cart| && cart[i].product.id != product.id ==> r[i] == cart[i])
    ensures !InCart(cart, product.id) ==> r == cart + [CartItem(product, 1)]
    ensures WellFormed(cart) ==> WellFormed(r)
  {
    if InCart(cart, product.id) then
      Seqs.UpdateWhere(cart, (item: CartItem) => item.product.id == product.id,
                       (item: CartItem) => item.(quantity := item.quantity + 1))
    else
      var r := cart + [CartItem(product, 1)];
      assert forall i :: 0 <= i < |cart| ==> r[i] == cart[i];
      r
  }

  /** `removeFromCart` */
  function RemoveFromCart(cart: seq<CartItem>, id: int): (r: seq<CartItem>)
    ensures !InCart(r, id)
    ensures forall i :: 0 <= i < |cart| && cart[i].product.id != id ==> cart[i] in r
    ensures Seqs.IsSubseq(r, cart)
    ensures forall x: CartItem :: multiset(r)[x] == if x.product.id != id then multiset(cart)[x] else 0
    ensures WellFormed(cart) ==> WellFormed(r)
  {
    var r := Seqs.Filter(cart, (item: CartItem) => item.product.id != id);
    Seqs.FilterCounts(cart, (item: CartItem) => item.product.id != id);
    assert WellFormed(cart) ==> WellFormed(r) by {
      if WellFormed(cart) {
        Seqs.SubseqKeepsUnique(r, cart, ItemKey);
        forall j | 0 <= j < |r| ensures r[j].quantity >= 1 {
          assert r[j] in cart;
        }
      }
    }
    r
  }

  /** `updateQuantity`: a quantity below 1 is ignored. */
  function UpdateQuantity(cart: seq<CartItem>, id: int, quantity: int): (r: seq<CartItem>)
    ensures quantity < 1 ==> r == cart
    ensures quantity >= 1 ==>
              |r| == |cart|
              && (forall i :: 0 <= i < |cart| && cart[i].product.id == id ==> r[i] == cart[i].(quantity := quantity))
              && (forall i :: 0 <= i < |cart| && cart[i].product.id != id ==> r[i] == cart[i])
    ensures WellFormed(cart) ==> WellFormed(r)
  {
    if quantity < 1 then cart
    else Seqs.UpdateWhere(cart, (item: CartItem) => item.product.id == id,
                          (item: CartItem) => item.(quantity := quantity))
  }

  // ------------------------------------------------------------- total

  /** `item.price * item.quantity`: `*` converts the price to a number. */
  function LineTotal(item: CartItem): (r: Val)
    ensures !r.Str?
  {
    match ToNumber(item.product.price)
    case Num(p) => Num(p * item.quantity)
    case _ => NaN
  }

  /** `cart.reduce((sum, item) => sum + item.price * item.quantity, 0)`,
      folded from the left. */
  function CalculateTotal(cart: seq<CartItem>): (r: Val)
    ensures !r.Str?
    decreases |cart|
  {
    if |cart| == 0 then Num(0)
    else AddNumbers(CalculateTotal(cart[..|cart| - 1]), LineTotal(cart[|cart| - 1]))
  }

  predicate PricedAsNumber(item: CartItem) {
    ToNumber(item.product.price).Num?
  }

  function Amount(item: CartItem): int {
    if PricedAsNumber(item) then ToNumber(item.product.price).n * item.quantity else 0
  }

  /** The total is a number exactly when every price reads as one, and is
      then the sum of price times quantity over the cart. */
  lemma {:induction false} TotalIsSumOfLines(cart: seq<CartItem>)
    ensures CalculateTotal(cart).Num? <==> forall i :: 0 <= i < |cart| ==> PricedAsNumber(cart[i])
    ensures CalculateTotal(cart).Num? ==> CalculateTotal(cart).n == Seqs.Sum(cart, Amount)
    decreases |cart|
  {
    if |cart| > 0 {
      var front := cart[..|cart| - 1];
      var last := cart[|cart| - 1];
      TotalIsSumOfLines(front);
      assert cart == front + [last];
      Seqs.SumAppend(front, [last], Amount);
      assert (forall i :: 0 <= i < |cart| ==> PricedAsNumber(cart[i]))
             <==> (forall i :: 0 <= i < |front| ==> PricedAsNumber(front[i])) && PricedAsNumber(last);
    }
  }

  // ---------------------------------------------------------- checkout

  datatype Checkout = Checkout(bookingId: string, items: seq<CartItem>, totalAmount: Val)

  /** `handleCheckout`: nothing without a selected booking or with an empty
      cart; otherwise the checkout page is opened with the cart and total. */
  function HandleCheckout(selected: Option<BookingStore.Booking>, cart: seq<CartItem>): (r: Option<Checkout>)
    ensures r.Some? <==> selected.Some? && |cart| > 0
    ensures r.Some? ==> r.value.bookingId == selected.value.id && r.value.items == cart
    ensures r.Some? && (forall i :: 0 <= i < |cart| ==> PricedAsNumber(cart[i])) ==>
              r.value.totalAmount == Num(Seqs.Sum(cart, Amount))
  {
    if selected.None? || |cart| == 0 then None
    else
      TotalIsSumOfLines(cart);
      Some(Checkout(selected.value.id, cart, CalculateTotal(cart)))
  }
}

=== FILE: seqs.dfy ===
/** The array operations the stores are built from (`filter`, `map` with a
    replacement, `reduce` to a sum, a stable descending `sort`), each with
    the facts the stores' contracts rest on. */
module Seqs {
  import opened Base

  /** `a` can be obtained from `b` by deleting elements: it keeps `b`'s order. */
  predicate IsSubseq<T(==)>(a: seq<T>, b: seq<T>)
    decreases |b|
  {
    |a| == 0 || (|b| > 0 && ((a[0] == b[0] && IsSubseq(a[1..], b[1..])) || IsSubseq(a, b[1..])))
  }

  /** `Array.prototype.filter`. */
  function Filter<T>(s: seq<T>, p: T -> bool): (r: seq<T>)
    ensures |r| <= |s|
    ensures forall i :: 0 <= i < |r| ==> r[i] in s && p(r[i])
    ensures forall i :: 0 <= i < |s| && p(s[i]) ==> s[i] in r
    ensures IsSubseq(r, s)
    ensures (forall i :: 0 <= i < |s| ==> p(s[i])) ==> r == s
  {
    if |s| == 0 then []
    else
      var rest := Filter(s[1..], p);
      if p(s[0]) then
        assert ([s[0]] + rest)[1..] == rest;
        [s[0]] + rest
      else rest
  }

  /** `filter` keeps every copy of an element that passes, and no copy of
      one that fails. */
  lemma {:induction false} FilterCounts<T(!new)>(s: seq<T>, p: T -> bool)
    ensures forall x :: multiset(Filter(s, p))[x] == if p(x) then multiset(s)[x] else 0
    decreases |s|
  {
    if |s| > 0 {
      FilterCounts(s[1..], p);
      assert s == [s[0]] + s[1..];
    }
  }

  lemma {:induction false} FilterAppend<T(!new)>(s: seq<T>, t: seq<T>, p: T -> bool)
    ensures Filter(s + t, p) == Filter(s, p) + Filter(t, p)
    decreases |s|
  {
    if |s| == 0 {
      assert s + t == t;
    } else {
      assert (s + t)[1..] == s[1..] + t;
      FilterAppend(s[1..], t, p);
    }
  }

  /** `filter` only looks at what the test says about the elements present. */
  lemma {:induction false} FilterCongruent<T(!new)>(s: seq<T>, p: T -> bool, q: T -> bool)
    requires forall i :: 0 <= i < |s| ==> p(s[i]) == q(s[i])
    ensures Filter(s, p) == Filter(s, q)
    decreases |s|
  {
    if |s| > 0 {
      FilterCongruent(s[1..], p, q);
    }
  }

  /** Filtering by a stricter test is filtering the looser result again. */
  lemma {:induction false} FilterNarrower<T(!new)>(s: seq<T>, p: T -> bool, q: T -> bool)
    requires forall i :: 0 <= i < |s| && p(s[i]) ==> q(s[i])
    ensures Filter(s, p) == Filter(Filter(s, q), p)
    decreases |s|
  {
    if |s| > 0 {
      FilterNarrower(s[1..], p, q);
      if q(s[0]) {
        assert Filter(s, q) == [s[0]] + Filter(s[1..], q);
        assert ([s[0]] + Filter(s[1..], q))[1..] == Filter(s[1..], q);
      }
    }
  }

  /** Filtering twice by the same test is filtering once. */
  lemma {:induction false} FilterIdempotent<T(!new)>(s: seq<T>, p: T -> bool)
    ensures Filter(Filter(s, p), p) == Filter(s, p)
  {
    var r := Filter(s, p);
    forall i | 0 <= i < |r| ensures p(r[i]) {
      assert r[i] in r;
    }
  }

  /** `Array.prototype.find`: the first element that passes, if any. */
  function Find<T>(s: seq<T>, p: T -> bool): (r: Option<T>)
    ensures r.None? <==> forall i :: 0 <= i < |s| ==> !p(s[i])
    ensures r.Some? ==> exists k :: 0 <= k < |s| && s[k] == r.value && p(s[k])
                          && forall i :: 0 <= i < k ==> !p(s[i])
  {
    if |s| == 0 then None
    else if p(s[0]) then Some(s[0])
    else
      var r := Find(s[1..], p);
      assert r.Some? ==> exists k :: 0 <= k < |s| && s[k] == r.value && p(s[k])
                          && forall i :: 0 <= i < k ==> !p(s[i]) by {
        if r.Some? {
          var k :| 0 <= k < |s[1..]| && s[1..][k] == r.value && p(s[1..][k])
                   && forall i :: 0 <= i < k ==> !p(s[1..][i]);
          assert s[k + 1] == r.value;
          assert forall i :: 0 <= i < k + 1 ==> !p(s[i]) by {
            forall i | 0 <= i < k + 1 ensures !p(s[i]) {
              if i > 0 { assert s[i] == s[1..][i - 1]; }
            }
          }
        }
      }
      r
  }

  /** `map(x => matches(x) ? f(x) : x)`: the shape of every store update. */
  function UpdateWhere<T>(s: seq<T>, matches: T -> bool, f: T -> T): (r: seq<T>)
    ensures |r| == |s|
    ensures forall i :: 0 <= i < |s| && matches(s[i]) ==> r[i] == f(s[i])
    ensures forall i :: 0 <= i < |s| && !matches(s[i]) ==> r[i] == s[i]
  {
    seq(|s|, i requires 0 <= i < |s| => if matches(s[i]) then f(s[i]) else s[i])
  }

  /** `reduce((sum, x) => sum + f(x), 0)`. */
  function Sum<T>(s: seq<T>, f: T -> int): int {
    if |s| == 0 then 0 else f(s[0]) + Sum(s[1..], f)
  }

  lemma {:induction false} SumAppend<T>(s: seq<T>, t: seq<T>, f: T -> int)
    ensures Sum(s + t, f) == Sum(s, f) + Sum(t, f)
    decreases |s|
  {
    if |s| == 0 {
      assert s + t == t;
    } else {
      assert (s + t)[1..] == s[1..] + t;
      SumAppend(s[1..], t, f);
    }
  }

  /** Replacing one element changes the sum by the difference. */
  lemma {:induction false} SumUpdate<T>(s: seq<T>, i: nat, x: T, f: T -> int)
    requires i < |s|
    ensures Sum(s[i := x], f) == Sum(s, f) - f(s[i]) + f(x)
    decreases |s|
  {
    if i > 0 {
      assert s[i := x][1..] == s[1..][i - 1 := x];
      SumUpdate(s[1..], i - 1, x, f);
    } else {
      assert s[i := x][1..] == s[1..];
    }
  }

  /** A sum of pointwise sums is the sum of the two sums. */
  lemma {:induction false} SumSplit<T>(s: seq<T>, f: T -> int, g: T -> int, h: T -> int)
    requires forall i :: 0 <= i < |s| ==> f(s[i]) == g(s[i]) + h(s[i])
    ensures Sum(s, f) == Sum(s, g) + Sum(s, h)
    decreases |s|
  {
    if |s| > 0 {
      SumSplit(s[1..], f, g, h);
    }
  }

  lemma {:induction false} SumNonNegative<T>(s: seq<T>, f: T -> int)
    requires forall i :: 0 <= i < |s| ==> f(s[i]) >= 0
    ensures Sum(s, f) >= 0
    decreases |s|
  {
    if |s| > 0 {
      SumNonNegative(s[1..], f);
    }
  }

  lemma {:induction false} SumOfFilter<T(!new)>(s: seq<T>, p: T -> bool, f: T -> int, g: T -> int)
    requires forall i :: 0 <= i < |s| ==> g(s[i]) == (if p(s[i]) then f(s[i]) else 0)
    ensures Sum(Filter(s, p), f) == Sum(s, g)
    decreases |s|
  {
    if |s| > 0 {
      SumOfFilter(s[1..], p, f, g);
      var rest := Filter(s[1..], p);
      if p(s[0]) {
        assert ([s[0]] + rest)[1..] == rest;
      }
    }
  }


  /** No two elements share a key. */
  ghost predicate UniqueBy<T, K>(s: seq<T>, key: T -> K) {
    forall i, j :: 0 <= i < j < |s| ==> key(s[i]) != key(s[j])
  }

  lemma {:induction false} SubseqMembers<T>(a: seq<T>, b: seq<T>)
    requires IsSubseq(a, b)
    ensures forall j :: 0 <= j < |a| ==> exists k :: 0 <= k < |b| && b[k] == a[j]
    decreases |b|
  {
    if |a| > 0 {
      if a[0] == b[0] && IsSubseq(a[1..], b[1..]) {
        SubseqMembers(a[1..], b[1..]);
        forall j | 0 < j < |a| ensures exists k :: 0 <= k < |b| && b[k] == a[j] {
          assert a[j] == a[1..][j - 1];
          var k :| 0 <= k < |b[1..]| && b[1..][k] == a[j];
          assert b[k + 1] == a[j];
        }
      } else {
        SubseqMembers(a, b[1..]);
        forall j | 0 <= j < |a| ensures exists k :: 0 <= k < |b| && b[k] == a[j] {
          var k :| 0 <= k < |b[1..]| && b[1..][k] == a[j];
          assert b[k + 1] == a[j];
        }
      }
    }
  }

  /** Deleting elements cannot create a duplicate key. */
  lemma {:induction false} SubseqKeepsUnique<T, K>(a: seq<T>, b: seq<T>, key: T -> K)
    requires IsSubseq(a, b) && UniqueBy(b, key)
    ensures UniqueBy(a, key)
    decreases |b|
  {
    if |a| > 0 {
      if a[0] == b[0] && IsSubseq(a[1..], b[1..]) {
        SubseqKeepsUnique(a[1..], b[1..], key);
        SubseqMembers(a[1..], b[1..]);
        forall j | 0 < j < |a| ensures key(a[0]) != key(a[j]) {
          assert a[j] == a[1..][j - 1];
          var k :| 0 <= k < |b[1..]| && b[1..][k] == a[j];
          assert b[k + 1] == a[j];
        }
        forall i, j | 0 <= i < j < |a| ensures key(a[i]) != key(a[j]) {
          if i > 0 {
            assert a[i] == a[1..][i - 1] && a[j] == a[1..][j - 1];
          }
        }
      } else {
        forall i, j | 0 <= i < j < |b[1..]| ensures key(b[1..][i]) != key(b[1..][j]) {
          assert b[1..][i] == b[i + 1] && b[1..][j] == b[j + 1];
        }
        SubseqKeepsUnique(a, b[1..], key);
      }
    }
  }

  // ------------------------------------------------------------------ sort

  ghost predicate SortedDesc<T>(s: seq<T>, key: T -> int) {
    forall i, j :: 0 <= i < j < |s| ==> key(s[i]) >= key(s[j])
  }

  /** Places `x` before the first element whose key is not larger, so that
      among equal keys the earlier input element comes first. */
  function InsertDesc<T>(x: T, s: seq<T>, key: T -> int): (r: seq<T>)
    requires SortedDesc(s, key)
    ensures |r| == |s| + 1
    ensures multiset(r) == multiset(s) + multiset{x}
    ensures SortedDesc(r, key)
    ensures r[0] == x || (|s| > 0 && r[0] == s[0])
  {
    if |s| == 0 || key(s[0]) <= key(x) then
      [x] + s
    else
      var rest := InsertDesc(x, s[1..], key);
      assert s == [s[0]] + s[1..];
      var r := [s[0]] + rest;
      assert key(r[0]) >= key(rest[0]);
      forall i, j | 0 <= i < j < |r| ensures key(r[i]) >= key(r[j]) {
        if i == 0 {
          assert key(rest[0]) >= key(rest[j - 1]) || j - 1 == 0;
        }
      }
      r
  }

  /** `Array.prototype.sort((a, b) => key(b) - key(a))`, which is stable. */
  function SortDesc<T>(s: seq<T>, key: T -> int): (r: seq<T>)
    ensures |r| == |s|
    ensures multiset(r) == multiset(s)
    ensures SortedDesc(r, key)
  {
    if |s| == 0 then []
    else
      assert s == [s[0]] + s[1..];
      InsertDesc(s[0], SortDesc(s[1..], key), key)
  }

  /** The first `n` of a sorted list are a sorted sub-multiset, and nothing
      left behind has a larger key than any of them. */
  lemma PrefixOfSorted<T>(sorted: seq<T>, n: nat, key: T -> int)
    requires SortedDesc(sorted, key) && n <= |sorted|
    ensures SortedDesc(sorted[..n], key)
    ensures multiset(sorted[..n]) <= multiset(sorted)
    ensures forall x, i :: x in multiset(sorted) - multiset(sorted[..n]) && 0 <= i < n ==> key(x) <= key(sorted[i])
  {
    assert sorted == sorted[..n] + sorted[n..];
    assert multiset(sorted) == multiset(sorted[..n]) + multiset(sorted[n..]);
    forall x, i | x in multiset(sorted) - multiset(sorted[..n]) && 0 <= i < n ensures key(x) <= key(sorted[i]) {
      assert x in multiset(sorted[n..]);
      var j :| 0 <= j < |sorted[n..]| && sorted[n..][j] == x;
      assert sorted[n + j] == x;
    }
  }

  /** The first `n` after sorting: drawn from the input, sorted, and
      nothing left out ranks above anything taken. */
  lemma TakeSorted<T>(s: seq<T>, n: nat, key: T -> int)
    requires n <= |s|
    ensures var r := SortDesc(s, key)[..n];
      && multiset(r) <= multiset(s) && SortedDesc(r, key)
      && (forall i :: 0 <= i < |r| ==> r[i] in s)
      && (forall x, i :: x in multiset(s) - multiset(r) && 0 <= i < |r| ==> key(x) <= key(r[i]))
  {
    var sorted := SortDesc(s, key);
    PrefixOfSorted(sorted, n, key);
    var r := sorted[..n];
    forall i | 0 <= i < |r| ensures r[i] in s {
      assert r[i] in multiset(r);
      assert r[i] in multiset(s);
    }
  }

  // ---------------------------------------------------------- counting

  ghost predicate Distinct<T>(s: seq<T>) {
    forall i, j :: 0 <= i < j < |s| ==> s[i] != s[j]
  }

  ghost function Elements<T>(s: seq<T>): set<T> {
    set x | x in s
  }

  lemma {:induction false} ElementsCount<T>(s: seq<T>)
    ensures |Elements(s)| <= |s|
    ensures Distinct(s) ==> |Elements(s)| == |s|
    decreases |s|
  {
    if |s| > 0 {
      ElementsCount(s[1..]);
      assert Elements(s) == {s[0]} + Elements(s[1..]);
      if Distinct(s) {
        assert s[0] !in Elements(s[1..]);
      }
    }
  }

  /** A list without repeats drawn from another list is no longer than it;
      if it is as long, it holds every element of the other. */
  lemma DistinctWithin<T>(a: seq<T>, b: seq<T>)
    requires Distinct(a) && forall k :: 0 <= k < |a| ==> a[k] in b
    ensures |a| <= |b|
    ensures Distinct(b) && |a| == |b| ==> forall k :: 0 <= k < |b| ==> b[k] in a
  {
    ElementsCount(a);
    ElementsCount(b);
    var A, B := Elements(a), Elements(b);
    assert A <= B;
    assert B == A + (B - A) && A * (B - A) == {};
    assert |B| == |A| + |B - A|;
    if Distinct(b) && |a| == |b| {
      assert |B - A| == 0;
      forall k | 0 <= k < |b| ensures b[k] in a {
        assert b[k] in Elements(b);
      }
    }
  }
}

=== FILE: service_store.dfy ===
/** The catalogue of extra services a booking can include (src/store/useServiceStore.js). */
module ServiceStore {
  import opened Base
  import Seqs

  datatype Service = Service(id: int, name: string, price: int)

  /** The fields an update may carry; an absent field keeps its old value. */
  datatype ServicePatch = ServicePatch(id: Option<int>, name: Option<string>, price: Option<int>)

  predicate HasService(services: seq<Service>, id: int) {
    exists i :: 0 <= i < |services| && services[i].id == id
  }

  function ServiceKey(s: Service): int { s.id }

  ghost predicate UniqueIds(services: seq<Service>) {
    Seqs.UniqueBy(services, ServiceKey)
  }

  /** The services the store starts with. */
  function Seed(): (r: seq<Service>)
    ensures |r| == 4
    ensures forall i :: 0 <= i < 4 ==> r[i].id == i + 1 && r[i].price > 0
    ensures UniqueIds(r)
  {
    [ Service(1, "Breakfast", 1500),
      Service(2, "Airport Transfer", 5000),
      Service(3, "Laundry", 2500),
      Service(4, "Spa Package", 10000) ]
  }

  /** `{ ...service, ...updates }` */
  function Merge(s: Service, p: ServicePatch): Service {
    Service(p.id.GetOr(s.id), p.name.GetOr(s.name), p.price.GetOr(s.price))
  }

  function AddService(services: seq<Service>, service: Service): (r: seq<Service>)
    ensures |r| == |services| + 1
    ensures r[..|services|] == services && r[|services|] == service
  {
    services + [service]
  }

  function UpdateService(services: seq<Service>, id: int, updates: ServicePatch): (r: seq<Service>)
    ensures |r| == |services|
    ensures forall i :: 0 <= i < |services| && services[i].id == id ==>
              r[i] == Merge(services[i], updates)
    ensures forall i :: 0 <= i < |services| && services[i].id != id ==> r[i] == services[i]
    ensures !HasService(services, id) ==> r == services
  {
    Seqs.UpdateWhere(services, (s: Service) => s.id == id, (s: Service) => Merge(s, updates))
  }

  function RemoveService(services: seq<Service>, id: int): (r: seq<Service>)
    ensures !HasService(r, id)
    ensures forall i :: 0 <= i < |services| && services[i].id != id ==> services[i] in r
    ensures Seqs.IsSubseq(r, services)
    ensures forall x: Service :: multiset(r)[x] == if x.id != id then multiset(services)[x] else 0
    ensures !HasService(services, id) ==> r == services
  {
    Seqs.FilterCounts(services, (s: Service) => s.id != id);
    Seqs.Filter(services, (s: Service) => s.id != id)
  }

  /** An update that leaves the id alone, and any removal, keep ids unique. */
  lemma {:induction false} EditsKeepUnique(services: seq<Service>, id: int, updates: ServicePatch)
    requires UniqueIds(services)
    ensures updates.id.None? ==> UniqueIds(UpdateService(services, id, updates))
    ensures UniqueIds(RemoveService(services, id))
  {
    var u := UpdateService(services, id, updates);
    if updates.id.None? {
      forall i, j | 0 <= i < j < |u| ensures ServiceKey(u[i]) != ServiceKey(u[j]) {
        assert u[i].id == services[i].id && u[j].id == services[j].id;
      }
    }
    Seqs.SubseqKeepsUnique(RemoveService(services, id), services, ServiceKey);
  }

  /** Removing an id right after adding a service with it is the same as
      removing it without the add. */
  lemma {:induction false} AddThenRemove(services: seq<Service>, service: Service)
    ensures RemoveService(AddService(services, service), service.id) == RemoveService(services, service.id)
  {
    var p := (s: Service) => s.id != service.id;
    assert AddService(services, service) == services + [service];
    Seqs.FilterAppend(services, [service], p);
    assert Seqs.Filter([service], p) == [];
  }
}

=== FILE: staff_store.dfy ===
/** The staff register (src/store/useStaffStore.js): the fixed departments
    and their positions, a filtered view, and keyed edits. */
module StaffStore {
  import opened Base
  import Seqs

  datatype Member = Member(
    id: string,
    name: string,
    email: string,
    phone: string,
    address: string,
    department: string,
    position: string,
    status: string,
    hireDate: string,
    lastUpdated: string)

  /** The staff form's fields; a status given here is overridden on add. */
  datatype MemberData = MemberData(
    name: string,
    email: string,
    phone: string,
    address: string,
    department: string,
    position: string,
    status: Option<string>)

  /** The fields an update may carry; absent fields keep their value. */
  datatype MemberPatch = MemberPatch(
    id: string,
    name: Option<string>,
    email: Option<string>,
    phone: Option<string>,
    address: Option<string>,
    department: Option<string>,
    position: Option<string>,
    status: Option<string>,
    hireDate: Option<string>)

  datatype Filters = Filters(department: string, status: string, search: string)

  const Departments: seq<string> :=
    ["Front Desk", "Housekeeping", "Kitchen", "Maintenance", "Management", "Security"]

  /** `POSITIONS[department] || []` */
  function GetPositions(department: string): (r: seq<string>)
    ensures |r| > 0 <==> department in Departments
    ensures |r| <= 4
  {
    match department
    case "Front Desk" => ["Receptionist", "Concierge", "Front Desk Manager"]
    case "Housekeeping" => ["Housekeeper", "Supervisor", "Laundry Attendant"]
    case "Kitchen" => ["Chef", "Sous Chef", "Cook", "Dishwasher"]
    case "Maintenance" => ["Technician", "Engineer"]
    case "Management" => ["Manager", "Assistant Manager"]
    case "Security" => ["Guard", "Security Officer"]
    case _ => []
  }

  /** The three tests of `getFilteredStaff`. */
  predicate Matches(m: Member, f: Filters) {
    (f.department == "all" || m.department == f.department)
    && (f.status == "all" || m.status == f.status)
    && (f.search == ""
        || ContainsIgnoringCase(m.name, f.search)
        || ContainsIgnoringCase(m.position, f.search))
  }

  /** `getFilteredStaff`: the members passing all three tests, in order. */
  function GetFilteredStaff(staff: seq<Member>, f: Filters): (r: seq<Member>)
    ensures Seqs.IsSubseq(r, staff)
    ensures forall x: Member :: multiset(r)[x] == if Matches(x, f) then multiset(staff)[x] else 0
    ensures forall i :: 0 <= i < |r| ==> Matches(r[i], f)
    ensures forall i :: 0 <= i < |staff| && Matches(staff[i], f) ==> staff[i] in r
    ensures f == Filters("all", "all", "") ==> r == staff
  {
    Seqs.FilterCounts(staff, (m: Member) => Matches(m, f));
    Seqs.Filter(staff, (m: Member) => Matches(m, f))
  }

  /** With the other two filters off, a non-empty search keeps exactly the
      members whose name or position holds it as a case-blind substring. */
  lemma SearchOnly(staff: seq<Member>, search: string, i: nat)
    requires i < |staff| && search != ""
    ensures staff[i] in GetFilteredStaff(staff, Filters("all", "all", search))
            <==> ContainsIgnoringCase(staff[i].name, search) || ContainsIgnoringCase(staff[i].position, search)
  {
    var r := GetFilteredStaff(staff, Filters("all", "all", search));
    if staff[i] in r {
      var j :| 0 <= j < |r| && r[j] == staff[i];
      assert Matches(r[j], Filters("all", "all", search));
    }
  }

  predicate HasMember(staff: seq<Member>, id: string) {
    exists i :: 0 <= i < |staff| && staff[i].id == id
  }

  function MemberKey(m: Member): string { m.id }

  ghost predicate UniqueIds(staff: seq<Member>) {
    Seqs.UniqueBy(staff, MemberKey)
  }

  /** `addStaff`: `id` is the uuid, `now` the clock reading. */
  function AddStaff(staff: seq<Member>, data: MemberData, id: string, now: string): (r: seq<Member>)
    ensures |r| == |staff| + 1 && r[..|staff|] == staff
    ensures var m := r[|staff|];
      m.id == id && m.status == "Active" && m.hireDate == now && m.lastUpdated == now
      && m.name == data.name && m.email == data.email && m.phone == data.phone
      && m.address == data.address && m.department == data.department && m.position == data.position
  {
    var m := Member(id, data.name, data.email, data.phone, data.address, data.department,
                    data.position, "Active", now, now);
    var r := staff + [m];
    assert r[..|staff|] == staff;
    r
  }

  /** `{ ...s, ...staffData, lastUpdated }` */
  function Merge(m: Member, p: MemberPatch, now: string): (r: Member)
    ensures r.id == p.id && r.lastUpdated == now
    ensures p == MemberPatch(m.id, None, None, None, None, None, None, None, None) ==> r == m.(lastUpdated := now)
  {
    Member(p.id, p.name.GetOr(m.name), p.email.GetOr(m.email), p.phone.GetOr(m.phone),
           p.address.GetOr(m.address), p.department.GetOr(m.department), p.position.GetOr(m.position),
           p.status.GetOr(m.status), p.hireDate.GetOr(m.hireDate), now)
  }

  /** `updateStaff`: merges the patch into the member with its id. */
  function UpdateStaff(staff: seq<Member>, p: MemberPatch, now: string): (r: seq<Member>)
    ensures |r| == |staff|
    ensures forall i :: 0 <= i < |staff| && staff[i].id == p.id ==> r[i] == Merge(staff[i], p, now)
    ensures forall i :: 0 <= i < |staff| && staff[i].id != p.id ==> r[i] == staff[i]
    ensures forall i :: 0 <= i < |staff| ==> r[i].id == staff[i].id
  {
    Seqs.UpdateWhere(staff, (m: Member) => m.id == p.id, (m: Member) => Merge(m, p, now))
  }

  /** `deleteStaff` */
  function DeleteStaff(staff: seq<Member>, id: string): (r: seq<Member>)
    ensures forall i :: 0 <= i < |r| ==> r[i].id != id
    ensures forall i :: 0 <= i < |staff| && staff[i].id != id ==> staff[i] in r
    ensures Seqs.IsSubseq(r, staff)
    ensures forall x: Member :: multiset(r)[x] == if x.id != id then multiset(staff)[x] else 0
  {
    Seqs.FilterCounts(staff, (m: Member) => m.id != id);
    Seqs.Filter(staff, (m: Member) => m.id != id)
  }

  /** `changeStaffStatus`: only the status and the update time of the
      member with that id change. */
  function ChangeStaffStatus(staff: seq<Member>, id: string, status: string, now: string): (r: seq<Member>)
    ensures |r| == |staff|
    ensures forall i :: 0 <= i < |staff| && staff[i].id == id ==>
              r[i].status == status && r[i].lastUpdated == now
              && r[i].(status := staff[i].status, lastUpdated := staff[i].lastUpdated) == staff[i]
    ensures forall i :: 0 <= i < |staff| && staff[i].id != id ==> r[i] == staff[i]
  {
    Seqs.UpdateWhere(staff, (m: Member) => m.id == id, (m: Member) => m.(status := status, lastUpdated := now))
  }

  predicate OnHousekeepingDuty(m: Member) {
    m.department == "Housekeeping" && m.status == "Active"
  }

  /** `getHousekeepingStaff` */
  function GetHousekeepingStaff(staff: seq<Member>): (r: seq<Member>)
    ensures Seqs.IsSubseq(r, staff)
    ensures forall x: Member :: multiset(r)[x] == if OnHousekeepingDuty(x) then multiset(staff)[x] else 0
    ensures forall i :: 0 <= i < |r| ==> OnHousekeepingDuty(r[i])
    ensures forall i :: 0 <= i < |staff| && OnHousekeepingDuty(staff[i]) ==> staff[i] in r
  {
    Seqs.FilterCounts(staff, OnHousekeepingDuty);
    Seqs.Filter(staff, OnHousekeepingDuty)
  }

  /** The housekeeping list is the filtered view with department
      Housekeeping, status Active and no search. */
  lemma {:induction false} HousekeepingIsAFilteredView(staff: seq<Member>)
    ensures GetHousekeepingStaff(staff) == GetFilteredStaff(staff, Filters("Housekeeping", "Active", ""))
  {
    Seqs.FilterCongruent(staff, OnHousekeepingDuty, (m: Member) => Matches(m, Filters("Housekeeping", "Active", "")));
  }

  /** Adding under a fresh id keeps the register's ids unique. */
  lemma {:induction false} AddKeepsUnique(staff: seq<Member>, data: MemberData, id: string, now: string)
    requires UniqueIds(staff) && !HasMember(staff, id)
    ensures UniqueIds(AddStaff(staff, data, id, now))
  {
    var a := AddStaff(staff, data, id, now);
    forall i, j | 0 <= i < j < |a| ensures MemberKey(a[i]) != MemberKey(a[j]) {
      assert a[i] == staff[i];
      if j < |staff| {
        assert a[j] == staff[j];
      }
    }
  }

  /** Updating, changing a status and deleting keep the ids unique. */
  lemma {:induction false} EditsKeepUnique(staff: seq<Member>, p: MemberPatch, id: string, status: string, now: string)
    requires UniqueIds(staff)
    ensures UniqueIds(UpdateStaff(staff, p, now))
    ensures UniqueIds(ChangeStaffStatus(staff, id, status, now))
    ensures UniqueIds(DeleteStaff(staff, id))
  {
    var u := UpdateStaff(staff, p, now);
    forall i, j | 0 <= i < j < |u| ensures MemberKey(u[i]) != MemberKey(u[j]) {
      assert u[i].id == staff[i].id && u[j].id == staff[j].id;
    }
    var c := ChangeStaffStatus(staff, id, status, now);
    forall i, j | 0 <= i < j < |c| ensures MemberKey(c[i]) != MemberKey(c[j]) {
      assert c[i].id == staff[i].id && c[j].id == staff[j].id;
    }
    Seqs.SubseqKeepsUnique(DeleteStaff(staff, id), staff, MemberKey);
  }

  /** Deleting a member just added under a fresh id restores the register. */
  lemma {:induction false} AddThenDelete(staff: seq<Member>, data: MemberData, id: string, now: string)
    requires !HasMember(staff, id)
    ensures DeleteStaff(AddStaff(staff, data, id, now), id) == staff
  {
    var a := AddStaff(staff, data, id, now);
    var p := (m: Member) => m.id != id;
    assert a == staff + [a[|staff|]];
    Seqs.FilterAppend(staff, [a[|staff|]], p);
    assert Seqs.Filter([a[|staff|]], p) == [];
  }
}
